=== FILE: README.md ===
# A Dafny model of the Letta–Gemini integration scripts

The repository is glue around the Letta server, the Gemini SDK and a few
web services. Its deterministic core is modelled here:

- the three file-backed memory stores: the Letta server's memory manager,
  the Windsurf memory system and the chatbot's memory writer;
- the read-side tools over the same records: the category analyser and the
  memory inspector;
- the conversation database's query builder, over an abstract table of rows;
- the small parsers and serialisers: the env-file loader and saver with its
  validators, the single-key token-line readers, the diagnostics report
  formatters, the agent-configuration builder and the versatile agent's
  configuration merge;
- the decision logic: the UAT result accumulator and its run, the status
  checker's log-file checks and repair dispatch, the installation checks,
  device detection and the bounded environment log.

Every call to the outside world (the file system, the clock, uuid, HTTP,
the Gemini model, subprocesses, SQLite) is a parameter: the directory is a
sequence of `(name, body)` files in listing order, a clock reading or an id
is a string argument, an HTTP probe is its status code or the text of the
exception it raised, and a write is a flag saying whether it succeeded.
Python exceptions are the `Err` side of a `Result` whose `Fault` names the
exception, so each error path is stated.

## Layout

| file | module | models |
|---|---|---|
| wrappers.dfy | Wrappers | `Option`, `Result`, and the faults the scripts raise |
| seqs.dfy | Seqs | generic facts about sequences |
| text.dfy | Text | the `str` operations the scripts use: `lower`, `strip`, `split`, `in`, file-line iteration, `str(int)` |
| json.dfy | Json | JSON values, Python truthiness and `dict.get` |
| ordered_dict.dfy | OrderedDict | insertion-ordered dicts, where the order is observable |
| sorting.dfy | Sorting | the stable descending sort of `list.sort(reverse=True)` |
| memory_files.dfy | MemoryFiles | the memory directory, the topic sanitiser, lookup by id, newest-first order |
| letta_memory.dfy | LettaMemory | letta_server/app.py |
| windsurf_memory.dfy | WindsurfMemory | scripts/windsurf_memory_demo.py |
| chatbot_memory.dfy | ChatbotMemory | agents/gemini_chatbot.py |
| categorizer.dfy | Categorizer | scripts/analyze_letta_memory_categories.py |
| inspector.dfy | Inspector | scripts/inspect_letta_memory.py |
| conversation_db.dfy | ConversationDb | the `ConversationDatabase` of letta_server_manager.py |
| env_config.dfy | EnvConfig | scripts/configure_letta_env.py |
| key_file.dfy | KeyFile | the `KEY=value` line reader shared by the diagnostics and Taskade scripts |
| diagnostics.dfy | Diagnostics | scripts/ai_diagnostics.py |
| taskade_sync.dfy | TaskadeSync | scripts/taskade_integration.py |
| status_check.dfy | StatusCheck | scripts/check_letta_status.py |
| install_verify.dfy | InstallVerify | scripts/verify_letta_installation.py |
| device_tracking.dfy | DeviceTracking | scripts/env_check.py |
| agent_config.dfy | AgentConfig | `create_letta_agent_config` in scripts/gemini_integration.py |
| versatile_agent.dfy | VersatileAgent | the configuration handling of agents/gemini_versatile_agent.py |
| uat.dfy | Uat | scripts/run_gemini_integration_uat.py |

## Model

| member | source | states |
|---|---|---|
| OrderedDict.Set | scripts/configure_letta_env.py:21 | `d[k] = v` stores `v` under `k`. An existing key keeps its position, and a new key goes last. Every other key keeps its value, and the keys stay distinct. |
| OrderedDict.Get | scripts/configure_letta_env.py:120-126 | A lookup finds a value exactly when the key is present. |
| Json.Get | scripts/taskade_integration.py:165 | `d.get(key, default)` is the stored value when the key is present and the default otherwise. |
| Sorting.Insert | scripts/analyze_letta_memory_categories.py:112 | Inserting into a descending list keeps it descending and adds exactly the one element. |
| Sorting.SortDescending | scripts/analyze_letta_memory_categories.py:112 | `sorted(..., reverse=True)` returns a permutation of its input in descending order. |
| Text.Lower | scripts/env_check.py:36 | `str.lower()` keeps the length. Each ASCII upper-case letter becomes its lower-case letter, 32 code points on, and every other character is unchanged. |
| Text.SplitOnce | scripts/configure_letta_env.py:20 | `split('=', 1)` cuts at the first `=`: the two parts joined around it give back the line, and the first part holds no `=`. |
| Text.SplitOnceOf | scripts/configure_letta_env.py:20 | Splitting `a=b` where `a` has no `=` gives back `a` and `b`. |
| Text.SecondField | scripts/ai_diagnostics.py:18 | `split('=')[1]` is the text after the first `=`, up to the next `=` or the end. |
| Text.SecondFieldOf | scripts/ai_diagnostics.py:18 | For `a=r` followed by nothing or by `=...`, with no `=` in `a` or `r`, the second field is `r`. |
| Text.StripChar | scripts/ai_diagnostics.py:18 | `strip(ch)` leaves neither end equal to `ch`. |
| Text.TrimSurrounded | scripts/ai_diagnostics.py:18 | Stripping a character that wraps a string on both sides unwraps it. |
| Text.BeforeFirst | scripts/check_letta_status.py:231 | `split(sep)[0]` is a prefix of the text. |
| Text.BeforeFirstOf | scripts/check_letta_status.py:231 | `split(sep)[0]` of `a + sep + c` is `a` when no occurrence of `sep` starts inside `a`. |
| Text.RemoveAll | scripts/check_letta_status.py:231 | `replace(pat, "")` never lengthens the text. Removing a one-character pattern leaves no copy of that character. |
| Text.RemoveAllAtFirst | scripts/check_letta_status.py:231 | The first occurrence of the pattern is cut out whole: the text before it is kept, and removal goes on after it. |
| Text.RemoveAllAbsent | scripts/check_letta_status.py:231 | Removing a pattern that does not occur changes nothing. |
| Text.ReadText | scripts/configure_letta_env.py:15-17 | Text-mode reading turns every line ending into `\n`, and leaves text without `\r` unchanged. |
| Text.LinesCons | scripts/configure_letta_env.py:17 | Iterating over a file yields a first line up to and including its newline, then the lines of the rest. |
| Text.IntToString | scripts/run_gemini_integration_uat.py:119 | `str(i)` is the decimal digits of the magnitude, with no leading zero, preceded by `-` exactly for a negative number. The digits read back as the magnitude. |
| Text.NatToString | scripts/run_gemini_integration_uat.py:119 | A natural number prints as decimal digits without a leading zero, and the digits read back as the number. |
| Text.LexTotal | scripts/windsurf_memory_demo.py:192 | Any two timestamps compare one way or the other. |
| Text.LexTransitive | scripts/windsurf_memory_demo.py:192 | String comparison of timestamps is transitive. |
| MemoryFiles.SafeTopic | letta_server/app.py:60 | The sanitised topic is as long as the topic. Every character is alphanumeric, a space or `_`, and none is upper case. A kept character is lower-cased; every other character became `_`. |
| MemoryFiles.SafeTopicIdempotent | letta_server/app.py:60 | Sanitising a sanitised topic changes nothing. |
| MemoryFiles.Write | letta_server/app.py:62-66 | Writing creates the named file, or replaces the one of that name. No other file changes, and names stay unique. |
| MemoryFiles.FirstContaining | letta_server/app.py:84-85 | The file a lookup opens is the first in listing order whose name contains the id. No earlier name contains it. |
| MemoryFiles.RetrieveById | letta_server/app.py:84-90 | `retrieve_memory` opens the first file in listing order whose name contains the id. It returns that file's record, or raises when that file cannot be parsed. Not-found is raised exactly when no file name contains the id. The Windsurf store looks a record up the same way (scripts/windsurf_memory_demo.py lines 152-165), raising FileNotFoundError. |
| MemoryFiles.WriteThenRetrieve | letta_server/app.py:61-88 | A record written under a name containing the id is the one a later lookup returns, when no earlier name contained the id. |
| MemoryFiles.UnreadableAbortsScan | letta_server/app.py:108-125 | A scanned file that cannot be read or parsed makes the whole listing raise. |
| MemoryFiles.Filter | letta_server/app.py:108-117 | Reference definition of a listing: the readable scanned records meeting the filter, in listing order. Everything in it meets the filter, and every such record is in it. |
| MemoryFiles.ScanIsFilter | letta_server/app.py:108-117 | When every scanned file is readable and the filter never raises, the listing loop computes exactly the reference filter. |
| MemoryFiles.NewerOrSameIsPreorder | letta_server/app.py:120 | Ordering records by their timestamp text is total and transitive, so the sort is well defined. |
| MemoryFiles.NewestFirst | letta_server/app.py:120 | The sorted listing is a permutation of its input, with timestamps non-increasing. |
| LettaMemory.EffectiveTopic | letta_server/app.py:53 | A truthy topic is kept. A missing or empty one becomes `Untitled Memory`. |
| LettaMemory.Entry | letta_server/app.py:50-57 | The stored entry has exactly the keys id, entry_type, topic, timestamp, content and tags. Its type is `user_memory`, its topic is defaulted, and its tags default to `[]`. |
| MemoryFiles.TopicFileName | letta_server/app.py:60-61 | The file name starts with the sanitised topic and `_`, ends in `.json` and contains the key. The Letta server keys a record by its id, and the chatbot (agents/gemini_chatbot.py lines 39-41) keys it by the clock reading. |
| LettaMemory.StoreMemory | letta_server/app.py:45-73 | The call returns the fresh id, and the entry is written under its file name. A failed write raises. Afterwards the file names are the old ones plus the new name, and every other file is as it was. |
| LettaMemory.StoreThenRetrieve | letta_server/app.py:61-88 | Retrieving by the id that `store_memory` returned gives back the stored entry, when no earlier file name contained that id. |
| LettaMemory.In | letta_server/app.py:115 | Python's `in` on a list, a string or a dict from JSON. Any other value raises. |
| LettaMemory.ListMemories | letta_server/app.py:96-125 | The listing is non-increasing by timestamp text. An unreadable `.json` file makes it raise. |
| LettaMemory.KeepMatches | letta_server/app.py:115-116 | On a well-formed record, the filter holds iff the tag is one of its tags and the lower-cased topic filter occurs in its lower-cased topic. |
| LettaMemory.ListMemoriesExact | letta_server/app.py:108-120 | On well-formed records, the listing succeeds and is a permutation of exactly the `.json` records meeting both filters. |
| LettaMemory.UnfilteredListsOnlyJson | letta_server/app.py:108-117 | Unfiltered, every listed record comes from a `.json` file. |
| LettaMemory.UnfilteredListsJson | letta_server/app.py:108-117 | Unfiltered, every `.json` record is listed. |
| LettaMemory.UnfilteredListsEveryJsonRecord | letta_server/app.py:108-117 | Unfiltered, the listing holds every `.json` record and nothing else. |
| WindsurfMemory.Enrichment | scripts/windsurf_memory_demo.py:72-76 | Each type's metadata update sets exactly that type's keys. Every key is read from the content under the same name, with its default: `[]` for the list-valued keys, `neutral` for `sentiment`, `global` for `scope`, and None otherwise. Lines 95-99, 118-123 and 142-145 hold the other three updates. |
| WindsurfMemory.StoredMetadata | scripts/windsurf_memory_demo.py:54 | The update overwrites only the type's keys. Every other caller metadata key is kept, and missing metadata starts as `{}`. |
| WindsurfMemory.CallerMetadataAfter | scripts/windsurf_memory_demo.py:54-76 | A non-empty metadata dict passed by the caller is the dict the store method updates in place, so afterwards it equals the stored metadata. None or an empty dict is left as it was, because `metadata or {}` enriches a fresh dict instead. |
| WindsurfMemory.Entry | scripts/windsurf_memory_demo.py:49-55 | The entry has exactly the keys id, type, timestamp, content and metadata. Its type is the memory type and its content is the given content. |
| WindsurfMemory.FileName | scripts/windsurf_memory_demo.py:68 | The file name is `<type>_<id>.json`. It starts with the type name, ends in `.json` and contains the id. Lines 91, 114 and 138 build the other types' names. |
| WindsurfMemory.CreateMemory | scripts/windsurf_memory_demo.py:29-58 | A type outside the four raises ValueError before anything is written. Otherwise the returned value is the new entry's id, and the entry is written under its file name. The file names are the old ones plus the new name, and every other file is as it was. |
| WindsurfMemory.CreateThenRetrieve | scripts/windsurf_memory_demo.py:58-163 | Retrieving by the id `create_memory` returned gives back the created entry, when no earlier file name contained that id. |
| WindsurfMemory.ListMemories | scripts/windsurf_memory_demo.py:167-193 | Every file is loaded, not only `.json` ones. The result is non-increasing by timestamp, and an unreadable file makes the listing raise. |
| WindsurfMemory.EmptyFilterIsNoFilter | scripts/windsurf_memory_demo.py:185 | An empty metadata filter lists the same as no filter. |
| WindsurfMemory.KeepMatches | scripts/windsurf_memory_demo.py:184-188 | On a well-formed record, the filter holds iff the type filter is absent or equal and every filter pair equals `metadata.get(k)`. |
| WindsurfMemory.MissingKeyMatchesOnlyNull | scripts/windsurf_memory_demo.py:186 | A filter key the metadata lacks is matched only by the value None. |
| WindsurfMemory.ListMemoriesExact | scripts/windsurf_memory_demo.py:177-193 | On well-formed records, the listing succeeds and is a permutation of exactly the records meeting both filters. |
| WindsurfMemory.HealthyFilterSortable | scripts/windsurf_memory_demo.py:192 | Every record of a healthy directory has a text timestamp, so the sort neither raises KeyError nor compares mixed types. |
| WindsurfMemory.CreatedRecordsAreWellFormed | scripts/windsurf_memory_demo.py:49-55 | A record `create_memory` writes is well-formed and passes the filter for its own type. |
| ChatbotMemory.Entry | agents/gemini_chatbot.py:45-51 | The entry has exactly the keys entry_type, topic, timestamp, content and tags, and no id. Its type is `chatbot_interaction` and its tags default to `[]`. |
| ChatbotMemory.StoreMemory | agents/gemini_chatbot.py:37-60 | Storing never raises. It returns true exactly when the write succeeds, and on failure nothing changes. On success the file names are the old ones plus the new name. Every other file is as it was. |
| ChatbotMemory.InteractionContent | agents/gemini_chatbot.py:158-162 | The content holds the input and the reply, with `interaction_length` equal to the sum of their lengths. |
| ChatbotMemory.InteractionTopic | agents/gemini_chatbot.py:155-166 | The topic is the stripped summary when that is non-empty, and `General Conversation` when it is empty. It is never empty. |
| ChatbotMemory.InteractionTopicStable | agents/gemini_chatbot.py:155-166 | A stored topic has nothing left to strip. A summary equal to it gives the same topic back. |
| ChatbotMemory.StoreInteraction | agents/gemini_chatbot.py:143-172 | A failed topic request or write leaves the memory unchanged. Otherwise the entry is stored under the summarised topic with tags `chatbot` and `interaction`. |
| ChatbotMemory.GenerateResponse | agents/gemini_chatbot.py:105-141 | On success the reply is returned and the history grows by exactly `('user', input)` then `('assistant', reply)`. On failure the apology is returned and nothing changes. |
| ChatbotMemory.GenerateKeepsAlternating | agents/gemini_chatbot.py:133-135 | The history stays a sequence of complete user/assistant exchanges, whichever calls succeed. |
| ChatbotMemory.AlternatingExtend | agents/gemini_chatbot.py:134-135 | Appending one user turn and one assistant turn keeps the history alternating. |
| ChatbotMemory.InteractionIsRetrievable | agents/gemini_chatbot.py:39-55 | A stored interaction is found by its clock reading, when no other file name contains it. |
| Categorizer.LoadMemories | scripts/analyze_letta_memory_categories.py:17-32 | Only `.json` files are loaded. A file that cannot be read or parsed is skipped and loading goes on. A record is loaded exactly when some readable `.json` file holds it, and there are no more records than files. |
| Categorizer.FirstPresent | scripts/analyze_letta_memory_categories.py:70 | The key chosen is the first of the key names the record holds. None is chosen exactly when the record holds none of them. |
| Categorizer.Category | scripts/analyze_letta_memory_categories.py:69-70 | A record with none of the keys falls back to the default. Otherwise the value is the one under the first key name, in the given order, that the record holds. |
| Categorizer.Bump | scripts/analyze_letta_memory_categories.py:72 | One more sighting adds one to that key's count and leaves every other count alone. A new key is appended with count 1. A key seen before keeps its position, and no key moves. |
| Categorizer.TallyOf | scripts/analyze_letta_memory_categories.py:107-109 | The count loop succeeds exactly when every value is hashable. The tally then holds, under every key, exactly how often that key occurs, and the key is absent when it never occurs. The counts sum to the number of values, and the keys stand in order of first sighting. |
| Categorizer.TallyStep | scripts/analyze_letta_memory_categories.py:108-109 | Counting one more value turns a tally of a prefix into a tally of the prefix extended by that value. |
| Categorizer.BumpTotal | scripts/analyze_letta_memory_categories.py:72 | Each sighting raises the sum of the counts by exactly one. |
| Categorizer.BumpFirstSeen | scripts/analyze_letta_memory_categories.py:72 | A tally whose keys stand in first-sighting order keeps that order after one more sighting. |
| Categorizer.Categories | scripts/analyze_letta_memory_categories.py:67-70 | Each record is counted under the value of its first present key, or `Unknown`. |
| Categorizer.AnalyzeField | scripts/analyze_letta_memory_categories.py:60-74 | The count fails exactly when some record's category is unhashable. Otherwise every key's count is the number of records whose category is that key. The keys are in order of first sighting, and the counts sum to the number of records. |
| Categorizer.AnalyzeEntryTypes | scripts/analyze_letta_memory_categories.py:60-74 | Records are counted under `entry_type`, `entryType` or `type`, the first present, else `Unknown`. The count fails exactly when such a value is unhashable. Otherwise each value's count is how many records have it, and the counts sum to the number of records. |
| Categorizer.AnalyzeTopics | scripts/analyze_letta_memory_categories.py:76-90 | Records are counted under `topic`, `title` or `subject`, the first present, else `Unknown`. The count fails exactly when such a value is unhashable. Otherwise each value's count is how many records have it, and the counts sum to the number of records. |
| Categorizer.AnalyzeDomains | scripts/analyze_letta_memory_categories.py:116-130 | Records are counted under `domain`, `category` or `field`, the first present, else `Unknown`. The count fails exactly when such a value is unhashable. Otherwise each value's count is how many records have it, and the counts sum to the number of records. |
| Categorizer.KeyNamesMerge | scripts/analyze_letta_memory_categories.py:69-72 | Two records holding the same value under different type key names are counted under one key, twice. |
| Categorizer.TagItems | scripts/analyze_letta_memory_categories.py:104 | Extending by a list adds its items. Extending by a string adds its characters, one one-character string each, in order. Extending by a dict adds each of its keys once and nothing else. Extending by anything else raises TypeError. |
| Categorizer.RecordTags | scripts/analyze_letta_memory_categories.py:101-102 | A record's tags come from the first of `tags`, `categories` and `labels` that it holds. A record holding none of them contributes no tags. |
| Categorizer.AllTags | scripts/analyze_letta_memory_categories.py:98-104 | Flattening succeeds exactly when every record's tags can be extended. |
| Categorizer.AllTagsCons | scripts/analyze_letta_memory_categories.py:99-104 | The flattened tags start with the first record's tags, followed by the rest. |
| Categorizer.AllTagsAppend | scripts/analyze_letta_memory_categories.py:99-104 | The tags of two runs of records flatten to the concatenation of their tags. |
| Categorizer.AllTagsAppendStep | scripts/analyze_letta_memory_categories.py:99-104 | The first record's tags go in front of the flattened tags of the remaining records. |
| Categorizer.AllTagsUnfold | scripts/analyze_letta_memory_categories.py:99-104 | One step of the flattening loop, when both parts succeed. |
| Categorizer.ByCountIsPreorder | scripts/analyze_letta_memory_categories.py:112 | Ordering by count is total and transitive, so the sort is well defined. |
| Categorizer.TagSummary | scripts/analyze_letta_memory_categories.py:106-112 | The sorted tag counts are a permutation of the tally, with counts non-increasing. They sum to the number of flattened tags. |
| Categorizer.TotalPermutation | scripts/analyze_letta_memory_categories.py:112 | Reordering a tally does not change the sum of its counts. |
| Categorizer.TotalRemove | scripts/analyze_letta_memory_categories.py:112 | The sum of a tally is one entry's count plus the sum of the others. |
| Categorizer.TagLines | scripts/analyze_letta_memory_categories.py:114 | There is one `tag: count` line per distinct tag. |
| Categorizer.AnalyzeTags | scripts/analyze_letta_memory_categories.py:92-114 | With no tags at all the result is `No tags found`. Otherwise it is the `tag: count` lines, most frequent first, joined by newlines. It fails exactly when the tag summary does. |
| Inspector.ListMemoryFiles | scripts/inspect_letta_memory.py:21-31 | The listing holds exactly the names ending in `.json`. A listing that raises gives `[]`. |
| Inspector.JsonNames | scripts/inspect_letta_memory.py:28 | The `.json` names of a directory, and no others, never more than the files. |
| Inspector.JsonNamesSingle | scripts/inspect_letta_memory.py:28 | A single file is listed exactly when its name ends in `.json`. |
| Inspector.JsonNamesAppend | scripts/inspect_letta_memory.py:28 | Listing two parts of a directory is listing the first part, then the second. So the listing keeps directory order and gives one entry per `.json` file. |
| Inspector.ReadMemoryFile | scripts/inspect_letta_memory.py:33-46 | A readable file gives its record. A missing or unreadable file gives `{}`. |
| Inspector.Match | scripts/inspect_letta_memory.py:107-110 | Without a query every file matches. Otherwise a file matches iff the lower-cased query occurs in its lower-cased topic or in the lower-cased text of its content. A topic that is not a string raises. |
| Inspector.LowerIdempotent | scripts/inspect_letta_memory.py:108 | Lower-casing twice is lower-casing once. |
| Inspector.MatchIgnoresQueryCase | scripts/inspect_letta_memory.py:108-109 | The case of the query makes no difference. |
| Inspector.MatchIgnoresTopicCase | scripts/inspect_letta_memory.py:108 | The case of the stored topic makes no difference. |
| Inspector.HitOf | scripts/inspect_letta_memory.py:111-115 | A hit's topic defaults to `Unknown` and its timestamp to `No Timestamp`. |
| Inspector.MatchedNames | scripts/inspect_letta_memory.py:103-110 | Reference definition of the names a search keeps: a name is kept exactly when the query matches its record. |
| Inspector.SearchNames | scripts/inspect_letta_memory.py:103-115 | The search raises exactly when some listed file's match raises. Otherwise the hits are one per matching name, with its defaulted fields, in listing order. |
| Inspector.SearchHitsAreMatches | scripts/inspect_letta_memory.py:103-115 | Every hit is a listed file that matches, with its defaulted fields. Every listed file that matches is a hit. There are no more hits than names. |
| Inspector.SearchMemories | scripts/inspect_letta_memory.py:88-125 | The search over the listed `.json` files raises exactly when some file's match raises. Otherwise it gives one hit per matching listed file, in listing order. A directory that cannot be listed gives no hits. |
| Inspector.NoQueryHitsEveryName | scripts/inspect_letta_memory.py:107-115 | Without a query, every listed file is a hit, in listing order. |
| Inspector.NoQueryHitsEveryFile | scripts/inspect_letta_memory.py:103-107 | Without a query, the search has as many hits as there are `.json` files. |
| Inspector.Summary | scripts/inspect_letta_memory.py:82 | Text of up to 300 characters is shown unchanged. Longer text becomes its first 300 characters plus `...`. A long list or object, and a value without a length, raise. |
| Inspector.SummaryBounded | scripts/inspect_letta_memory.py:82 | A text summary is never longer than 303 characters. |
| Inspector.ViewOf | scripts/inspect_letta_memory.py:72-84 | The view carries the file name. The topic defaults to `Unknown Topic` and the timestamp to `No Timestamp`. Without content there is no summary. With content, the view fails exactly when the summary raises, and otherwise carries that summary. |
| Inspector.InspectNames | scripts/inspect_letta_memory.py:65-86 | Inspecting fails exactly when some listed file's view raises. Otherwise there is one view per listed file, in listing order, each the view of that file's record. |
| Inspector.InspectMemories | scripts/inspect_letta_memory.py:48-86 | Inspecting the listed `.json` files fails exactly when some view raises. Otherwise it gives one view per listed file, in listing order. The result is empty, and the "no memories" message shown, exactly when no `.json` file is listed. |
| ConversationDb.StoredMetadata | letta_server_manager.py:99 | Missing or empty metadata is stored as NULL. Non-empty metadata is stored as given. |
| ConversationDb.SaveConversation | letta_server_manager.py:68-108 | A save returns the fresh id, which becomes the new row's primary key, and appends exactly one row. A database error, including a taken key, is re-raised. |
| ConversationDb.Conditions | letta_server_manager.py:126-135 | There is one condition per truthy filter, the agent's first. |
| ConversationDb.ConditionTexts | letta_server_manager.py:130-134 | Each condition contributes its `column = ?` text, in order. |
| ConversationDb.Params | letta_server_manager.py:131-135 | Each condition contributes its bound value, in the same order as the conditions. |
| ConversationDb.BuildQuery | letta_server_manager.py:125-140 | The statement starts with the SELECT and binds one value per condition. |
| ConversationDb.OnePlaceholder | letta_server_manager.py:130-134 | Each condition text holds exactly one `?`. |
| ConversationDb.PlaceholdersInJoin | letta_server_manager.py:138 | The conditions joined by ` AND ` hold one `?` per condition. |
| ConversationDb.NoMarkInNumber | letta_server_manager.py:140 | The printed limit holds only digits and a sign. |
| ConversationDb.WherePlaceholders | letta_server_manager.py:137-138 | The WHERE clause holds one `?` per condition. |
| ConversationDb.FixedTextHasNoMark | letta_server_manager.py:125-140 | The fixed SELECT and ORDER BY texts hold no `?`. |
| ConversationDb.PlaceholdersMatchParams | letta_server_manager.py:125-146 | The number of `?` placeholders in the statement equals the number of bound parameters. |
| ConversationDb.WhereWhenFiltered | letta_server_manager.py:137-138 | With some condition, the statement contains ` WHERE `. |
| ConversationDb.NoWhereWhenUnfiltered | letta_server_manager.py:125-140 | Without conditions, the statement does not contain ` WHERE `. |
| ConversationDb.WhereIffFiltered | letta_server_manager.py:129-138 | The statement has a WHERE clause exactly when the agent or the platform filter is truthy. |
| ConversationDb.FilterRows | letta_server_manager.py:129-138 | A row is kept exactly when it meets every condition. |
| ConversationDb.NewerOrSameIsPreorder | letta_server_manager.py:140 | Ordering rows by timestamp text is total and transitive. |
| ConversationDb.Limit | letta_server_manager.py:140 | `LIMIT n` keeps the first n rows, or all of them when there are fewer. A negative limit keeps every row. |
| ConversationDb.TakeNewest | letta_server_manager.py:140 | `ORDER BY timestamp DESC LIMIT n` gives a sub-multiset of the rows, newest first, of the capped size. No row left out is newer than the last one kept. |
| ConversationDb.PrefixKeepsNewest | letta_server_manager.py:140 | A prefix of a newest-first sequence holds its newest rows. |
| ConversationDb.Select | letta_server_manager.py:125-147 | Every selected row meets every condition, and the rows are newest first. Their number is the number of matching rows, capped by a non-negative limit. Within the limit they are a permutation of all matching rows. A matching row the limit leaves out is no newer than the last row kept. |
| ConversationDb.GetConversations | letta_server_manager.py:110-160 | A database error is re-raised. Otherwise every returned conversation is one of a stored row meeting each supplied filter, and they come newest first. There are as many as the matching rows, capped by the limit. Every matching conversation is returned when the limit does not cut, and one left out is no newer than the last returned. |
| ConversationDb.ConditionsMeaning | letta_server_manager.py:127-138 | The built conditions hold of a row exactly when each truthy filter equals the row's column. |
| ConversationDb.Fetch | letta_server_manager.py:140-156 | The rows of a successful query: each the conversation of a stored matching row, newest first, at most the limit, complete when uncut, and never skipping a newer row. |
| ConversationDb.SelectLeftOut | letta_server_manager.py:140 | A matching row that is not selected is no newer than the last selected row. |
| ConversationDb.SaveThenGet | letta_server_manager.py:85-155 | A saved conversation is returned by a query for its agent, with its data and its metadata. Empty metadata reads back as None. |
| ConversationDb.OnlyNewRowSelected | letta_server_manager.py:129-140 | When no earlier row has the agent, a query for that agent selects exactly the new row. |
| ConversationDb.FilterNone | letta_server_manager.py:129-138 | When no row meets the conditions, nothing is selected. |
| ConversationDb.FilterAppend | letta_server_manager.py:129-138 | Filtering two parts of a table separately and concatenating the results is filtering the whole table. |
| EnvConfig.ParseLine | scripts/configure_letta_env.py:18-21 | Blank lines and lines starting with `#` are skipped. A setting line splits at its first `=`, so the value may hold further `=`. A setting line without `=` raises ValueError. |
| EnvConfig.LoadLines | scripts/configure_letta_env.py:17-21 | Loading keeps keys distinct. Any failure is the ValueError of a line without `=`. |
| EnvConfig.LoadLinesFails | scripts/configure_letta_env.py:19-21 | Loading fails exactly when some setting line has no `=`. |
| EnvConfig.StrippedLines | scripts/configure_letta_env.py:18 | Every line is stripped, one for one. |
| EnvConfig.LoadCurrentEnv | scripts/configure_letta_env.py:12-22 | A missing file loads as an empty dict. A loaded dict has distinct keys. |
| EnvConfig.LoadLinesAppend | scripts/configure_letta_env.py:17-21 | The lines after a prefix carry on from the dict the prefix produced. |
| EnvConfig.StripPairLine | scripts/configure_letta_env.py:18 | Stripping a written `key=value` line gives back `key=value`. |
| EnvConfig.ParsePairLine | scripts/configure_letta_env.py:20 | A written line parses back to its own key and value. |
| EnvConfig.LoadPair | scripts/configure_letta_env.py:20-21 | Loading one line stores its pair. |
| EnvConfig.LaterDuplicateWins | scripts/configure_letta_env.py:21 | A later duplicate key overwrites the earlier value, and the key keeps its first position. |
| EnvConfig.SetOnEmpty | scripts/configure_letta_env.py:21 | Storing into an empty dict gives the one pair. |
| EnvConfig.SetOnSingleton | scripts/configure_letta_env.py:21 | Storing under a present key replaces its value. |
| EnvConfig.Serialize | scripts/configure_letta_env.py:129-131 | An empty dict writes an empty file. |
| EnvConfig.SerializeHasNoCR | scripts/configure_letta_env.py:131 | A clean dict writes no carriage return, so text-mode reading does not change the file. |
| EnvConfig.PairLines | scripts/configure_letta_env.py:130-131 | There is one written line per entry. |
| EnvConfig.Bodies | scripts/configure_letta_env.py:130-131 | There is one stripped written line per entry. |
| EnvConfig.SerializedLines | scripts/configure_letta_env.py:129-131 | Reading the written file line by line gives back one `key=value\n` line per entry, in order. |
| EnvConfig.StrippedPairLines | scripts/configure_letta_env.py:129-131 | The stripped written lines are the `key=value` texts. |
| EnvConfig.LoadFirstBody | scripts/configure_letta_env.py:17-21 | The first written line loads as the first entry. |
| EnvConfig.ShiftFirst | scripts/configure_letta_env.py:130 | Moving the first entry to the loaded side keeps the remaining entries clean and their keys apart. |
| EnvConfig.LoadBodies | scripts/configure_letta_env.py:17-21 | Loading the written lines after an accumulator with other keys appends the entries in order. |
| EnvConfig.SerializeRoundTrip | scripts/configure_letta_env.py:12-22 | Loading the saved file gives back the same dict in the same order, when keys hold no `=`, do not start with `#` or white space, and values have no newline or trailing white space. |
| EnvConfig.SaveEnvironment | scripts/configure_letta_env.py:119-126 | The key and the URL are set only when given truthy values, and otherwise keep their old values. The timestamp is always the fixed constant. Every other key is unchanged. |
| EnvConfig.SetKeepsClean | scripts/configure_letta_env.py:121-126 | Storing a clean pair keeps the dict clean. |
| EnvConfig.TimestampClean | scripts/configure_letta_env.py:126 | The fixed timestamp setting survives the line format. |
| EnvConfig.SaveKeepsClean | scripts/configure_letta_env.py:119-126 | The merge keeps a clean dict clean, when the given values are clean. |
| EnvConfig.SaveThenLoad | scripts/configure_letta_env.py:114-131 | Loading the saved file gives back the merged settings. |
| EnvConfig.Body | scripts/configure_letta_env.py:27-33 | `$` matches at the end, or just before one final newline. |
| EnvConfig.ApiKeyExact | scripts/configure_letta_env.py:24-28 | Without a newline, a key is valid exactly when it is 39 or more characters from `[A-Za-z0-9_-]`. |
| EnvConfig.HostLength | scripts/configure_letta_env.py:32 | The host part is the longest run of host characters. |
| EnvConfig.UrlAccepted | scripts/configure_letta_env.py:30-33 | Every `http://` or `https://` URL with a non-empty host of `[a-zA-Z0-9.-]`, optionally followed by `:` and digits, is accepted. |
| EnvConfig.HostLengthOf | scripts/configure_letta_env.py:32 | The host run stops exactly where the port part starts. |
| EnvConfig.UrlShape | scripts/configure_letta_env.py:30-33 | Every accepted URL without a newline is a scheme, a non-empty host and an optional port, with nothing after it, not even a path. |
| EnvConfig.ShapeIntro | scripts/configure_letta_env.py:32 | A URL built from the three parts has the accepted shape. |
| KeyFile.FirstKeyLine | scripts/ai_diagnostics.py:16-19 | The scan stops at the first line, in file order, that starts with `NAME=`. No earlier line starts with it, and no index is returned exactly when no line does. |
| KeyFile.StripKeepsPrefix | scripts/ai_diagnostics.py:18 | `strip()` keeps a `NAME=` prefix whose ends are not blanks. |
| KeyFile.KeyValueOf | scripts/ai_diagnostics.py:18 | The value of `NAME=field[=...]` is the text between the first and second `=`, with `'` and then `"` stripped from both ends. |
| KeyFile.KeyValueBare | scripts/ai_diagnostics.py:18 | An unquoted `NAME=value` line reads back as `value`. |
| KeyFile.KeyValueQuoted | scripts/ai_diagnostics.py:18 | `NAME='value'` and `NAME="value"` both read back as `value`. |
| KeyFile.StripQuotes | scripts/ai_diagnostics.py:18 | Stripping both quote characters unwraps one pair of either quote. |
| KeyFile.KeyValueStopsAtSecondEquals | scripts/ai_diagnostics.py:18 | `split('=')[1]` drops everything from a second `=` on. |
| KeyFile.FileToken | scripts/taskade_integration.py:70-75 | No token is found exactly when no line of the file starts with `NAME=`. |
| KeyFile.FirstKeyLineAt | scripts/taskade_integration.py:72-75 | After lines without the prefix, the first line with it is the one chosen. |
| KeyFile.LinesAround | scripts/taskade_integration.py:72 | Iterating over a file yields the complete lines before a line, the line itself, then the rest. |
| KeyFile.FileTokenAt | scripts/taskade_integration.py:72-75 | The token is the value of the first `NAME=` line. |
| KeyFile.FirstLineWins | scripts/ai_diagnostics.py:16-19 | Whatever follows it, the first `NAME=value` line supplies the token `value`. |
| Diagnostics.ApiKey | scripts/ai_diagnostics.py:13-22 | A non-empty environment variable wins. Otherwise a missing `.env` raises FileNotFoundError, and an empty or missing `GEMINI_API_KEY=` value raises ValueError. A key that is returned is never empty. |
| Diagnostics.ApiKeyFromFile | scripts/ai_diagnostics.py:14-19 | Without the environment variable, the first `GEMINI_API_KEY=` line of the file gives the key. |
| Diagnostics.ApiKeyNameIsKeyName | scripts/ai_diagnostics.py:17 | `GEMINI_API_KEY` is a name the line scan can find. |
| Diagnostics.ResultLines | scripts/ai_diagnostics.py:41-45 | Each result gives a status line, plus an `Error:` line exactly when it failed with truthy details. |
| Diagnostics.FormatCheckResults | scripts/ai_diagnostics.py:38-46 | The section starts with the `### System Status` header. |
| Diagnostics.StatusLineRead | scripts/ai_diagnostics.py:42-43 | A status line starts with the check mark exactly when that check passed, and carries the message after the mark and a blank. |
| Diagnostics.ReadReportLines | scripts/ai_diagnostics.py:41-45 | Reading the result lines back gives each check's verdict, message and shown details, in order. |
| Diagnostics.ReportLinesComplete | scripts/ai_diagnostics.py:43-45 | With one-line messages, every emitted line is one complete line. |
| Diagnostics.CheckResultsRoundTrip | scripts/ai_diagnostics.py:38-46 | The section is the header, then lines from which every check's verdict, message, and details (when it failed with truthy details) are recovered, in order. |
| Diagnostics.FormatLogs | scripts/ai_diagnostics.py:48-50 | The logs appear verbatim between the header with its opening fence and the closing fence. |
| Diagnostics.FormatRepairHistory | scripts/ai_diagnostics.py:52-60 | An empty history gives the empty string. Otherwise the section starts with the `### Recent Repair Attempts` header. |
| Diagnostics.RepairHistoryLines | scripts/ai_diagnostics.py:56-60 | A non-empty history is the header line, then exactly one line per repair, in logged order. |
| Diagnostics.Context | scripts/ai_diagnostics.py:78-95 | The context starts with the report title and ends with the system configuration, with four or five sections. |
| Diagnostics.DiffersFromRepairHeader | scripts/ai_diagnostics.py:56 | A text that differs from the repair header inside both does not start with it. |
| Diagnostics.OtherSectionsAreNotRepairs | scripts/ai_diagnostics.py:78-95 | The title, status, logs and configuration sections never look like a repair section. |
| Diagnostics.StatusIsNotRepairs | scripts/ai_diagnostics.py:40 | The status section does not start with the repair header. |
| Diagnostics.LogsAreNotRepairs | scripts/ai_diagnostics.py:50 | The logs section does not start with the repair header. |
| Diagnostics.FixedSectionsAreNotRepairs | scripts/ai_diagnostics.py:79-95 | The title and configuration sections do not start with the repair header. |
| Diagnostics.RepairSectionIffHistory | scripts/ai_diagnostics.py:84-85 | The context holds a repair section exactly when the history passed in is truthy. |
| Diagnostics.Prompt | scripts/ai_diagnostics.py:98 | The prompt starts with the system prompt and then the analysis request. |
| TaskadeSync.TokenNameIsKeyName | scripts/taskade_integration.py:73 | `TASKADE_API_TOKEN` is a name the line scan can find. |
| TaskadeSync.LoadToken | scripts/taskade_integration.py:57-79 | A truthy environment variable wins. A missing file leaves the environment value in place. A file without a `TASKADE_API_TOKEN=` line leaves it in place too. |
| TaskadeSync.Token | scripts/taskade_integration.py:41-45 | A truthy argument wins, then a truthy environment variable. Without any truthy token the constructor raises ValueError. A token that is kept is never empty. |
| TaskadeSync.TokenFromFile | scripts/taskade_integration.py:41-75 | With neither an argument nor the variable, the first `TASKADE_API_TOKEN=value` line supplies the token. |
| TaskadeSync.ExtendsStep | scripts/taskade_integration.py:135-147 | A table grown by one synced row, then more synced rows, extends the original with synced rows. |
| TaskadeSync.SyncAgent | scripts/taskade_integration.py:122-152 | The count never exceeds the number of fetched conversations. The log grows by exactly the count. Every new row belongs to the agent, comes from the taskade platform and carries `source: taskade_integration`. Existing rows are untouched. |
| TaskadeSync.AgentIdText | scripts/taskade_integration.py:138-139 | The `agent_id` column holds a string id as is. It holds an integer id as its decimal digits, with `-` for a negative one, and `True` as `1`. |
| TaskadeSync.TrueStoredAsOne | scripts/taskade_integration.py:138-139 | The ids `True` and `1` are stored as the same text, so they name the same rows. |
| TaskadeSync.RowsOf | scripts/taskade_integration.py:138-146 | There is one row per conversation, built from its own save attempt. |
| TaskadeSync.AllSucceedTail | scripts/taskade_integration.py:135-147 | After a successful save, the later saves still succeed with fresh ids. |
| TaskadeSync.SyncAgentAllSaved | scripts/taskade_integration.py:122-152 | When every save succeeds, every conversation is counted and appended in fetch order. |
| TaskadeSync.RowsOfCons | scripts/taskade_integration.py:135 | The rows of a list are the first row, then the rows of the rest. |
| TaskadeSync.FailedSaveSkipped | scripts/taskade_integration.py:149-150 | A conversation whose save raises adds nothing and is not counted. |
| TaskadeSync.TruthyIdsAre | scripts/taskade_integration.py:165-166 | The truthy ids are exactly those that some listed agent carries as a truthy `id`. |
| TaskadeSync.SyncFrom | scripts/taskade_integration.py:164-168 | The loop succeeds exactly when every truthy id is hashable, and otherwise raises TypeError. It adds exactly the truthy ids as keys and keeps keys distinct. An id's entry is the count of the last agent carrying it. The log is the one built turn by turn, up to the first unhashable id. |
| TaskadeSync.FirstUnhashable | scripts/taskade_integration.py:164-168 | The loop reaches the first agent whose truthy id cannot be a dict key. Every agent before it has a hashable truthy id or none. |
| TaskadeSync.TableAfterShift | scripts/taskade_integration.py:164-168 | Running the first turn, then some turns of the rest, is running one more turn of the whole loop. |
| TaskadeSync.SyncFromTable | scripts/taskade_integration.py:164-168 | After the first turn, the rest of the loop leaves the log the whole loop leaves. |
| TaskadeSync.SyncFromCounts | scripts/taskade_integration.py:164-168 | After the first turn, ids not carried later keep their entry, and the last carrier of an id leaves its own count. |
| TaskadeSync.LastCarrierFresh | scripts/taskade_integration.py:168 | An id the first agent carries and no later agent carries is not among the later truthy ids. |
| TaskadeSync.LastCarrierTail | scripts/taskade_integration.py:168 | A later last carrier is a last carrier of the rest of the list. |
| TaskadeSync.KeysHashableCons | scripts/taskade_integration.py:168 | Hashable ids for a list are a hashable first id and hashable ids for the rest. |
| TaskadeSync.SyncAll | scripts/taskade_integration.py:154-170 | On success, the keys are exactly the truthy agent ids, each once, and each holds the count of the last agent carrying it. The log has every agent's rows. An unhashable id raises TypeError, and the log keeps the rows synced before it. |
| TaskadeSync.SyncAllKeys | scripts/taskade_integration.py:161-170 | An id is a key of the result exactly when some listed agent carries it as a truthy id. |
| StatusCheck.LogFileCheck | scripts/check_letta_status.py:151-157 | A log file passes exactly when it exists and its directory is writable. A failure carries the `log_file_error` code and details. The message starts with `Log file <name>: `. |
| StatusCheck.CheckLogFiles | scripts/check_letta_status.py:144-158 | There is one result per configured log file, in order, each passing exactly when its file exists and the directory is writable. |
| StatusCheck.NoColonInPrefix | scripts/check_letta_status.py:157 | `Log file ` followed by a name without `": "` holds no `": "`. |
| StatusCheck.LogNameRoundTrip | scripts/check_letta_status.py:231 | The repair recovers exactly the file name from that check's message, for names holding neither `": "` nor `Log file `. |
| StatusCheck.LogFileChecksNameTheirFiles | scripts/check_letta_status.py:144-158 | Both configured log files are recovered from their own checks. |
| StatusCheck.CheckAutostart | scripts/check_letta_status.py:160-173 | The auto-start check passes exactly when `launchctl list` ran, the plist exists and the output names `com.letta.server`. A missing plist is reported as `plist_missing` first. A failure always carries a code. |
| StatusCheck.AutostartFailuresReload | scripts/check_letta_status.py:237-239 | Every auto-start failure leads to reloading the launch agent. |
| StatusCheck.Dispatch | scripts/check_letta_status.py:218-241 | Each repair answers exactly its own failure codes: `daemon_not_running` starts the daemon, and the three container and server codes restart the container. A log-file failure fixes the file its message names, and the three auto-start codes reload the agent. Every other code calls for no repair. |
| StatusCheck.DispatchIgnoresMessage | scripts/check_letta_status.py:218-241 | Only the log-file repair reads the message. |
| StatusCheck.LogFailuresFixTheirFile | scripts/check_letta_status.py:230-233 | Every failed log-file check leads to fixing the permissions of that very file. |
| StatusCheck.LogRepair | scripts/check_letta_status.py:23-31 | Logging a repair appends exactly one entry with the clock reading, component, action and outcome, and keeps the earlier entries. |
| StatusCheck.PlanOf | scripts/check_letta_status.py:209-241 | A check calls for at most one repair. |
| StatusCheck.Planned | scripts/check_letta_status.py:196-241 | A plan holds only real repairs. |
| StatusCheck.DescribesAppend | scripts/check_letta_status.py:196 | Logs describing two plans, joined, describe the joined plan. |
| StatusCheck.DescribesExtend | scripts/check_letta_status.py:196 | A log extended in two stages describes the two plans one after the other. |
| StatusCheck.StepLog | scripts/check_letta_status.py:209-241 | One iteration logs exactly the repair its check calls for, after the existing entries. |
| StatusCheck.Loop | scripts/check_letta_status.py:196-241 | The loop only appends, one entry per planned repair. |
| StatusCheck.LoopVerdict | scripts/check_letta_status.py:196-210 | `all_passed` holds exactly when every check passed. `repairs_attempted` holds exactly when some check failed with a truthy code. |
| StatusCheck.LoopLog | scripts/check_letta_status.py:218-241 | The entries added name, in order, the repairs the health checks call for. |
| StatusCheck.Main | scripts/check_letta_status.py:192-241 | The verdict is the conjunction of the health checks. `repairs_attempted` holds iff some check failed with a code. The repair log names the planned repairs, in check order. |
| StatusCheck.ExitZeroIffAllPassed | scripts/check_letta_status.py:263 | The exit status is 0 exactly when every check passed, and then the repair log is empty. |
| StatusCheck.AllPassedPlansNothing | scripts/check_letta_status.py:209 | Passing checks call for no repair. |
| StatusCheck.ReportShowsRepairsIffLogged | scripts/check_letta_status.py:247-251 | The AI report carries a repair section exactly when at least one repair was logged. |
| StatusCheck.NonEmptyPlanAttempts | scripts/check_letta_status.py:209-210 | A planned repair means some check failed with a code. |
| InstallVerify.AsWrittenRejectsLaterVersion | scripts/verify_letta_installation.py:38-40 | The version test as written compares major and minor separately. It passes 3.9 but rejects 4.0, which is later. |
| InstallVerify.MeetsUpwardClosed | scripts/verify_letta_installation.py:38-40 | With the intended tuple comparison, every version at least as late as a passing one passes. |
| InstallVerify.MeetsAgreesOnPython3 | scripts/verify_letta_installation.py:39 | For major version 3, the test as written and the intended test agree. |
| InstallVerify.CheckSystemRequirements | scripts/verify_letta_installation.py:26-42 | As written: the requirements check is set when the major part is at least 3 and the minor part at least 9, each compared on its own. It is never cleared, and the other checks are untouched. |
| InstallVerify.CheckSystemRequirementsCorrected | scripts/verify_letta_installation.py:39 | With the intended test, the requirements check is set when the version is 3.9 or later in tuple order. |
| InstallVerify.CorrectedAgreesOnPython3 | scripts/verify_letta_installation.py:39 | On Python 3 the check as written and the corrected check give the same result. |
| InstallVerify.Python4Rejected | scripts/verify_letta_installation.py:39 | On Python 4.0 the check as written leaves the flag unset, while the corrected check sets it. |
| InstallVerify.CheckDocker | scripts/verify_letta_installation.py:44-72 | The Docker check is set exactly when both `docker` commands succeeded. A failing command or a missing binary clears it. Any other exception escapes the check. The other checks are untouched. |
| InstallVerify.CheckLettaServer | scripts/verify_letta_installation.py:74-105 | The server counts as running exactly when curl ran and the stripped status is 200, 204, 301 or 302. The other checks are untouched. |
| InstallVerify.OtherStatusNotRunning | scripts/verify_letta_installation.py:88-96 | Any other status, such as 404 or an empty reply, means not running. |
| InstallVerify.CheckEnvironment | scripts/verify_letta_installation.py:107-140 | The environment check holds exactly when the file exists, reads without error, and contains both `GEMINI_API_KEY` and `LETTA_SERVER_URL` as substrings. |
| InstallVerify.SerializeContainsKey | scripts/configure_letta_env.py:129-131 | A saved env file contains every key it holds. |
| InstallVerify.SavedEnvIsConfigured | scripts/verify_letta_installation.py:118-121 | A file that the configuration tool saved with both a key and a URL passes the environment check. |
| InstallVerify.BothNamesSuffice | scripts/verify_letta_installation.py:118-121 | Holding both variable names is all the environment test asks of the text. |
| InstallVerify.CheckDependencies | scripts/verify_letta_installation.py:142-174 | The dependency check holds exactly when `pkg_resources` works and finds all three required distributions. |
| InstallVerify.DepsInstalled | scripts/verify_letta_installation.py:156-167 | All are installed exactly when every required name is found. |
| InstallVerify.ReportChecks | scripts/verify_letta_installation.py:176-214 | When the Docker commands do not raise, the report has a status. Starting from all-failed, each check ends as exactly its own condition, with the version test as written. The overall status is their conjunction. |
| InstallVerify.GenerateReport | scripts/verify_letta_installation.py:176-214 | An exception escaping the Docker check ends the report without a status. Otherwise the overall status holds exactly when the version passes the test as written, both Docker commands succeed, the server answers with an accepted status, the env file holds both names, and all three packages are found. |
| InstallVerify.Python4NeverPasses | scripts/verify_letta_installation.py:39 | As written, a Python 4.0 to 4.8 interpreter never passes overall, whatever else the machine reports. |
| InstallVerify.MissingEnvFails | scripts/verify_letta_installation.py:127-128 | A machine without the env file whose Docker commands do not raise gets a failing overall status. |
| DeviceTracking.FirstMatch | scripts/env_check.py:39-43 | The scan picks the first device, in declaration order, whose lower-cased host name occurs in the current host name. It finds none exactly when no device matches. |
| DeviceTracking.DetectDevice | scripts/env_check.py:21-43 | The reported device is the first configured device that matches, or `unknown` exactly when none does. |
| DeviceTracking.DetectIgnoresCase | scripts/env_check.py:36-41 | Upper case in the host name makes no difference. |
| DeviceTracking.FirstMatchAgrees | scripts/env_check.py:39-43 | Host names that match the same devices pick the same device. |
| DeviceTracking.MacMiniRecognised | scripts/env_check.py:22-43 | A host named `mac-mini-m1` followed by any suffix is the Mac mini. |
| DeviceTracking.LastN | scripts/env_check.py:107 | For a positive `n`, `xs[-n:]` is the last `n` elements, or all of them when there are fewer. |
| DeviceTracking.LogEnvironment | scripts/env_check.py:88-107 | A missing log, or one that is not valid JSON, starts empty. A stored document that is not a list makes `append` raise. Otherwise the new snapshot is last, and at most 100 entries are kept: all of them while under 100, else the latest 99 plus the new one. |
| DeviceTracking.LastNAppend | scripts/env_check.py:104-107 | Appending to the kept tail keeps the same last hundred as appending to the whole history. |
| DeviceTracking.LogOnList | scripts/env_check.py:104-107 | On a stored list, logging keeps the last hundred of the list plus the snapshot. |
| DeviceTracking.LogAllKeepsLatest | scripts/env_check.py:88-111 | After any number of runs, the file holds the latest hundred snapshots, oldest first. |
| AgentConfig.Settings | scripts/gemini_integration.py:274-280 | Omitted arguments default to gemini-2.0-flash, 0.7, 4096 and 0.95. Given ones are used as they are. |
| AgentConfig.Build | scripts/gemini_integration.py:274-307 | The record has exactly the four top-level keys, and `model_config` has exactly its five keys with the provider fixed to gemini. Every argument is passed through unchanged and reads back as the same agent. The record passes the UAT configuration test for its own name. |
| AgentConfig.BuildInjective | scripts/gemini_integration.py:296-307 | Different arguments never give the same record. |
| AgentConfig.UatRejectsOtherNames | scripts/run_gemini_integration_uat.py:297-302 | A record passes the UAT configuration test only under its own name. |
| VersatileAgent.LoadConfig | agents/gemini_versatile_agent.py:56-82 | Without a truthy, existing path, or when reading fails with an IOError or JSONDecodeError, the defaults come back. Any other exception from reading or merging the file is raised. Otherwise the keys are the defaults' plus the file's, the file's values win, and the defaults fill in the rest. |
| VersatileAgent.LoadedKeepsDefaultKeys | agents/gemini_versatile_agent.py:63-82 | Whatever is loaded without raising, every default key is present. |
| VersatileAgent.GenerationOf | agents/gemini_versatile_agent.py:45-51 | The model, temperature and token limit come from the configuration, falling back to gemini-2.0-flash, 0.7 and 1024. |
| VersatileAgent.GenerationOfLoaded | agents/gemini_versatile_agent.py:45-82 | For a loaded file, the settings are the file's values where it has them and the defaults otherwise. |
| VersatileAgent.Init | agents/gemini_versatile_agent.py:34-51 | Without a truthy key the agent raises ValueError. Otherwise it raises exactly what loading the configuration raises, and else holds the loaded configuration and the settings derived from it. |
| VersatileAgent.Export | agents/gemini_versatile_agent.py:156-164 | The export writes the configuration as a JSON object with the same keys. |
| VersatileAgent.MergeOverridesAll | agents/gemini_versatile_agent.py:78 | A configuration holding every default key overrides all defaults in the update. |
| VersatileAgent.ExportLoadRoundTrip | agents/gemini_versatile_agent.py:156-164 | Loading the file an agent exported reproduces its configuration. |
| Uat.RecordTest | scripts/run_gemini_integration_uat.py:57-75 | Recording a test counts one more run. It counts a failure exactly when the test failed. It appends one entry with the test's name, marked PASS exactly when the test passed, and keeps the earlier entries. The counters stay consistent with the entries. |
| Uat.EntryPasses | scripts/run_gemini_integration_uat.py:73 | An entry reads PASS exactly when its test passed. |
| Uat.Entries | scripts/run_gemini_integration_uat.py:71-75 | There is one entry per recorded test. |
| Uat.EntriesAt | scripts/run_gemini_integration_uat.py:71-75 | Entry `i` records test `i`. |
| Uat.FailuresCount | scripts/run_gemini_integration_uat.py:65-73 | Failures never exceed the tests. There are none exactly when every entry is a PASS. |
| Uat.RecordAllConsistent | scripts/run_gemini_integration_uat.py:51-75 | From a fresh accumulator, run = passed + failed. There is one entry per run, and the PASS entries are the passed tests. |
| Uat.RecordAllRuns | scripts/run_gemini_integration_uat.py:59 | Every recorded test is counted as run. |
| Uat.RecordAllFailures | scripts/run_gemini_integration_uat.py:65-66 | The failure counter is the number of failed tests. |
| Uat.RecordAllEntries | scripts/run_gemini_integration_uat.py:71-75 | The entries list the tests in the order they were recorded. |
| Uat.PercentageOf | scripts/run_gemini_integration_uat.py:83 | The percentage is the integer 0 exactly when no test ran. Otherwise it lies within [0, 100] and is 100 exactly when nothing failed. |
| Uat.GetSummary | scripts/run_gemini_integration_uat.py:77-85 | The summary reports the counters and entries as recorded, together with that percentage. |
| Uat.ServerTests | scripts/run_gemini_integration_uat.py:108-143 | Exactly two server tests are recorded. Each passes exactly when its probe answered 200. |
| Uat.GeminiTests | scripts/run_gemini_integration_uat.py:146-234 | The first Gemini test is the key test, which passes exactly when the key is set and non-empty. Without a key it is the only Gemini test. |
| Uat.ConfigOutcome | scripts/run_gemini_integration_uat.py:285-308 | The configuration-generation test always passes, because the builder names the record after the agent and fixes the provider. |
| Uat.LoginOutcomes | scripts/run_gemini_integration_uat.py:260-283 | Only login tests are recorded here. The configuration test follows exactly when credentials are missing or the login returned true. |
| Uat.InitOutcome | scripts/run_gemini_integration_uat.py:243-258 | The creator test passes exactly when the constructor did not raise. |
| Uat.CreationTests | scripts/run_gemini_integration_uat.py:237-314 | The creator test comes first. Whenever the configuration test is recorded, it passes. |
| Uat.ConcatConfigPasses | scripts/run_gemini_integration_uat.py:243-308 | Creator and login tests cannot make the configuration test fail. |
| Uat.RunVerdict | scripts/run_gemini_integration_uat.py:317-336 | The accumulator holds one consistent entry per test, in order. The verdict is true exactly when every entry is a PASS. |
| Uat.RunUat | scripts/run_gemini_integration_uat.py:317-336 | A run records the server, Gemini and creation tests in order, one consistent entry each, at least four. The verdict is true exactly when every entry is a PASS. |
| Uat.RunRecordsAtLeastFour | scripts/run_gemini_integration_uat.py:325-330 | Every run records at least four tests: two server probes, the key test and the creator test. |
| Uat.MissingKeyFails | scripts/run_gemini_integration_uat.py:151-161 | Without a Gemini key the UAT fails. |
| Uat.MainAsWritten | scripts/run_gemini_integration_uat.py:354-368 | As written, the exit status is 0 exactly when the run succeeded, and a summary is saved exactly when `--output-json` is given. |
| Uat.SavedSummaryIsEmpty | scripts/run_gemini_integration_uat.py:361-364 | As written, the saved summary is that of a fresh accumulator: no tests and no entries, although the run recorded at least four. |
| Uat.Main | scripts/run_gemini_integration_uat.py:339-368 | A summary is saved exactly when `--output-json` is given. |
| Uat.SavedSummaryIsTheRun | scripts/run_gemini_integration_uat.py:354-368 | With the correction, the saved summary lists every test of the run. The exit status is 0 exactly when it reports no failure, and exactly when its percentage is 100. |

## Left out

- HTTP and UI layers: the Flask routes of the Letta server and of the server manager, the `LettaServerManager` HTTP methods, and the dashboard. They are transport around the modelled operations.
- Remote clients: the agent-creation scripts that probe REST endpoints, the Gemini SDK wrappers, the chat sessions, and the model calls of the chatbot, the versatile agent and the troubleshooter. Their results are parameters here, such as the chatbot's reply and topic, a UAT check's verdict, or an HTTP probe's status.
- CLI dispatch, interactive prompts, pip installs, the port checker and the live-service Taskade test. These are interaction and process launching with no logic of their own to state.
- The SQLite engine and JSON encoding. A table is a sequence of rows, the meaning of the built SELECT is a function over it, and encoding then decoding stored data is taken as the identity.
- JSON objects are maps, so their key order is not modelled. Dicts whose order is printed or written back are ordered association lists.
- Top-level JSON documents that are not objects are not modelled as memory records. Such a file is either a record or unreadable. The versatile agent's configuration file is read differently: a caught IOError or JSONDecodeError is told apart from an exception that escapes, such as a non-object document that `update` rejects.
- Floats (temperature, top-p, the pass percentage) are kept as their printed text or as the integer pair they are computed from. No floating-point arithmetic is modelled.
- `str.isalnum`, `str.lower` and the `\d` of the URL validator are restricted to ASCII. Python applies them to all of Unicode.
- `os.path.expanduser`, `os.makedirs`, path joining and directory creation are left out. Files are named by their base names within one directory.
- The file system, `uuid4`, `datetime.now`, `time.time`, `os.access`, `platform`, `socket` and `pkg_resources` are parameters. `pkg_resources` is the set of installed distribution names. The two Docker commands together are one outcome: both succeeded, one failed in a way the handler catches, or one raised an exception that escapes.
- The status checker's Docker, server-health and Gemini-config checks, `get_recent_logs`, the repair commands themselves and the printed AI recommendations are left out. Their results enter as check results and repair outcomes.
- Logging and printed output, including `print_summary`, the verification report's printed sections and the inspector's display, are left out. Only the values they show are modelled.
- `get_system_info`'s snapshot is an opaque JSON value, apart from the detected device name.
- The versatile agent's `load_dotenv`, `generate_response`, `analyze_image` and `start_chat_session` are left out. They are SDK calls.
- ConversationDb.Select: states the filter, the newest-first order, the capped count, the full permutation when nothing is cut, and that no dropped row is newer than the last kept. It does not state which of several rows with equal timestamps a limit drops, because SQLite leaves that order unspecified.
- Sorting.SortDescending: the insertion sort is stable like Python's, but the contract states only the order and the permutation, not the stability.
- LettaMemory.ListMemories: any non-string timestamp among the kept records is an error. Python raises only when a comparison mixes types, so a listing whose timestamps are all numbers, or one holding a single record, succeeds there.
- WindsurfMemory.ListMemories: same as LettaMemory.ListMemories for non-string timestamps.
- WindsurfMemory.KeepMatches: a metadata filter value is compared with Dafny's structural equality, so the filter `{"x": 1}` does not match a stored `true`. Python's `==` makes 1, True and 1.0 equal, and a float is only its printed text here, so numeric equality across types is not modelled.
- Categorizer.Bump: tally keys are distinguished structurally. A Python dict merges the keys 1, True and 1.0 into one, which would need numeric equality between the float text and the integers.
- Categorizer.TallyOf: counts exactly under structural equality, so `[1, true]` tallies as two keys where Python counts one key twice. The reason is the one given for Categorizer.Bump.
- Categorizer.TagItems: a dict's keys are added in code-point order. Python adds them in insertion order, which a JSON object here does not keep.
- TaskadeSync.AgentIdText: a float id is stored as its Python text. SQLite's own rendering of a REAL value as TEXT is not modelled.
- TaskadeSync.SyncFrom: result keys are compared structurally, so agents with the ids `True` and `1` give two keys. A Python dict merges them into one key, holding the later agent's count. The reason is the one given for Categorizer.Bump.
- Inspector.InspectNames: when a view raises, the views already printed for earlier files are not returned. Only the exception is.
- VersatileAgent.LoadConfig: which documents make `update` raise is part of the input, not derived from the document. A top-level list of key/value pairs, which `update` merges, is not modelled.
- Files that exist are assumed to open and decode as text where the source has no handler for that: the device log (scripts/env_check.py line 100 catches only FileNotFoundError and JSONDecodeError), the Taskade token file (scripts/taskade_integration.py line 76 catches only FileNotFoundError) and the diagnostics `.env` (scripts/ai_diagnostics.py line 16 has no handler). A file that is not readable or not UTF-8 raises there.
- WindsurfMemory.CreateMemory: it returns the id and the new directory only. The in-place change to the caller's metadata dict is stated separately by WindsurfMemory.CallerMetadataAfter, because the model has no caller-side objects.

## Findings

| source | as written | input that shows it | evidently intended | confidence | as-written member | corrected member |
|---|---|---|---|---|---|---|
| scripts/run_gemini_integration_uat.py:361-364 | `--output-json` dumps the summary of a new, empty `UAT_Results` | any run with `--output-json out.json`: the saved file reports 0 tests, while the run recorded at least 4 | save the summary of the run's own results | high, not executed | Uat.MainAsWritten, Uat.SavedSummaryIsEmpty | Uat.Main, Uat.SavedSummaryIsTheRun |
| scripts/verify_letta_installation.py:39 | `major >= 3 and minor >= 9` compares the two parts on their own | Python 4.0: later than 3.9, yet the requirement check fails | version at least (3, 9) in tuple order | medium, not executed | InstallVerify.CheckSystemRequirements, InstallVerify.Python4NeverPasses | InstallVerify.CheckSystemRequirementsCorrected, InstallVerify.MeetsUpwardClosed |

=== FILE: agent_config.dfy ===
/** The Letta agent configuration record that `create_letta_agent_config`
    builds for a Gemini-backed agent, and the UAT's reading of
    it.
 */
module AgentConfig {
  import opened Wrappers
  import opened Json

  const Provider := "gemini"

  /** The model parameters; temperature and top-p are floats, kept as
      opaque JSON values and passed through untouched. */
  datatype ModelSettings = ModelSettings(model: string, temperature: Value, maxTokens: Value, topP: Value)

  /** The keyword defaults of the builder. */
  const DefaultSettings := ModelSettings("gemini-2.0-flash", Float("0.7"), Int(4096), Float("0.95"))

  /** The arguments of one call; `None` is an argument left to its default. */
  function Settings(model: Option<string>, temperature: Option<Value>, maxTokens: Option<Value>, topP: Option<Value>): (s: ModelSettings)
    ensures s.model == if model.Some? then model.value else "gemini-2.0-flash"
    ensures s.temperature == if temperature.Some? then temperature.value else Float("0.7")
    ensures s.maxTokens == if maxTokens.Some? then maxTokens.value else Int(4096)
    ensures s.topP == if topP.Some? then topP.value else Float("0.95")
  {
    ModelSettings(model.GetOr(DefaultSettings.model), temperature.GetOr(DefaultSettings.temperature),
                  maxTokens.GetOr(DefaultSettings.maxTokens), topP.GetOr(DefaultSettings.topP))
  }

  datatype Agent = Agent(name: string, description: string, systemPrompt: string, settings: ModelSettings)

  /** What the UAT's configuration test demands of a generated configuration: the
      name it asked for and a `model_config` object whose provider is
      gemini. A `model_config` that is not an object makes the test's
      `.get` raise, which the test records as a failure. */
  predicate UatAccepts(c: Object, name: string)
  {
    Get(c, "name", Null) == Str(name)
    && "model_config" in c
    && c["model_config"].Obj?
    && Get(c["model_config"].fields, "provider", Null) == Str(Provider)
  }

  /** Reads an agent back from a configuration record; None when a field
      is missing, has the wrong type, or the provider is not gemini. */
  function Read(c: Object): Option<Agent>
  {
    if "name" in c && c["name"].Str? && "description" in c && c["description"].Str?
       && "system_prompt" in c && c["system_prompt"].Str? && "model_config" in c && c["model_config"].Obj?
    then
      var m := c["model_config"].fields;
      if Get(m, "provider", Null) == Str(Provider) && "model" in m && m["model"].Str?
         && "temperature" in m && "max_tokens" in m && "top_p" in m
      then Some(Agent(c["name"].s, c["description"].s, c["system_prompt"].s,
                      ModelSettings(m["model"].s, m["temperature"], m["max_tokens"], m["top_p"])))
      else None
    else None
  }

  /** `create_letta_agent_config`: the four top-level keys, the provider
      fixed to gemini, every argument passed through unchanged (read back
      it is the same agent), and the UAT's configuration test passes. */
  function Build(a: Agent): (c: Object)
    ensures c.Keys == {"name", "description", "model_config", "system_prompt"}
    ensures "model_config" in c && c["model_config"].Obj?
    ensures c["model_config"].fields.Keys == {"provider", "model", "temperature", "max_tokens", "top_p"}
    ensures Read(c) == Some(a)
    ensures UatAccepts(c, a.name)
  {
    map["name" := Str(a.name),
        "description" := Str(a.description),
        "model_config" := Obj(map["provider" := Str(Provider),
                                  "model" := Str(a.settings.model),
                                  "temperature" := a.settings.temperature,
                                  "max_tokens" := a.settings.maxTokens,
                                  "top_p" := a.settings.topP]),
        "system_prompt" := Str(a.systemPrompt)]
  }

  /** Two agents with different fields never share a configuration. */
  lemma BuildInjective(a: Agent, b: Agent)
    requires Build(a) == Build(b)
    ensures a == b
  {
    assert Read(Build(a)) == Some(a);
  }

  /** A configuration is accepted only under its own name. */
  lemma UatRejectsOtherNames(a: Agent, name: string)
    requires name != a.name
    ensures !UatAccepts(Build(a), name)
  {
    assert Build(a)["name"] == Str(a.name);
  }
}

=== FILE: categorizer.dfy ===
/** The memory categoriser: loads every readable `.json` record, then tallies
    entry types, topics and domains (each read from the first present of
    several key names) and the flattened tags, which are reported by
    falling count.
 */
module Categorizer {
  import opened Wrappers
  import opened Text
  import opened Json
  import opened MemoryFiles
  import OrderedDict
  import Sorting
  import opened Seqs

  type Tally = OrderedDict.Dict<Value, nat>

  const TypeKeys: seq<string> := ["entry_type", "entryType", "type"]
  const TopicKeys: seq<string> := ["topic", "title", "subject"]
  const DomainKeys: seq<string> := ["domain", "category", "field"]
  const TagKeys: seq<string> := ["tags", "categories", "labels"]
  const Unknown := Str("Unknown")
  const NoTags := "No tags found"

  /** Loading keeps every record it reads. */
  predicate AnyRecord(r: Object)
  {
    true
  }

  /** `_load_memories`: a file that cannot be read or parsed is skipped
      and loading goes on; the records keep the listing order, one per
      readable `.json` file. */
  function LoadMemories(d: Dir): (ms: seq<Object>)
    ensures forall r :: r in ms ==> exists f :: f in d && IsJsonName(f.name) && f.body == Doc(r)
    ensures forall f :: f in d && IsJsonName(f.name) && f.body.Doc? ==> f.body.record in ms
    ensures |ms| <= |d|
  {
    Filter(d, true, AnyRecord)
  }

  /** The first of `keys` the record holds. */
  function FirstPresent(record: Object, keys: seq<string>): (k: Option<string>)
    ensures k.None? <==> forall i :: 0 <= i < |keys| ==> keys[i] !in record
    ensures k.Some? ==> exists i :: 0 <= i < |keys| && keys[i] == k.value && k.value in record
                                    && forall j :: 0 <= j < i ==> keys[j] !in record
  {
    if keys == [] then None
    else if keys[0] in record then Some(keys[0])
    else
      var k := FirstPresent(record, keys[1..]);
      assert forall i :: 1 <= i < |keys| ==> keys[i] == keys[1..][i - 1];
      k
  }

  /** `next((m.get(k, default) for k in keys if k in m), default)`. */
  function Category(record: Object, keys: seq<string>, default: Value): (v: Value)
    ensures (forall i :: 0 <= i < |keys| ==> keys[i] !in record) ==> v == default
    ensures forall i :: 0 <= i < |keys| && keys[i] in record && (forall j :: 0 <= j < i ==> keys[j] !in record)
                        ==> v == record[keys[i]]
  {
    match FirstPresent(record, keys)
    case None => default
    case Some(k) => record[k]
  }

  /** How often `k` was seen; 0 for an absent key, as `d.get(k, 0)`. */
  function Count(t: Tally, k: Value): nat
  {
    OrderedDict.Get(t, k).GetOr(0)
  }

  /** What a tally of `values` holds under `k`: the number of times `k`
      occurs, absent when it never does. */
  function Expected(values: seq<Value>, k: Value): Option<nat>
  {
    if multiset(values)[k] == 0 then None else Some(multiset(values)[k])
  }

  /** `t` holds, under every key, how often that key occurs in `values`. */
  ghost predicate Tallies(t: Tally, values: seq<Value>)
  {
    forall k :: OrderedDict.Get(t, k) == Expected(values, k)
  }

  /** A tally whose keys are distinct and hashable. */
  ghost predicate WellKeyed(t: Tally)
  {
    && OrderedDict.KeysDistinct(t)
    && forall i :: 0 <= i < |t| ==> Hashable(t[i].0)
  }

  predicate AllHashable(values: seq<Value>)
  {
    forall i :: 0 <= i < |values| ==> Hashable(values[i])
  }

  /** One more sighting of `v`: a key seen before keeps its place, a new
      key goes last with count 1. */
  function Bump(t: Tally, v: Value): (r: Tally)
    ensures OrderedDict.Get(r, v) == Some(Count(t, v) + 1)
    ensures forall k :: k != v ==> OrderedDict.Get(r, k) == OrderedDict.Get(t, k)
    ensures OrderedDict.KeySet(r) == OrderedDict.KeySet(t) + {v}
    ensures OrderedDict.KeysDistinct(t) ==> OrderedDict.KeysDistinct(r)
    ensures v !in OrderedDict.KeySet(t) ==> r == t + [(v, 1)]
    ensures v in OrderedDict.KeySet(t) ==> |r| == |t| && forall i :: 0 <= i < |t| ==> r[i].0 == t[i].0
  {
    OrderedDict.Set<Value, nat>(t, v, Count(t, v) + 1)
  }

  /** The keys of `t` come in the order their first sightings do in
      `values`. */
  ghost predicate FirstSeenOrder(t: Tally, values: seq<Value>)
  {
    forall i, j :: 0 <= i < j < |t| ==> FirstIndex(values, t[i].0) < FirstIndex(values, t[j].0)
  }

  /** `counts[v] = counts.get(v, 0) + 1` over `values`, in order; an
      unhashable value (a list or an object) raises TypeError. The counts
      add up to the number of values, and the keys stay in first-seen
      order: the order the report prints them in and the order the stable
      sort keeps among equal counts. */
  function TallyOf(values: seq<Value>): (r: Result<Tally>)
    ensures r.Ok? <==> AllHashable(values)
    ensures r.Ok? ==> WellKeyed(r.value) && Tallies(r.value, values)
    ensures r.Ok? ==> Total(r.value) == |values|
    ensures r.Ok? ==> FirstSeenOrder(r.value, values)
  {
    if values == [] then Ok([])
    else
      var prefix := values[..|values| - 1];
      var v := values[|values| - 1];
      assert values == prefix + [v];
      HashableSplit(prefix, v);
      match TallyOf(prefix)
      case Err(f) => Err(f)
      case Ok(acc) =>
        if !Hashable(v) then Err(WrongType("unhashable"))
        else
          TallyStep(acc, prefix, v);
          BumpTotal(acc, v);
          BumpFirstSeen(acc, prefix, v);
          Ok(Bump(acc, v))
  }

  lemma HashableSplit(prefix: seq<Value>, v: Value)
    ensures AllHashable(prefix + [v]) <==> AllHashable(prefix) && Hashable(v)
  {
    assert (prefix + [v])[|prefix|] == v;
    assert forall i :: 0 <= i < |prefix| ==> (prefix + [v])[i] == prefix[i];
  }

  /** Bumping a tally of `prefix` at `v` tallies `prefix + [v]`. */
  lemma TallyStep(acc: Tally, prefix: seq<Value>, v: Value)
    requires WellKeyed(acc) && Hashable(v) && Tallies(acc, prefix)
    ensures WellKeyed(Bump(acc, v)) && Tallies(Bump(acc, v), prefix + [v])
  {
    BumpWellKeyed(acc, v);
    BumpTallies(acc, prefix, v);
  }

  /** A bump keeps the keys in first-seen order. */
  lemma BumpFirstSeen(acc: Tally, prefix: seq<Value>, v: Value)
    requires Tallies(acc, prefix) && FirstSeenOrder(acc, prefix)
    ensures FirstSeenOrder(Bump(acc, v), prefix + [v])
  {
    var r := Bump(acc, v);
    forall i | 0 <= i < |acc|
      ensures FirstIndex(prefix + [v], acc[i].0) == FirstIndex(prefix, acc[i].0) < |prefix|
    {
      TalliedKeySeen(acc, prefix, i);
      FirstIndexAppend(prefix, acc[i].0, v);
    }
    if v !in OrderedDict.KeySet(acc) {
      assert OrderedDict.Get(acc, v) == None;
      assert multiset(prefix)[v] == 0;
      FirstIndexAppend(prefix, v, v);
    }
  }

  /** Every key of a tally of `values` occurs in `values`. */
  lemma TalliedKeySeen(t: Tally, values: seq<Value>, i: nat)
    requires Tallies(t, values) && i < |t|
    ensures t[i].0 in values
  {
    assert t[i].0 in OrderedDict.KeySet(t);
    assert OrderedDict.Get(t, t[i].0) == Expected(values, t[i].0);
  }

  lemma BumpWellKeyed(acc: Tally, v: Value)
    requires WellKeyed(acc) && Hashable(v)
    ensures WellKeyed(Bump(acc, v))
  {
    var r := Bump(acc, v);
    forall j | 0 <= j < |r|
      ensures Hashable(r[j].0)
    {
      assert r[j].0 in OrderedDict.KeySet(r);
      if r[j].0 != v {
        assert r[j].0 in OrderedDict.KeySet(acc);
        var i :| 0 <= i < |acc| && acc[i].0 == r[j].0;
      }
    }
  }

  lemma BumpTallies(acc: Tally, prefix: seq<Value>, v: Value)
    requires Tallies(acc, prefix)
    ensures Tallies(Bump(acc, v), prefix + [v])
  {
    var r := Bump(acc, v);
    assert multiset(prefix + [v]) == multiset(prefix) + multiset{v};
    assert OrderedDict.Get(acc, v) == Expected(prefix, v);
    assert Count(acc, v) == multiset(prefix)[v] by {
      if multiset(prefix)[v] == 0 {
        assert OrderedDict.Get(acc, v) == None;
      } else {
        assert OrderedDict.Get(acc, v) == Some(multiset(prefix)[v]);
      }
    }
    forall k
      ensures OrderedDict.Get(r, k) == Expected(prefix + [v], k)
    {
      if k != v {
        assert OrderedDict.Get(r, k) == OrderedDict.Get(acc, k);
        assert multiset(prefix + [v])[k] == multiset(prefix)[k];
      }
    }
  }

  function Total(t: Tally): nat
  {
    if t == [] then 0 else t[0].1 + Total(t[1..])
  }

  lemma {:induction false} TotalUpdate(t: Tally, i: nat, p: (Value, nat))
    requires i < |t|
    ensures Total(t[i := p]) + t[i].1 == Total(t) + p.1
  {
    if i > 0 {
      assert t[i := p][1..] == t[1..][i - 1 := p];
      TotalUpdate(t[1..], i - 1, p);
    }
  }

  lemma {:induction false} TotalAppend(t: Tally, p: (Value, nat))
    ensures Total(t + [p]) == Total(t) + p.1
  {
    if t != [] {
      assert (t + [p])[1..] == t[1..] + [p];
      assert (t + [p])[0] == t[0];
      TotalAppend(t[1..], p);
    } else {
      assert [p][1..] == [];
    }
  }

  /** Every bump adds exactly one to the total. */
  lemma BumpTotal(t: Tally, v: Value)
    ensures Total(Bump(t, v)) == Total(t) + 1
  {
    var i := OrderedDict.IndexOf(t, v);
    if i < |t| {
      assert Count(t, v) == t[i].1;
      assert Bump(t, v) == t[i := (v, t[i].1 + 1)];
      TotalUpdate(t, i, (v, t[i].1 + 1));
    } else {
      assert Bump(t, v) == t + [(v, 1)];
      TotalAppend(t, (v, 1));
    }
  }

  /** The value each record is tallied under. */
  function Categories(ms: seq<Object>, keys: seq<string>): (vs: seq<Value>)
    ensures |vs| == |ms|
    ensures forall i :: 0 <= i < |ms| ==> vs[i] == Category(ms[i], keys, Unknown)
  {
    seq(|ms|, i requires 0 <= i < |ms| => Category(ms[i], keys, Unknown))
  }

  /** `_analyze_entry_types`, `_analyze_topics` and `_analyze_domains`
      differ only in their key names. */
  function AnalyzeField(ms: seq<Object>, keys: seq<string>): (r: Result<Tally>)
    ensures r.Ok? <==> AllHashable(Categories(ms, keys))
    ensures r.Ok? ==> forall k :: Count(r.value, k) == multiset(Categories(ms, keys))[k]
    ensures r.Ok? ==> FirstSeenOrder(r.value, Categories(ms, keys))
    ensures r.Ok? ==> Total(r.value) == |ms|
  {
    TallyOf(Categories(ms, keys))
  }

  /** `_analyze_entry_types`: records counted by `entry_type`, `entryType` or `type`. */
  function AnalyzeEntryTypes(ms: seq<Object>): (r: Result<Tally>)
    ensures r.Ok? <==> forall i :: 0 <= i < |ms| ==> Hashable(Category(ms[i], TypeKeys, Unknown))
    ensures r.Ok? ==> forall k :: Count(r.value, k) == multiset(Categories(ms, TypeKeys))[k]
    ensures r.Ok? ==> Total(r.value) == |ms|
  {
    AnalyzeField(ms, TypeKeys)
  }

  /** `_analyze_topics`: records counted by `topic`, `title` or `subject`. */
  function AnalyzeTopics(ms: seq<Object>): (r: Result<Tally>)
    ensures r.Ok? <==> forall i :: 0 <= i < |ms| ==> Hashable(Category(ms[i], TopicKeys, Unknown))
    ensures r.Ok? ==> forall k :: Count(r.value, k) == multiset(Categories(ms, TopicKeys))[k]
    ensures r.Ok? ==> Total(r.value) == |ms|
  {
    AnalyzeField(ms, TopicKeys)
  }

  /** `_analyze_domains`: records counted by `domain`, `category` or `field`. */
  function AnalyzeDomains(ms: seq<Object>): (r: Result<Tally>)
    ensures r.Ok? <==> forall i :: 0 <= i < |ms| ==> Hashable(Category(ms[i], DomainKeys, Unknown))
    ensures r.Ok? ==> forall k :: Count(r.value, k) == multiset(Categories(ms, DomainKeys))[k]
    ensures r.Ok? ==> Total(r.value) == |ms|
  {
    AnalyzeField(ms, DomainKeys)
  }


  /** Two records holding the same value under different type key names
      land in one bucket. */
  lemma KeyNamesMerge(name: string)
    ensures AnalyzeEntryTypes([map["entry_type" := Str(name)], map["type" := Str(name)]]).Ok?
    ensures Count(AnalyzeEntryTypes([map["entry_type" := Str(name)], map["type" := Str(name)]]).value, Str(name)) == 2
  {
    var ms: seq<Object> := [map["entry_type" := Str(name)], map["type" := Str(name)]];
    assert "entry_type" !in ms[1] && "entryType" !in ms[1];
    assert TypeKeys[1..][1..] == ["type"];
    assert FirstPresent(ms[1], ["type"]) == Some("type");
    assert FirstPresent(ms[1], TypeKeys[1..]) == Some("type");
    assert FirstPresent(ms[1], TypeKeys) == Some("type");
    var vs := Categories(ms, TypeKeys);
    assert vs == [Str(name), Str(name)];
    assert multiset(vs)[Str(name)] == 2;
  }

  /** `all_tags.extend(tags)`: a list adds its items, a string its
      characters and a dict its keys (in code-point order here, since an
      object does not keep its insertion order); anything else raises
      TypeError. */
  function TagItems(v: Value): (r: Result<seq<Value>>)
    ensures v.Arr? ==> r == Ok(v.items)
    ensures v.Str? ==> r.Ok? && |r.value| == |v.s| && forall i :: 0 <= i < |v.s| ==> r.value[i] == Str([v.s[i]])
    ensures v.Obj? ==> r.Ok? && |r.value| == |v.fields|
                       && forall x :: x in r.value <==> x.Str? && x.s in v.fields
    ensures !v.Arr? && !v.Str? && !v.Obj? ==> r.Err?
  {
    match v
    case Arr(items) => Ok(items)
    case Str(s) => Ok(seq(|s|, i requires 0 <= i < |s| => Str([s[i]])))
    case Obj(fields) =>
      var keys := SortedStrings(fields.Keys);
      var items := seq(|keys|, i requires 0 <= i < |keys| => Str(keys[i]));
      forall x: Value | x.Str? && x.s in keys
        ensures x in items
      {
        var j :| 0 <= j < |keys| && keys[j] == x.s;
        assert items[j] == x;
      }
      Ok(items)
    case _ => Err(WrongType("extend"))
  }

  /** The tags of one record; none when it has no tag key. */
  function RecordTags(record: Object): (r: Result<seq<Value>>)
    ensures (forall i :: 0 <= i < |TagKeys| ==> TagKeys[i] !in record) ==> r == Ok([])
    ensures forall i :: 0 <= i < |TagKeys| && TagKeys[i] in record && (forall j :: 0 <= j < i ==> TagKeys[j] !in record)
                        ==> r == TagItems(record[TagKeys[i]])
  {
    match FirstPresent(record, TagKeys)
    case None => Ok([])
    case Some(k) => TagItems(record[k])
  }

  function AllTags(ms: seq<Object>): (r: Result<seq<Value>>)
    ensures r.Ok? <==> forall i :: 0 <= i < |ms| ==> RecordTags(ms[i]).Ok?
  {
    if ms == [] then Ok([])
    else
      var first :- RecordTags(ms[0]);
      var rest :- AllTags(ms[1..]);
      Ok(first + rest)
  }

  lemma AllTagsCons(ms: seq<Object>)
    requires ms != [] && AllTags(ms).Ok?
    ensures RecordTags(ms[0]).Ok? && AllTags(ms[1..]).Ok?
    ensures AllTags(ms).value == RecordTags(ms[0]).value + AllTags(ms[1..]).value
  {
  }

  /** Tags are flattened record by record, in order. */
  lemma {:induction false} AllTagsAppend(a: seq<Object>, b: seq<Object>)
    requires AllTags(a).Ok? && AllTags(b).Ok?
    ensures AllTags(a + b) == Ok(AllTags(a).value + AllTags(b).value)
    decreases |a|
  {
    if a == [] {
      assert a + b == b;
      assert AllTags(a).value == [];
      assert [] + AllTags(b).value == AllTags(b).value;
    } else {
      AllTagsCons(a);
      AllTagsAppend(a[1..], b);
      AllTagsAppendStep(a, b);
    }
  }

  /** The inductive step of `AllTagsAppend`: the first record's tags go in
      front of the rest. */
  lemma AllTagsAppendStep(a: seq<Object>, b: seq<Object>)
    requires a != [] && RecordTags(a[0]).Ok? && AllTags(a[1..]).Ok? && AllTags(b).Ok?
    requires AllTags(a[1..] + b) == Ok(AllTags(a[1..]).value + AllTags(b).value)
    ensures AllTags(a + b) == Ok(RecordTags(a[0]).value + AllTags(a[1..]).value + AllTags(b).value)
  {
    var ab := a + b;
    var first, x, y := RecordTags(a[0]).value, AllTags(a[1..]).value, AllTags(b).value;
    ConsAppend(a, b);
    assert RecordTags(ab[0]) == Ok(first);
    assert AllTags(ab[1..]) == Ok(x + y);
    AllTagsUnfold(ab);
    AppendAssoc(first, x, y);
  }

  lemma AllTagsUnfold(ms: seq<Object>)
    requires ms != [] && RecordTags(ms[0]).Ok? && AllTags(ms[1..]).Ok?
    ensures AllTags(ms) == Ok(RecordTags(ms[0]).value + AllTags(ms[1..]).value)
  {
  }

  predicate ByCount(a: (Value, nat), b: (Value, nat))
  {
    a.1 >= b.1
  }

  lemma ByCountIsPreorder()
    ensures Sorting.TotalPreorder(ByCount)
  {
  }

  /** `sorted(tag_counts.items(), key=count, reverse=True)`. */
  function TagSummary(ms: seq<Object>): (r: Result<Tally>)
    ensures r.Ok? <==> AllTags(ms).Ok? && TallyOf(AllTags(ms).value).Ok?
    ensures r.Ok? ==> multiset(r.value) == multiset(TallyOf(AllTags(ms).value).value)
    ensures r.Ok? ==> forall i, j :: 0 <= i < j < |r.value| ==> r.value[i].1 >= r.value[j].1
    ensures r.Ok? ==> Total(r.value) == |AllTags(ms).value|
    ensures r.Ok? ==> forall i :: 0 <= i < |r.value| ==> Hashable(r.value[i].0)
  {
    var tags :- AllTags(ms);
    var counts :- TallyOf(tags);
    ByCountIsPreorder();
    var sorted := Sorting.SortDescending(counts, ByCount);
    TotalPermutation(sorted, counts);
    forall i | 0 <= i < |sorted|
      ensures Hashable(sorted[i].0)
    {
      assert sorted[i] in multiset(counts);
    }
    Ok(sorted)
  }

  lemma {:induction false} TotalPermutation(a: Tally, b: Tally)
    requires multiset(a) == multiset(b)
    ensures Total(a) == Total(b)
    decreases |a|
  {
    if a != [] {
      MultisetTail(a);
      assert a[0] in multiset(b);
      var i :| 0 <= i < |b| && b[i] == a[0];
      MultisetRemove(b, i);
      TotalPermutation(a[1..], b[..i] + b[i + 1..]);
      TotalRemove(b, i);
    }
  }

  lemma {:induction false} TotalRemove(t: Tally, i: nat)
    requires i < |t|
    ensures Total(t) == t[i].1 + Total(t[..i] + t[i + 1..])
  {
    if i > 0 {
      assert (t[..i] + t[i + 1..])[0] == t[0];
      assert (t[..i] + t[i + 1..])[1..] == t[1..][..i - 1] + t[1..][i..];
      TotalRemove(t[1..], i - 1);
    } else {
      assert t[..0] + t[1..] == t[1..];
    }
  }

  function TagLine(p: (Value, nat)): string
    requires Hashable(p.0)
  {
    Render(p.0) + ": " + IntToString(p.1)
  }

  function TagLines(summary: Tally): (ls: seq<string>)
    requires forall i :: 0 <= i < |summary| ==> Hashable(summary[i].0)
    ensures |ls| == |summary|
  {
    seq(|summary|, i requires 0 <= i < |summary| => TagLine(summary[i]))
  }

  /** `_analyze_tags`: one `tag: count` line per distinct tag, most frequent
      first, or the fixed message when no record has a tag. */
  function AnalyzeTags(ms: seq<Object>): (r: Result<string>)
    ensures r.Ok? <==> TagSummary(ms).Ok?
    ensures r.Ok? && AllTags(ms).value == [] ==> r.value == NoTags
    ensures r.Ok? && AllTags(ms).value != [] ==> r.value == Join("\n", TagLines(TagSummary(ms).value))
  {
    var summary :- TagSummary(ms);
    if summary == [] then Ok(NoTags)
    else Ok(Join("\n", TagLines(summary)))
  }
}

=== FILE: chatbot_memory.dfy ===
/** The chatbot's memory manager and conversation loop: every answered
    message is appended to the history as a user/assistant pair and stored,
    under a topic the model summarises, as `<safe topic>_<timestamp>.json`.
    The model's replies, the clock and the write outcome are parameters.
 */
module ChatbotMemory {
  import opened Wrappers
  import opened Text
  import opened Json
  import opened MemoryFiles

  const EntryType := "chatbot_interaction"
  const FallbackTopic := "General Conversation"
  const Apology := "I'm sorry, but I encountered an error processing your request."
  const InteractionTags: seq<string> := ["chatbot", "interaction"]

  /** The record `store_memory` writes: `tags or []`. */
  function Entry(topic: string, content: Object, tags: Option<seq<string>>, now: string): (e: Object)
    ensures e.Keys == {"entry_type", "topic", "timestamp", "content", "tags"}
    ensures e["entry_type"] == Str(EntryType) && e["topic"] == Str(topic)
    ensures e["timestamp"] == Str(now) && e["content"] == Obj(content)
    ensures e["tags"] == StrList(tags.GetOr([]))
  {
    map["entry_type" := Str(EntryType),
        "topic" := Str(topic),
        "timestamp" := Str(now),
        "content" := Obj(content),
        "tags" := StrList(tags.GetOr([]))]
  }

  /** `store_memory`: any failure is caught and reported as `False`, with
      nothing written. */
  function StoreMemory(d: Dir, topic: string, content: Object, tags: Option<seq<string>>,
                       now: string, canWrite: bool): (r: (bool, Dir))
    ensures r.0 == canWrite
    ensures !r.0 ==> r.1 == d
    ensures r.0 ==> File(TopicFileName(topic, now), Doc(Entry(topic, content, tags, now))) in r.1
    ensures forall f :: f in d && f.name != TopicFileName(topic, now) ==> f in r.1
    ensures r.0 ==> Names(r.1) == Names(d) + {TopicFileName(topic, now)}
    ensures forall f :: f in r.1 && f.name != TopicFileName(topic, now) ==> f in d
  {
    if !canWrite then (false, d)
    else (true, Write(d, TopicFileName(topic, now), Entry(topic, content, tags, now)))
  }

  /** The content of an interaction record; `len` counts code points, as
      `|s|` does on Dafny strings. */
  function InteractionContent(userInput: string, reply: string): (c: Object)
    ensures c.Keys == {"user_input", "assistant_response", "interaction_length"}
    ensures c["interaction_length"] == Int(|userInput| + |reply|)
    ensures c["user_input"] == Str(userInput) && c["assistant_response"] == Str(reply)
  {
    map["user_input" := Str(userInput),
        "assistant_response" := Str(reply),
        "interaction_length" := Int(|userInput| + |reply|)]
  }

  /** `topic or "General Conversation"` after stripping the model's summary. */
  function InteractionTopic(summary: string): (t: string)
    ensures t != []
    ensures Strip(summary) != [] ==> t == Strip(summary)
    ensures Strip(summary) == [] ==> t == FallbackTopic
  {
    var t := Strip(summary);
    if t == [] then FallbackTopic else t
  }

  /** A stored topic is already normal: a summary equal to it gives the
      same topic back, with nothing left to strip. */
  lemma InteractionTopicStable(summary: string)
    ensures InteractionTopic(InteractionTopic(summary)) == InteractionTopic(summary)
    ensures Strip(InteractionTopic(summary)) == InteractionTopic(summary)
  {
    var t := InteractionTopic(summary);
    if Strip(summary) == [] {
      assert t == FallbackTopic;
      assert !IsSpace(t[0]) && !IsSpace(t[|t| - 1]);
    }
    TrimKeeps(t, IsSpace);
  }

  /** `_store_interaction`: a failed topic request (`summary == None`)
      is caught and nothing is stored; the outcome of the write is dropped. */
  function StoreInteraction(d: Dir, userInput: string, reply: string, summary: Option<string>,
                            now: string, canWrite: bool): (d': Dir)
    ensures summary.None? || !canWrite ==> d' == d
    ensures summary.Some? && canWrite ==>
              File(TopicFileName(InteractionTopic(summary.value), now),
                   Doc(Entry(InteractionTopic(summary.value), InteractionContent(userInput, reply),
                             Some(InteractionTags), now))) in d'
  {
    match summary
    case None => d
    case Some(s) =>
      StoreMemory(d, InteractionTopic(s), InteractionContent(userInput, reply), Some(InteractionTags), now, canWrite).1
  }

  datatype Turn = Turn(role: string, text: string)

  datatype Chat = Chat(history: seq<Turn>, memory: Dir)

  /** `generate_response`: `reply` is the model's answer (None when the
      call raised). On failure the apology is returned and nothing
      changes; on success the pair is stored and appended to the history. */
  function GenerateResponse(c: Chat, userInput: string, reply: Option<string>, summary: Option<string>,
                            now: string, canWrite: bool): (r: (string, Chat))
    ensures reply.None? ==> r == (Apology, c)
    ensures reply.Some? ==> r.0 == reply.value
    ensures reply.Some? ==> r.1.history == c.history + [Turn("user", userInput), Turn("assistant", reply.value)]
    ensures reply.Some? ==> r.1.memory == StoreInteraction(c.memory, userInput, reply.value, summary, now, canWrite)
  {
    match reply
    case None => (Apology, c)
    case Some(text) =>
      (text, Chat(c.history + [Turn("user", userInput), Turn("assistant", text)],
                  StoreInteraction(c.memory, userInput, text, summary, now, canWrite)))
  }

  /** The history alternates user and assistant turns, starting with the user. */
  predicate Alternating(h: seq<Turn>)
  {
    |h| % 2 == 0 && forall i :: 0 <= i < |h| ==> h[i].role == (if i % 2 == 0 then "user" else "assistant")
  }

  /** The history the model is sent is always a sequence of complete
      exchanges, whichever calls succeed. */
  lemma GenerateKeepsAlternating(c: Chat, userInput: string, reply: Option<string>, summary: Option<string>,
                                 now: string, canWrite: bool)
    requires Alternating(c.history)
    ensures Alternating(GenerateResponse(c, userInput, reply, summary, now, canWrite).1.history)
  {
    if reply.Some? {
      AlternatingExtend(c.history, Turn("user", userInput), Turn("assistant", reply.value));
    }
  }

  /** One more exchange keeps the history alternating. */
  lemma AlternatingExtend(h: seq<Turn>, u: Turn, a: Turn)
    requires Alternating(h) && u.role == "user" && a.role == "assistant"
    ensures Alternating(h + [u, a])
  {
    var h2 := h + [u, a];
    forall i | 0 <= i < |h2|
      ensures h2[i].role == (if i % 2 == 0 then "user" else "assistant")
    {
      if i < |h| {
        assert h2[i] == h[i];
      } else if i == |h| {
        assert h2[i] == u;
      } else {
        assert h2[i] == a;
      }
    }
  }

  /** Every stored interaction lists, and its record is found by its
      clock reading when no other file name contains it. */
  lemma InteractionIsRetrievable(d: Dir, userInput: string, reply: string, summary: string, now: string)
    requires forall f :: f in d ==> !Contains(f.name, now)
    ensures RetrieveById(StoreInteraction(d, userInput, reply, Some(summary), now, true), now)
            == Ok(Entry(InteractionTopic(summary), InteractionContent(userInput, reply), Some(InteractionTags), now))
  {
    var topic := InteractionTopic(summary);
    WriteThenRetrieve(d, TopicFileName(topic, now), Entry(topic, InteractionContent(userInput, reply), Some(InteractionTags), now), now);
  }
}

=== FILE: conversation_db.dfy ===
/** The conversation log: `save_conversation` inserts one row keyed by a
    fresh id, and `get_conversations` builds a parameterised SELECT from
    optional filters. The table is a sequence of rows; the SQL engine's
    meaning of the built query (filter, newest first, limit) is given as a
    function over it. The uuid, the insertion time and whether the database
    call fails are parameters; JSON encoding of the stored data is taken as
    the identity.
 */
module ConversationDb {
  import opened Wrappers
  import opened Text
  import opened Json
  import Sorting

  datatype Row = Row(id: string, agentId: string, platform: string, timestamp: string,
                     data: Object, metadata: Option<Object>)

  type Table = seq<Row>

  function Ids(t: Table): set<string>
  {
    set i | 0 <= i < |t| :: t[i].id
  }

  /** `json.dumps(metadata) if metadata else None`: an empty or missing
      dict is stored as NULL. */
  function StoredMetadata(metadata: Option<Object>): (m: Option<Object>)
    ensures m.Some? <==> metadata.Some? && |metadata.value| > 0
    ensures m.Some? ==> m == metadata
  {
    if metadata.Some? && |metadata.value| > 0 then metadata else None
  }

  /** `save_conversation`: the INSERT fails on a database error or when the
      primary key is already taken; the error is re-raised. */
  function SaveConversation(t: Table, agentId: string, platform: string, data: Object,
                            metadata: Option<Object>, id: string, now: string, dbOk: bool): (r: Result<(string, Table)>)
    ensures r.Ok? <==> dbOk && id !in Ids(t)
    ensures r.Err? ==> r.fault.DatabaseFailure?
    ensures r.Ok? ==> r.value.0 == id && r.value.1 == t + [Row(id, agentId, platform, now, data, StoredMetadata(metadata))]
    ensures r.Ok? ==> Ids(r.value.1) == Ids(t) + {id}
  {
    if !dbOk then Err(DatabaseFailure("connection"))
    else if id in Ids(t) then Err(DatabaseFailure("UNIQUE constraint failed: conversations.id"))
    else
      var t' := t + [Row(id, agentId, platform, now, data, StoredMetadata(metadata))];
      assert t'[|t|].id == id;
      assert forall i :: 0 <= i < |t| ==> t'[i] == t[i];
      Ok((id, t'))
  }

  datatype Condition = AgentIs(agentId: string) | PlatformIs(platform: string)
  {
    function Text(): string
    {
      match this
      case AgentIs(_) => "agent_id = ?"
      case PlatformIs(_) => "platform = ?"
    }

    function Param(): string
    {
      match this
      case AgentIs(a) => a
      case PlatformIs(p) => p
    }

    predicate Holds(row: Row)
    {
      match this
      case AgentIs(a) => row.agentId == a
      case PlatformIs(p) => row.platform == p
    }
  }

  /** One condition per truthy filter, agent first. */
  function Conditions(agentId: Option<string>, platform: Option<string>): (cs: seq<Condition>)
    ensures |cs| == (if Given(agentId) then 1 else 0) + (if Given(platform) then 1 else 0)
    ensures Given(agentId) ==> cs[0] == AgentIs(agentId.value)
    ensures Given(platform) ==> cs[|cs| - 1] == PlatformIs(platform.value)
  {
    (if Given(agentId) then [AgentIs(agentId.value)] else [])
    + (if Given(platform) then [PlatformIs(platform.value)] else [])
  }

  datatype Query = Query(sql: string, params: seq<string>)

  const SelectAll := "SELECT * FROM conversations"
  const OrderClause := " ORDER BY timestamp DESC LIMIT "

  function ConditionTexts(cs: seq<Condition>): (ts: seq<string>)
    ensures |ts| == |cs|
    ensures forall i :: 0 <= i < |cs| ==> ts[i] == cs[i].Text()
  {
    seq(|cs|, i requires 0 <= i < |cs| => cs[i].Text())
  }

  function Params(cs: seq<Condition>): (ps: seq<string>)
    ensures |ps| == |cs|
    ensures forall i :: 0 <= i < |cs| ==> ps[i] == cs[i].Param()
  {
    seq(|cs|, i requires 0 <= i < |cs| => cs[i].Param())
  }

  function WhereClause(cs: seq<Condition>): string
  {
    if cs == [] then "" else " WHERE " + Join(" AND ", ConditionTexts(cs))
  }

  /** The statement `get_conversations` executes. */
  function BuildQuery(agentId: Option<string>, platform: Option<string>, limit: int): (q: Query)
    ensures |q.params| == |Conditions(agentId, platform)|
    ensures StartsWith(q.sql, SelectAll)
  {
    var cs := Conditions(agentId, platform);
    var sql := SelectAll + WhereClause(cs) + OrderClause + IntToString(limit);
    assert sql[..|SelectAll|] == SelectAll;
    Query(sql, Params(cs))
  }

  lemma OnePlaceholder(c: Condition)
    ensures CountChar(c.Text(), '?') == 1
  {
    var t := c.Text();
    var head := t[..|t| - 1];
    assert t == head + "?";
    assert '?' !in head;
    CountCharConcat(head, "?", '?');
  }

  lemma {:induction false} PlaceholdersInJoin(cs: seq<Condition>)
    ensures CountChar(Join(" AND ", ConditionTexts(cs)), '?') == |cs|
  {
    if |cs| == 1 {
      assert ConditionTexts(cs) == [cs[0].Text()];
      OnePlaceholder(cs[0]);
    } else if |cs| > 1 {
      var ts := ConditionTexts(cs);
      assert ts[1..] == ConditionTexts(cs[1..]);
      PlaceholdersInJoin(cs[1..]);
      OnePlaceholder(cs[0]);
      assert '?' !in " AND ";
      CountCharConcat(ts[0] + " AND ", Join(" AND ", ts[1..]), '?');
      CountCharConcat(ts[0], " AND ", '?');
    }
  }

  lemma NoMarkInNumber(limit: int, c: char)
    requires !IsDigit(c) && c != '-'
    ensures c !in IntToString(limit)
  {
  }

  lemma WherePlaceholders(cs: seq<Condition>)
    ensures CountChar(WhereClause(cs), '?') == |cs|
  {
    if cs != [] {
      PlaceholdersInJoin(cs);
      assert '?' !in " WHERE ";
      CountCharConcat(" WHERE ", Join(" AND ", ConditionTexts(cs)), '?');
    }
  }

  lemma FixedTextHasNoMark()
    ensures '?' !in SelectAll && '?' !in OrderClause
  {
    assert '?' !in SelectAll;
    assert '?' !in OrderClause;
  }

  /** There is one `?` placeholder per bound parameter. */
  lemma PlaceholdersMatchParams(agentId: Option<string>, platform: Option<string>, limit: int)
    ensures CountChar(BuildQuery(agentId, platform, limit).sql, '?') == |BuildQuery(agentId, platform, limit).params|
  {
    var cs := Conditions(agentId, platform);
    var w := WhereClause(cs);
    var n := IntToString(limit);
    WherePlaceholders(cs);
    FixedTextHasNoMark();
    NoMarkInNumber(limit, '?');
    OnlyMiddleCounts(SelectAll, w, OrderClause, n, '?');
  }

  lemma OnlyMiddleCounts(a: string, b: string, c: string, d: string, ch: char)
    requires ch !in a && ch !in c && ch !in d
    ensures CountChar(a + b + c + d, ch) == CountChar(b, ch)
  {
    CountCharConcat(a, b, ch);
    CountCharConcat(a + b, c, ch);
    CountCharConcat(a + b + c, d, ch);
  }

  lemma WhereWhenFiltered(cs: seq<Condition>, n: string)
    requires cs != []
    ensures Contains(SelectAll + WhereClause(cs) + OrderClause + n, " WHERE ")
  {
    ContainsOpening(SelectAll, " WHERE ", Join(" AND ", ConditionTexts(cs)), OrderClause, n);
  }

  lemma ContainsOpening(a: string, w: string, j: string, c: string, d: string)
    ensures Contains(a + (w + j) + c + d, w)
  {
    assert a + (w + j) + c + d == a + w + (j + c + d);
    ContainsMiddle(a, w, j + c + d);
  }

  lemma NoWhereWhenUnfiltered(n: string)
    requires 'W' !in n
    ensures !Contains(SelectAll + WhereClause([]) + OrderClause + n, " WHERE ")
  {
    assert 'W' !in SelectAll && 'W' !in OrderClause;
    AbsentFromThree(SelectAll, OrderClause, n, " WHERE ", 'W');
  }

  lemma AbsentFromThree(a: string, c: string, d: string, w: string, ch: char)
    requires ch in w && ch !in a && ch !in c && ch !in d
    ensures !Contains(a + [] + c + d, w)
  {
    assert a + [] + c + d == a + c + d;
    AbsentCharExcludesSubstring(a + c + d, w, ch);
  }

  /** The statement has a WHERE clause exactly when some filter is truthy. */
  lemma WhereIffFiltered(agentId: Option<string>, platform: Option<string>, limit: int)
    ensures Contains(BuildQuery(agentId, platform, limit).sql, " WHERE ") <==> Given(agentId) || Given(platform)
  {
    var cs := Conditions(agentId, platform);
    if cs != [] {
      WhereWhenFiltered(cs, IntToString(limit));
    } else {
      NoMarkInNumber(limit, 'W');
      NoWhereWhenUnfiltered(IntToString(limit));
    }
  }

  /** A row satisfies every condition of the statement. */
  predicate Selected(row: Row, cs: seq<Condition>)
  {
    forall i :: 0 <= i < |cs| ==> cs[i].Holds(row)
  }

  function FilterRows(t: Table, cs: seq<Condition>): (r: Table)
    ensures forall row :: row in r <==> row in t && Selected(row, cs)
    ensures multiset(r) <= multiset(t)
  {
    if t == [] then []
    else
      var rest := FilterRows(t[1..], cs);
      assert t == [t[0]] + t[1..];
      if Selected(t[0], cs) then [t[0]] + rest else rest
  }

  predicate NewerOrSame(a: Row, b: Row)
  {
    LexLe(b.timestamp, a.timestamp)
  }

  lemma NewerOrSameIsPreorder()
    ensures Sorting.TotalPreorder(NewerOrSame)
  {
    forall a: Row, b: Row
      ensures NewerOrSame(a, b) || NewerOrSame(b, a)
    {
      LexTotal(a.timestamp, b.timestamp);
    }
    forall a: Row, b: Row, c: Row | NewerOrSame(a, b) && NewerOrSame(b, c)
      ensures NewerOrSame(a, c)
    {
      LexTransitive(c.timestamp, b.timestamp, a.timestamp);
    }
  }

  /** How many of `n` rows a `LIMIT limit` clause lets through. */
  function Capped(n: nat, limit: int): nat
  {
    if limit < 0 || limit >= n then n else limit
  }

  /** `LIMIT n`: SQLite reads a negative limit as no limit. */
  function Limit(rows: Table, limit: int): (r: Table)
    ensures limit < 0 ==> r == rows
    ensures limit >= 0 ==> |r| <= limit
    ensures |r| == Capped(|rows|, limit) && r == rows[..|r|]
  {
    if limit < 0 || limit >= |rows| then rows else rows[..limit]
  }

  /** A prefix of a newest-first sequence holds its newest rows: every row
      left behind is no newer than the prefix's last one. */
  lemma PrefixKeepsNewest(sorted: Table, n: nat)
    requires n <= |sorted|
    requires Sorting.Descending(sorted, NewerOrSame)
    ensures multiset(sorted) == multiset(sorted[..n]) + multiset(sorted[n..])
    ensures n > 0 ==> forall row :: row in multiset(sorted[n..]) ==> LexLe(row.timestamp, sorted[n - 1].timestamp)
  {
    assert sorted == sorted[..n] + sorted[n..];
    if n > 0 {
      forall row | row in multiset(sorted[n..])
        ensures LexLe(row.timestamp, sorted[n - 1].timestamp)
      {
        var k :| 0 <= k < |sorted[n..]| && sorted[n..][k] == row;
        assert NewerOrSame(sorted[n - 1], sorted[n + k]);
      }
    }
  }

  /** `ORDER BY timestamp DESC LIMIT limit` over some rows. */
  function TakeNewest(rows: Table, limit: int): (r: Table)
    ensures multiset(r) <= multiset(rows)
    ensures |r| == Capped(|rows|, limit)
    ensures forall i, j :: 0 <= i < j < |r| ==> LexLe(r[j].timestamp, r[i].timestamp)
    ensures limit < 0 || |rows| <= limit ==> multiset(r) == multiset(rows)
    ensures r != [] ==> forall row :: row in multiset(rows) - multiset(r) ==> LexLe(row.timestamp, r[|r| - 1].timestamp)
  {
    NewerOrSameIsPreorder();
    var sorted := Sorting.SortDescending(rows, NewerOrSame);
    assert |sorted| == |rows| by {
      assert |multiset(sorted)| == |multiset(rows)|;
    }
    var r := Limit(sorted, limit);
    PrefixKeepsNewest(sorted, |r|);
    r
  }

  /** What the built statement selects: the rows meeting every condition,
      newest timestamp first (text order), as many as the limit lets
      through, and no row left out is newer than the last one returned. */
  function Select(t: Table, q: seq<Condition>, limit: int): (r: Table)
    ensures forall row :: row in r ==> row in t && Selected(row, q)
    ensures forall i, j :: 0 <= i < j < |r| ==> LexLe(r[j].timestamp, r[i].timestamp)
    ensures |r| == Capped(|FilterRows(t, q)|, limit)
    ensures multiset(r) <= multiset(FilterRows(t, q))
    ensures limit < 0 || |FilterRows(t, q)| <= limit ==> multiset(r) == multiset(FilterRows(t, q))
    ensures r != [] ==> forall row :: row in multiset(FilterRows(t, q)) - multiset(r) ==>
                          LexLe(row.timestamp, r[|r| - 1].timestamp)
  {
    var rows := FilterRows(t, q);
    var r := TakeNewest(rows, limit);
    assert forall row :: row in r ==> row in multiset(r);
    assert forall row :: row in multiset(rows) ==> row in rows;
    r
  }

  /** A row as `get_conversations` returns it; NULL metadata reads back as
      None. */
  datatype Conversation = Conversation(id: string, agentId: string, platform: string, timestamp: string,
                                       data: Object, metadata: Option<Object>)

  function Out(row: Row): Conversation
  {
    Conversation(row.id, row.agentId, row.platform, row.timestamp, row.data, row.metadata)
  }
  /** The selected rows as returned, one for one. */
  function Outs(rows: Table): (out: seq<Conversation>)
    ensures |out| == |rows|
    ensures forall i :: 0 <= i < |rows| ==> out[i] == Out(rows[i])
  {
    seq(|rows|, i requires 0 <= i < |rows| => Out(rows[i]))
  }


  /** A row the caller's filters ask for: each truthy filter equals the
      row's column. */
  predicate Wanted(row: Row, agentId: Option<string>, platform: Option<string>)
  {
    (!Given(agentId) || row.agentId == agentId.value) && (!Given(platform) || row.platform == platform.value)
  }

  /** The built conditions hold of a row exactly when the filters want it. */
  lemma ConditionsMeaning(row: Row, agentId: Option<string>, platform: Option<string>)
    ensures Selected(row, Conditions(agentId, platform)) <==> Wanted(row, agentId, platform)
  {
    var cs := Conditions(agentId, platform);
    if Selected(row, cs) {
      if Given(agentId) { assert cs[0].Holds(row); }
      if Given(platform) { assert cs[|cs| - 1].Holds(row); }
    }
    if Wanted(row, agentId, platform) {
      forall i | 0 <= i < |cs|
        ensures cs[i].Holds(row)
      {
        if Given(agentId) && i == 0 {
        } else {
          assert cs[i] == PlatformIs(platform.value);
        }
      }
    }
  }

  /** What a successful query may return: exactly as many conversations as
      the limit lets through, newest first, each one a stored row the
      filters want; every wanted row when the limit does not cut, and a
      wanted row left out is never newer than the last one returned. */
  ghost predicate QueryAnswer(t: Table, agentId: Option<string>, platform: Option<string>, limit: int,
                              out: seq<Conversation>)
  {
    var wanted := FilterRows(t, Conditions(agentId, platform));
    && |out| == Capped(|wanted|, limit)
    && (forall i, j :: 0 <= i < j < |out| ==> LexLe(out[j].timestamp, out[i].timestamp))
    && (forall c :: c in out ==> exists row :: row in t && Wanted(row, agentId, platform) && c == Out(row))
    && (forall c :: c in out ==>
          (!Given(agentId) || c.agentId == agentId.value) && (!Given(platform) || c.platform == platform.value))
    && ((limit < 0 || |wanted| <= limit) ==>
          forall row :: row in t && Wanted(row, agentId, platform) ==> Out(row) in out)
    && (out != [] ==>
          forall row :: row in t && Wanted(row, agentId, platform) && Out(row) !in out ==>
            LexLe(row.timestamp, out[|out| - 1].timestamp))
  }

  /** `get_conversations`: a failing database call raises; otherwise the
      answer is a QueryAnswer. */
  function GetConversations(t: Table, agentId: Option<string>, platform: Option<string>, limit: int,
                            dbOk: bool): (r: Result<seq<Conversation>>)
    ensures r.Ok? <==> dbOk
    ensures r.Err? ==> r.fault.DatabaseFailure?
    ensures r.Ok? ==> QueryAnswer(t, agentId, platform, limit, r.value)
  {
    if !dbOk then Err(DatabaseFailure("query")) else Ok(Fetch(t, agentId, platform, limit))
  }

  /** The rows of a successful query, as returned. */
  function Fetch(t: Table, agentId: Option<string>, platform: Option<string>, limit: int): (out: seq<Conversation>)
    ensures QueryAnswer(t, agentId, platform, limit, out)
    ensures limit >= 0 ==> |out| <= limit
  {
    var rows := Select(t, Conditions(agentId, platform), limit);
    GetConversationsRows(t, agentId, platform, limit, rows, Outs(rows));
    Outs(rows)
  }

  /** The facts about the selected rows that make their output a
      QueryAnswer. */
  lemma GetConversationsRows(t: Table, agentId: Option<string>, platform: Option<string>, limit: int,
                             rows: Table, out: seq<Conversation>)
    requires rows == Select(t, Conditions(agentId, platform), limit)
    requires out == Outs(rows)
    ensures QueryAnswer(t, agentId, platform, limit, out)
  {
    assert forall i, j :: 0 <= i < j < |out| ==> out[i].timestamp == rows[i].timestamp && out[j].timestamp == rows[j].timestamp;
    OutRowsWanted(t, agentId, platform, limit, rows, out);
    OutRowsStored(t, agentId, platform, limit, rows, out);
    if limit < 0 || |FilterRows(t, Conditions(agentId, platform))| <= limit {
      OutRowsComplete(t, agentId, platform, limit, rows, out);
    }
    if out != [] {
      OutRowsNewest(t, agentId, platform, limit, rows, out);
    }
  }

  /** Every returned conversation is a stored row the filters want. */
  lemma OutRowsStored(t: Table, agentId: Option<string>, platform: Option<string>, limit: int,
                      rows: Table, out: seq<Conversation>)
    requires rows == Select(t, Conditions(agentId, platform), limit)
    requires out == Outs(rows)
    ensures forall c :: c in out ==> exists row :: row in t && Wanted(row, agentId, platform) && c == Out(row)
  {
    forall c | c in out
      ensures exists row :: row in t && Wanted(row, agentId, platform) && c == Out(row)
    {
      var i :| 0 <= i < |out| && out[i] == c;
      assert rows[i] in rows;
      ConditionsMeaning(rows[i], agentId, platform);
    }
  }

  lemma OutRowsWanted(t: Table, agentId: Option<string>, platform: Option<string>, limit: int,
                      rows: Table, out: seq<Conversation>)
    requires rows == Select(t, Conditions(agentId, platform), limit)
    requires out == Outs(rows)
    ensures forall c :: c in out ==> (!Given(agentId) || c.agentId == agentId.value) && (!Given(platform) || c.platform == platform.value)
  {
    forall c | c in out
      ensures (!Given(agentId) || c.agentId == agentId.value) && (!Given(platform) || c.platform == platform.value)
    {
      var i :| 0 <= i < |out| && out[i] == c;
      assert rows[i] in rows;
      ConditionsMeaning(rows[i], agentId, platform);
    }
  }

  lemma OutRowsComplete(t: Table, agentId: Option<string>, platform: Option<string>, limit: int,
                        rows: Table, out: seq<Conversation>)
    requires rows == Select(t, Conditions(agentId, platform), limit)
    requires out == Outs(rows)
    requires limit < 0 || |FilterRows(t, Conditions(agentId, platform))| <= limit
    ensures forall row :: row in t && Wanted(row, agentId, platform) ==> Out(row) in out
  {
    var wanted := FilterRows(t, Conditions(agentId, platform));
    forall row | row in t && Wanted(row, agentId, platform)
      ensures Out(row) in out
    {
      ConditionsMeaning(row, agentId, platform);
      assert row in wanted;
      assert row in multiset(rows);
      var i :| 0 <= i < |rows| && rows[i] == row;
      assert out[i] == Out(row);
    }
  }

  lemma OutRowsNewest(t: Table, agentId: Option<string>, platform: Option<string>, limit: int,
                      rows: Table, out: seq<Conversation>)
    requires rows == Select(t, Conditions(agentId, platform), limit)
    requires out == Outs(rows)
    requires out != []
    ensures forall row :: row in t && Wanted(row, agentId, platform) && Out(row) !in out ==>
              LexLe(row.timestamp, out[|out| - 1].timestamp)
  {
    forall row | row in t && Wanted(row, agentId, platform) && Out(row) !in out
      ensures LexLe(row.timestamp, out[|out| - 1].timestamp)
    {
      LeftOutRow(t, agentId, platform, limit, rows, out, row);
    }
  }

  lemma LeftOutRow(t: Table, agentId: Option<string>, platform: Option<string>, limit: int,
                   rows: Table, out: seq<Conversation>, row: Row)
    requires rows == Select(t, Conditions(agentId, platform), limit)
    requires out == Outs(rows)
    requires out != [] && row in t && Wanted(row, agentId, platform) && Out(row) !in out
    ensures LexLe(row.timestamp, out[|out| - 1].timestamp)
  {
    ConditionsMeaning(row, agentId, platform);
    OutsMiss(rows, row);
    SelectLeftOut(t, Conditions(agentId, platform), limit, row);
  }

  /** A row whose output is not returned was not selected. */
  lemma OutsMiss(rows: Table, row: Row)
    requires Out(row) !in Outs(rows)
    ensures row !in rows
  {
    forall i | 0 <= i < |rows|
      ensures rows[i] != row
    {
      assert Outs(rows)[i] == Out(rows[i]);
    }
  }

  /** A wanted row the limit cut off is no newer than the last row kept. */
  lemma SelectLeftOut(t: Table, q: seq<Condition>, limit: int, row: Row)
    requires row in t && Selected(row, q)
    requires Select(t, q, limit) != [] && row !in Select(t, q, limit)
    ensures LexLe(row.timestamp, Select(t, q, limit)[|Select(t, q, limit)| - 1].timestamp)
  {
    var r := Select(t, q, limit);
    assert row in FilterRows(t, q);
    assert row in multiset(FilterRows(t, q)) - multiset(r);
  }

  /** A saved conversation is returned by a query for its agent (within the
      limit), with its data and its metadata, empty metadata reading as None. */
  lemma SaveThenGet(t: Table, agentId: string, platform: string, data: Object, metadata: Option<Object>,
                    id: string, now: string)
    requires id !in Ids(t) && agentId != []
    requires forall i :: 0 <= i < |t| ==> t[i].agentId != agentId
    ensures SaveConversation(t, agentId, platform, data, metadata, id, now, true).Ok?
    ensures var t' := SaveConversation(t, agentId, platform, data, metadata, id, now, true).value.1;
            GetConversations(t', Some(agentId), None, 100, true)
              == Ok([Conversation(id, agentId, platform, now, data, StoredMetadata(metadata))])
  {
    var row := Row(id, agentId, platform, now, data, StoredMetadata(metadata));
    var t' := t + [row];
    var cs := Conditions(Some(agentId), None);
    assert cs == [AgentIs(agentId)];
    OnlyNewRowSelected(t, row, cs);
    var rows := Select(t', cs, 100);
    assert rows == [row];
    assert SaveConversation(t, agentId, platform, data, metadata, id, now, true).value.1 == t';
    var out := Outs(rows);
    assert GetConversations(t', Some(agentId), None, 100, true) == Ok(out);
    assert out == [Out(row)];
  }

  lemma OnlyNewRowSelected(t: Table, row: Row, cs: seq<Condition>)
    requires cs == [AgentIs(row.agentId)]
    requires forall i :: 0 <= i < |t| ==> t[i].agentId != row.agentId
    ensures Select(t + [row], cs, 100) == [row]
  {
    forall i | 0 <= i < |t|
      ensures !Selected(t[i], cs)
    {
      assert !cs[0].Holds(t[i]);
    }
    FilterNone(t, cs);
    assert FilterRows([row], cs) == [row];
    FilterAppend(t, [row], cs);
    assert FilterRows(t + [row], cs) == [row];
    NewerOrSameIsPreorder();
    assert Sorting.SortDescending([row], NewerOrSame) == [row];
  }

  lemma {:induction false} FilterNone(t: Table, cs: seq<Condition>)
    requires forall i :: 0 <= i < |t| ==> !Selected(t[i], cs)
    ensures FilterRows(t, cs) == []
  {
    if t != [] {
      FilterNone(t[1..], cs);
    }
  }

  lemma {:induction false} FilterAppend(a: Table, b: Table, cs: seq<Condition>)
    ensures FilterRows(a + b, cs) == FilterRows(a, cs) + FilterRows(b, cs)
  {
    if a == [] {
      assert a + b == b;
    } else {
      assert (a + b)[1..] == a[1..] + b;
      FilterAppend(a[1..], b, cs);
    }
  }
}

=== FILE: device_tracking.dfy ===
/** Cross-device environment tracking: which configured machine the current
    host is, and the device-sync log that keeps the most recent hundred
    snapshots. The host name, the snapshot and the log file's contents are
    inputs.
 */
module DeviceTracking {
  import opened Wrappers
  import opened Text
  import opened Json

  /** The configured devices, in declaration order: a name and the host
      name it is recognised by. */
  const Devices := [("mac_mini", "mac-mini-m1"), ("macbook_air", "macbook-air-m1")]

  const Unknown := "unknown"

  /** The device with host name `known` is the current host. */
  predicate Matches(known: string, current: string)
  {
    Contains(Lower(current), Lower(known))
  }

  /** The position of the first device matching the current host. */
  function FirstMatch(devices: seq<(string, string)>, current: string): (r: Option<nat>)
    ensures r.Some? ==> r.value < |devices| && Matches(devices[r.value].1, current)
    ensures r.Some? ==> forall j :: 0 <= j < r.value ==> !Matches(devices[j].1, current)
    ensures r.None? <==> forall j :: 0 <= j < |devices| ==> !Matches(devices[j].1, current)
  {
    if devices == [] then None
    else if Matches(devices[0].1, current) then Some(0)
    else match FirstMatch(devices[1..], current)
      case None => None
      case Some(i) => Some(i + 1)
  }

  /** The device name `get_system_info` reports: the first configured
      device whose lower-cased host name occurs in the lower-cased current
      host name, else "unknown". */
  function DetectDevice(devices: seq<(string, string)>, current: string): (name: string)
    ensures (exists i :: 0 <= i < |devices| && Matches(devices[i].1, current)
                         && (forall j :: 0 <= j < i ==> !Matches(devices[j].1, current))
                         && name == devices[i].0)
            || ((forall j :: 0 <= j < |devices| ==> !Matches(devices[j].1, current)) && name == Unknown)
  {
    match FirstMatch(devices, current)
    case None => Unknown
    case Some(i) => devices[i].0
  }

  /** Upper case in the host name makes no difference. */
  lemma DetectIgnoresCase(devices: seq<(string, string)>, current: string)
    ensures DetectDevice(devices, Lower(current)) == DetectDevice(devices, current)
  {
    LowerIdempotent(current);
    assert forall k :: Matches(k, Lower(current)) <==> Matches(k, current);
    FirstMatchAgrees(devices, Lower(current), current);
  }

  lemma LowerIdempotent(s: string)
    ensures Lower(Lower(s)) == Lower(s)
  {
  }

  /** Two host names that match the same devices pick the same one. */
  lemma {:induction false} FirstMatchAgrees(devices: seq<(string, string)>, a: string, b: string)
    requires forall k :: Matches(k, a) <==> Matches(k, b)
    ensures FirstMatch(devices, a) == FirstMatch(devices, b)
    decreases |devices|
  {
    if devices != [] {
      FirstMatchAgrees(devices[1..], a, b);
    }
  }

  /** A host whose name holds a configured host name is recognised: the
      Mac mini under a domain suffix. */
  lemma MacMiniRecognised(suffix: string)
    ensures DetectDevice(Devices, "mac-mini-m1" + suffix) == "mac_mini"
  {
    var current := "mac-mini-m1" + suffix;
    LowerKeepsLowercase("mac-mini-m1");
    LowerAppend("mac-mini-m1", suffix);
    ContainsMiddle([], "mac-mini-m1", Lower(suffix));
    assert [] + "mac-mini-m1" + Lower(suffix) == Lower(current);
    assert Matches(Devices[0].1, current);
  }

  lemma LowerKeepsLowercase(s: string)
    requires forall i :: 0 <= i < |s| ==> !IsUpper(s[i])
    ensures Lower(s) == s
  {
  }

  lemma LowerAppend(a: string, b: string)
    ensures Lower(a + b) == Lower(a) + Lower(b)
  {
  }

  // ---- The sync log ----

  const MaxEntries := 100

  /** `xs[-n:]` for a positive `n`: the last `n` elements, or all of them
      when there are fewer. (`xs[-0:]` would be the whole list.) */
  function LastN<T>(xs: seq<T>, n: nat): (r: seq<T>)
    requires n > 0
    ensures |r| == if |xs| <= n then |xs| else n
    ensures r == xs[|xs| - |r|..]
  {
    if |xs| <= n then xs else xs[|xs| - n..]
  }

  /** `log_environment`. `stored` is the decoded log file, None when it is
      missing or not valid JSON (either reads as an empty log); a document
      that is not a list makes `append` raise. */
  function LogEnvironment(stored: Option<Value>, info: Value): (r: Result<seq<Value>>)
    ensures stored.None? ==> r == Ok([info])
    ensures r.Err? <==> stored.Some? && !stored.value.Arr?
    ensures r.Ok? ==> 0 < |r.value| <= MaxEntries && r.value[|r.value| - 1] == info
    ensures stored.Some? && stored.value.Arr? && |stored.value.items| < MaxEntries
            ==> r == Ok(stored.value.items + [info])
    ensures stored.Some? && stored.value.Arr? && |stored.value.items| >= MaxEntries
            ==> r == Ok(stored.value.items[|stored.value.items| - (MaxEntries - 1)..] + [info])
  {
    var logs := match stored
      case None => Ok([])
      case Some(Arr(items)) => Ok(items)
      case Some(_) => Err(WrongType("list"));
    match logs
    case Err(f) => Err(f)
    case Ok(items) =>
      var all := items + [info];
      assert |items| >= MaxEntries ==> all[|all| - MaxEntries..] == items[|items| - (MaxEntries - 1)..] + [info];
      Ok(LastN(all, MaxEntries))
  }

  /** Appending one entry to the last hundred keeps the same last hundred as
      appending it to the whole history. */
  lemma LastNAppend<T>(xs: seq<T>, x: T, n: nat)
    requires n > 0
    ensures LastN(LastN(xs, n) + [x], n) == LastN(xs + [x], n)
  {
    var ys := LastN(xs, n);
    if |xs| > n {
      assert (ys + [x])[|ys + [x]| - n..] == (xs + [x])[|xs + [x]| - n..];
    }
  }

  /** On a stored list, logging keeps the last hundred of it and the new
      snapshot. */
  lemma LogOnList(items: seq<Value>, info: Value)
    ensures LogEnvironment(Some(Arr(items)), info) == Ok(LastN(items + [info], MaxEntries))
  {
  }

  /** Logging snapshots one after the other, the first time without a
      file, afterwards reading back what the previous run wrote. */
  function LogAll(infos: seq<Value>): (log: seq<Value>)
  {
    if infos == [] then []
    else
      var init := infos[..|infos| - 1];
      var stored := if init == [] then None else Some(Arr(LogAll(init)));
      LogEnvironment(stored, infos[|infos| - 1]).value
  }

  /** After any number of runs the file holds the most recent hundred
      snapshots, oldest first. */
  lemma {:induction false} LogAllKeepsLatest(infos: seq<Value>)
    ensures LogAll(infos) == LastN(infos, MaxEntries)
    decreases |infos|
  {
    if infos != [] {
      var init := infos[..|infos| - 1];
      var x := infos[|infos| - 1];
      assert init + [x] == infos;
      if init == [] {
        assert LogAll(infos) == LogEnvironment(None, x).value;
      } else {
        LogAllKeepsLatest(init);
        assert LogAll(infos) == LogEnvironment(Some(Arr(LogAll(init))), x).value;
        LogOnList(LogAll(init), x);
        LastNAppend(init, x, MaxEntries);
      }
    }
  }
}

=== FILE: diagnostics.dfy ===
/** The deterministic parts of the AI troubleshooter: where the Gemini key
    comes from, and the markdown report assembled for the model out of the
    health-check results, the recent logs and the repair history. The model
    call itself is not part of this model.
 */
module Diagnostics {
  import opened Wrappers
  import opened Text
  import opened KeyFile

  const ApiKeyName := "GEMINI_API_KEY"

  /** The key `AITroubleshooter.__init__` configures the client with: the
      environment variable when it is set and non-empty; otherwise the
      `.env` file, whose absence raises FileNotFoundError; an empty or
      missing value raises ValueError. */
  function ApiKey(envVar: Option<string>, envFile: Option<string>): (r: Result<string>)
    ensures r.Ok? ==> r.value != []
    ensures Given(envVar) ==> r == Ok(envVar.value)
    ensures !Given(envVar) && envFile.None? ==> r == Err(NotFound(".env"))
    ensures r.Err? && r.fault.BadValue? <==> !Given(envVar) && envFile.Some? && !Given(FileToken(envFile.value, ApiKeyName))
  {
    if Given(envVar) then Ok(envVar.value)
    else if envFile.None? then Err(NotFound(".env"))
    else
      var token := FileToken(envFile.value, ApiKeyName);
      if Given(token) then Ok(token.value)
      else Err(BadValue("GEMINI_API_KEY not found in environment or .env file"))
  }

  /** With no usable environment variable, the first `GEMINI_API_KEY=` line
      of the file supplies the key. */
  lemma ApiKeyFromFile(envVar: Option<string>, pre: seq<string>, v: string, post: string)
    requires !Given(envVar) && Bare(v) && v != []
    requires forall i :: 0 <= i < |pre| ==> CompleteLine(pre[i]) && !StartsWith(pre[i], ApiKeyName + "=")
    requires '\r' !in Concat(pre) + (ApiKeyName + "=" + v + "\n") + post
    ensures ApiKey(envVar, Some(Concat(pre) + (ApiKeyName + "=" + v + "\n") + post)) == Ok(v)
  {
    ApiKeyNameIsKeyName();
    FirstLineWins(pre, ApiKeyName, v, post);
  }

  lemma ApiKeyNameIsKeyName()
    ensures KeyName(ApiKeyName)
  {
  }

  // ---- The report ----

  /** One health check as `check_letta_status.main` hands it over. */
  datatype CheckResult = CheckResult(passed: bool, message: string, errorCode: Option<string>, errorDetails: Option<string>)

  /** One entry of `LettaRepair.repair_log`. */
  datatype RepairEntry = RepairEntry(timestamp: string, component: string, action: string, success: bool)

  const PassMark: char := '\U{2705}'
  const FailMark: char := '\U{274C}'

  function Mark(ok: bool): string
  {
    if ok then [PassMark] else [FailMark]
  }

  const StatusHeader := "### System Status\n"
  const ErrorPrefix := "Error: "

  /** A failed check with truthy details gets an `Error:` line. */
  predicate ShowsError(r: CheckResult)
  {
    !r.passed && Given(r.errorDetails)
  }

  function StatusLine(r: CheckResult): string
  {
    Mark(r.passed) + " " + r.message + "\n"
  }

  function ErrorLine(r: CheckResult): string
    requires ShowsError(r)
  {
    ErrorPrefix + r.errorDetails.value + "\n"
  }

  /** The lines one result contributes, in order. */
  function ResultLines(r: CheckResult): (ls: seq<string>)
    ensures |ls| == if ShowsError(r) then 2 else 1
  {
    [StatusLine(r)] + (if ShowsError(r) then [ErrorLine(r)] else [])
  }

  function ReportLines(results: seq<CheckResult>): seq<string>
  {
    if results == [] then [] else ResultLines(results[0]) + ReportLines(results[1..])
  }

  /** `_format_check_results`. */
  function FormatCheckResults(results: seq<CheckResult>): (s: string)
    ensures StartsWith(s, StatusHeader)
  {
    var s := Concat([StatusHeader] + ReportLines(results));
    assert s == StatusHeader + Concat(ReportLines(results));
    s
  }

  // ---- Reading the status section back ----

  /** What a reader of the report learns about one check. */
  datatype Reported = Reported(passed: bool, message: string, error: Option<string>)

  function Shown(r: CheckResult): Reported
  {
    Reported(r.passed, r.message, if ShowsError(r) then r.errorDetails else None)
  }

  /** The text of a line after its first `k` characters, without the
      newline that ends it. */
  function After(line: string, k: nat): string
  {
    if k < |line| then line[k..|line| - 1] else []
  }

  /** Reads the status section line by line: every line is a status line,
      and an `Error:` line right after it belongs to it. */
  function ReadStatus(lines: seq<string>): seq<Reported>
    decreases |lines|
  {
    if lines == [] then []
    else
      var passed := StartsWith(lines[0], Mark(true));
      var message := After(lines[0], 2);
      if |lines| > 1 && StartsWith(lines[1], ErrorPrefix) then
        [Reported(passed, message, Some(After(lines[1], |ErrorPrefix|)))] + ReadStatus(lines[2..])
      else
        [Reported(passed, message, None)] + ReadStatus(lines[1..])
  }

  /** Messages and details that fit on one line. */
  predicate OneLine(r: CheckResult)
  {
    '\n' !in r.message && (r.errorDetails.Some? ==> '\n' !in r.errorDetails.value)
  }

  lemma StatusLineRead(r: CheckResult)
    ensures StartsWith(StatusLine(r), Mark(true)) <==> r.passed
    ensures After(StatusLine(r), 2) == r.message
    ensures !StartsWith(StatusLine(r), ErrorPrefix)
  {
    var l := StatusLine(r);
    assert l[0] == if r.passed then PassMark else FailMark;
    assert l[2..|l| - 1] == r.message;
  }

  lemma {:induction false} ReadReportLines(results: seq<CheckResult>)
    ensures ReadStatus(ReportLines(results)) == seq(|results|, i requires 0 <= i < |results| => Shown(results[i]))
  {
    if results != [] {
      var r := results[0];
      var rest := ReportLines(results[1..]);
      ReadReportLines(results[1..]);
      StatusLineRead(r);
      if rest != [] {
        StatusLineRead(results[1]);
        assert rest[0] == StatusLine(results[1]);
      }
      if ShowsError(r) {
        var e := ErrorLine(r);
        assert e[..|ErrorPrefix|] == ErrorPrefix;
        assert e[|ErrorPrefix|..|e| - 1] == r.errorDetails.value;
        assert (ResultLines(r) + rest)[2..] == rest;
      } else {
        assert (ResultLines(r) + rest)[1..] == rest;
      }
      assert ReadStatus(ReportLines(results)) == [Shown(r)] + ReadStatus(rest);
    }
  }

  lemma {:induction false} ReportLinesComplete(results: seq<CheckResult>)
    requires forall i :: 0 <= i < |results| ==> OneLine(results[i])
    ensures forall j :: 0 <= j < |ReportLines(results)| ==> CompleteLine(ReportLines(results)[j])
  {
    if results != [] {
      var r := results[0];
      ReportLinesComplete(results[1..]);
      var s := StatusLine(r);
      assert s[..|s| - 1] == Mark(r.passed) + " " + r.message;
      if ShowsError(r) {
        var e := ErrorLine(r);
        assert e[..|e| - 1] == ErrorPrefix + r.errorDetails.value;
      }
    }
  }

  /** The status section is a faithful report: its first line is the
      header, and reading the rest back gives, for every check in order,
      whether it passed, its message, and its details exactly when it
      failed with truthy details. */
  lemma CheckResultsRoundTrip(results: seq<CheckResult>)
    requires forall i :: 0 <= i < |results| ==> OneLine(results[i])
    ensures var ls := Lines(FormatCheckResults(results));
            |ls| >= 1 && ls[0] == StatusHeader
            && ReadStatus(ls[1..]) == seq(|results|, i requires 0 <= i < |results| => Shown(results[i]))
  {
    var pre := [StatusHeader] + ReportLines(results);
    ReportLinesComplete(results);
    assert StatusHeader[..|StatusHeader| - 1] == "### System Status";
    LinesOfConcat(pre, "");
    assert Concat(pre) + "" == Concat(pre);
    assert Lines(FormatCheckResults(results)) == pre;
    assert pre[1..] == ReportLines(results);
    ReadReportLines(results);
  }

  const LogsHeader := "### Recent Logs\n```\n"
  const Fence := "\n```"

  /** `_format_logs`: the logs, verbatim, in a fenced block. */
  function FormatLogs(logs: string): (s: string)
    ensures StartsWith(s, LogsHeader) && EndsWith(s, Fence)
    ensures |s| == |LogsHeader| + |logs| + |Fence|
    ensures s[|LogsHeader|..|s| - |Fence|] == logs
  {
    var s := LogsHeader + logs + Fence;
    assert s[..|LogsHeader|] == LogsHeader;
    assert s[|s| - |Fence|..] == Fence;
    assert s[|LogsHeader|..|s| - |Fence|] == logs;
    s
  }

  const RepairHeader := "### Recent Repair Attempts\n"

  function RepairLine(e: RepairEntry): string
  {
    e.timestamp + " - " + Mark(e.success) + " " + e.component + ": " + e.action + "\n"
  }

  /** `_format_repair_history`. */
  function FormatRepairHistory(repairs: seq<RepairEntry>): (s: string)
    ensures s == [] <==> repairs == []
    ensures repairs != [] ==> StartsWith(s, RepairHeader)
  {
    if repairs == [] then ""
    else
      var s := Concat([RepairHeader] + seq(|repairs|, i requires 0 <= i < |repairs| => RepairLine(repairs[i])));
      assert s == RepairHeader + Concat(seq(|repairs|, i requires 0 <= i < |repairs| => RepairLine(repairs[i])));
      s
  }

  predicate OneLineRepair(e: RepairEntry)
  {
    '\n' !in e.timestamp && '\n' !in e.component && '\n' !in e.action
  }

  /** A non-empty history is the header line followed by exactly one line
      per repair, in the order the repairs were logged. */
  lemma RepairHistoryLines(repairs: seq<RepairEntry>)
    requires forall i :: 0 <= i < |repairs| ==> OneLineRepair(repairs[i])
    requires repairs != []
    ensures var ls := Lines(FormatRepairHistory(repairs));
            |ls| == |repairs| + 1 && ls[0] == RepairHeader
            && forall i :: 0 <= i < |repairs| ==> ls[i + 1] == RepairLine(repairs[i])
  {
    var body := seq(|repairs|, i requires 0 <= i < |repairs| => RepairLine(repairs[i]));
    var pre := [RepairHeader] + body;
    forall i | 0 <= i < |repairs|
      ensures CompleteLine(body[i])
    {
      var e := repairs[i];
      var l := RepairLine(e);
      assert l[..|l| - 1] == e.timestamp + " - " + Mark(e.success) + " " + e.component + ": " + e.action;
    }
    assert RepairHeader[..|RepairHeader| - 1] == "### Recent Repair Attempts";
    LinesOfConcat(pre, "");
    assert Concat(pre) + "" == Concat(pre);
  }

  const ReportTitle := "# Letta Server Diagnostic Report\n"

  const SystemConfiguration := "\n" + ConfigurationSection

  const ConfigurationSection :=
    "### System Configuration\n- Docker-based Letta server\n- External Port: 8284\n- Internal Port: 8283\n- Using Google Gemini API\n- Auto-start enabled via launchd\n"

  const SystemPrompt :=
    "You are an expert system administrator and Docker specialist.\n"
    + "Your task is to analyze Letta server issues and provide specific, actionable solutions.\n"
    + "Focus on practical steps and command-line solutions.\n"
    + "Format your response in markdown with clear sections:\n"
    + "1. Issue Analysis\n2. Root Cause\n3. Solution Steps\n4. Prevention Measures"

  const PromptIntro := "\n\nAnalyze this system status and provide recommendations:\n\n"

  /** The sections `analyze_issues` puts in its context list. */
  function Context(results: seq<CheckResult>, logs: string, history: Option<seq<RepairEntry>>): (c: seq<string>)
    ensures 4 <= |c| <= 5
    ensures c[0] == ReportTitle && c[|c| - 1] == SystemConfiguration
  {
    [ReportTitle, FormatCheckResults(results), FormatLogs(logs)]
    + (if history.Some? && history.value != [] then [FormatRepairHistory(history.value)] else [])
    + [SystemConfiguration]
  }

  /** A text that differs from the repair header at some position within
      both does not start with it. */
  lemma DiffersFromRepairHeader(s: string, i: nat)
    requires i < |s| && i < |RepairHeader| && s[i] != RepairHeader[i]
    ensures !StartsWith(s, RepairHeader)
  {
    if |RepairHeader| <= |s| {
      assert s[..|RepairHeader|][i] == s[i];
    }
  }

  /** No section other than the repair history starts with its header. */
  lemma OtherSectionsAreNotRepairs(results: seq<CheckResult>, logs: string)
    ensures !StartsWith(ReportTitle, RepairHeader)
    ensures !StartsWith(FormatCheckResults(results), RepairHeader)
    ensures !StartsWith(FormatLogs(logs), RepairHeader)
    ensures !StartsWith(SystemConfiguration, RepairHeader)
  {
    StatusIsNotRepairs(results);
    LogsAreNotRepairs(logs);
    FixedSectionsAreNotRepairs();
  }

  lemma StatusIsNotRepairs(results: seq<CheckResult>)
    ensures !StartsWith(FormatCheckResults(results), RepairHeader)
  {
    var status := FormatCheckResults(results);
    assert status[..|StatusHeader|] == StatusHeader;
    assert status[4] == StatusHeader[4] == 'S';
    assert RepairHeader[4] == 'R';
    DiffersFromRepairHeader(status, 4);
  }

  lemma LogsAreNotRepairs(logs: string)
    ensures !StartsWith(FormatLogs(logs), RepairHeader)
  {
    var logText := FormatLogs(logs);
    assert logText[..|LogsHeader|] == LogsHeader;
    assert logText[11] == LogsHeader[11] == 'L';
    assert RepairHeader[11] == 'R';
    DiffersFromRepairHeader(logText, 11);
  }

  lemma FixedSectionsAreNotRepairs()
    ensures !StartsWith(ReportTitle, RepairHeader)
    ensures !StartsWith(SystemConfiguration, RepairHeader)
  {
    assert ReportTitle[1] == ' ' && RepairHeader[1] == '#';
    DiffersFromRepairHeader(ReportTitle, 1);
    assert SystemConfiguration[0] == '\n' && RepairHeader[0] == '#';
    DiffersFromRepairHeader(SystemConfiguration, 0);
  }

  /** The context holds a repair-history section exactly when the history
      passed in is truthy. */
  lemma RepairSectionIffHistory(results: seq<CheckResult>, logs: string, history: Option<seq<RepairEntry>>)
    ensures var c := Context(results, logs, history);
            (exists i :: 0 <= i < |c| && StartsWith(c[i], RepairHeader)) <==> history.Some? && history.value != []
  {
    var c := Context(results, logs, history);
    var status := FormatCheckResults(results);
    var logText := FormatLogs(logs);
    OtherSectionsAreNotRepairs(results, logs);
    if history.Some? && history.value != [] {
      assert c == [ReportTitle, status, logText, FormatRepairHistory(history.value), SystemConfiguration];
      assert StartsWith(c[3], RepairHeader);
    } else {
      assert c == [ReportTitle, status, logText, SystemConfiguration];
      forall i | 0 <= i < |c|
        ensures !StartsWith(c[i], RepairHeader)
      {
      }
    }
  }

  /** `analyze_issues`' prompt: the system prompt, the request, then the
      context sections one per line. */
  function Prompt(results: seq<CheckResult>, logs: string, history: Option<seq<RepairEntry>>): (p: string)
    ensures StartsWith(p, SystemPrompt + PromptIntro)
  {
    var p := SystemPrompt + PromptIntro + Join("\n", Context(results, logs, history));
    assert p[..|SystemPrompt + PromptIntro|] == SystemPrompt + PromptIntro;
    p
  }
}

=== FILE: env_config.dfy ===
/** The `KEY=VALUE` environment file of the configurator: loading it into an
    insertion-ordered dict, the two format validators, and saving the
    merged settings back. Whether the file exists and its text are
    parameters.
 */
module EnvConfig {
  import opened Wrappers
  import opened Text
  import opened OrderedDict
  import opened Seqs

  type Env = Dict<string, string>

  const ApiKeyName := "GEMINI_API_KEY"
  const ServerUrlName := "LETTA_SERVER_URL"
  const TimestampName := "LETTA_TIMESTAMP"
  const SavedTimestamp := "2025-03-14T21:27:48-06:00"

  /** A stripped line that carries a setting (not blank, not a comment). */
  predicate Setting(s: string)
  {
    s != [] && !StartsWith(s, "#")
  }

  /** One stripped line of `_load_current_env`: nothing for a blank or
      comment line, else the pair split at the first `=`; a setting line
      without `=` makes the two-name unpacking raise ValueError. */
  function ParseLine(s: string): (r: Result<Option<(string, string)>>)
    ensures r.Err? <==> Setting(s) && '=' !in s
    ensures r.Err? ==> r.fault.BadValue?
    ensures r == Ok(None) <==> !Setting(s)
    ensures r.Ok? && r.value.Some? ==> r.value.value.0 + "=" + r.value.value.1 == s && '=' !in r.value.value.0
  {
    if !Setting(s) then Ok(None)
    else if '=' !in s then Err(BadValue("not enough values to unpack"))
    else Ok(Some(SplitOnce(s, '=')))
  }

  /** The loop from a given dict on, over stripped lines: each pair is
      stored, a later duplicate overwriting an earlier one in its first
      position. */
  function LoadLines(acc: Env, lines: seq<string>): (r: Result<Env>)
    ensures r.Err? ==> r.fault.BadValue?
    ensures r.Ok? && KeysDistinct(acc) ==> KeysDistinct(r.value)
    decreases |lines|
  {
    if lines == [] then Ok(acc)
    else
      var entry :- ParseLine(lines[0]);
      LoadLines(if entry.Some? then Set(acc, entry.value.0, entry.value.1) else acc, lines[1..])
  }

  /** Loading fails exactly when some setting line has no `=`. */
  lemma {:induction false} LoadLinesFails(acc: Env, lines: seq<string>)
    ensures LoadLines(acc, lines).Err? <==> exists i :: 0 <= i < |lines| && ParseLine(lines[i]).Err?
    decreases |lines|
  {
    if lines != [] {
      var rest := lines[1..];
      assert forall i :: 1 <= i < |lines| ==> lines[i] == rest[i - 1];
      var entry := ParseLine(lines[0]);
      if entry.Ok? {
        LoadLinesFails(if entry.value.Some? then Set(acc, entry.value.value.0, entry.value.value.1) else acc, rest);
      }
    }
  }

  /** `line.strip()` for every line of the file. */
  function StrippedLines(ls: seq<string>): (r: seq<string>)
    ensures |r| == |ls|
  {
    if ls == [] then [] else [Strip(ls[0])] + StrippedLines(ls[1..])
  }

  /** `_load_current_env`: `file` is None when the file does not exist. */
  function LoadCurrentEnv(file: Option<string>): (r: Result<Env>)
    ensures file.None? ==> r == Ok([])
    ensures r.Ok? ==> KeysDistinct(r.value)
  {
    match file
    case None => Ok([])
    case Some(t) => LoadLines([], StrippedLines(Lines(ReadText(t))))
  }

  /** The lines after `lines` continue from the dict `lines` produced. */
  lemma {:induction false} LoadLinesAppend(acc: Env, lines: seq<string>, more: seq<string>)
    requires LoadLines(acc, lines).Ok?
    ensures LoadLines(acc, lines + more) == LoadLines(LoadLines(acc, lines).value, more)
    decreases |lines|
  {
    if lines == [] {
      assert lines + more == more;
    } else {
      assert (lines + more)[0] == lines[0];
      assert (lines + more)[1..] == lines[1..] + more;
      var entry := ParseLine(lines[0]).value;
      LoadLinesAppend(if entry.Some? then Set(acc, entry.value.0, entry.value.1) else acc, lines[1..], more);
    }
  }

  /** A pair that the line format carries unchanged. */
  predicate CleanPair(key: string, value: string)
  {
    && '=' !in key && '\n' !in key && '\r' !in key && '\n' !in value && '\r' !in value
    && (key == [] || (!IsSpace(key[0]) && key[0] != '#'))
    && (value == [] || !IsSpace(value[|value| - 1]))
  }

  /** The line one pair is written as. */
  function PairLine(key: string, value: string): string
  {
    key + "=" + value + "\n"
  }

  lemma StripPairLine(key: string, value: string)
    requires CleanPair(key, value)
    ensures Strip(PairLine(key, value)) == key + "=" + value
  {
    var body := key + "=" + value;
    assert body[0] == (if key == [] then '=' else key[0]);
    assert body[|body| - 1] == (if value == [] then '=' else value[|value| - 1]);
    assert !IsSpace('=') && IsSpace('\n');
    assert PairLine(key, value) == body + ['\n'];
    TrimDropsLast(body, '\n', IsSpace);
  }

  lemma ParsePairLine(key: string, value: string)
    requires CleanPair(key, value)
    ensures ParseLine(key + "=" + value) == Ok(Some((key, value)))
  {
    var body := key + "=" + value;
    assert body[0] == (if key == [] then '=' else key[0]);
    assert !StartsWith(body, "#");
    assert body[|key|] == '=';
    SplitOnceOf(key, '=', value);
    assert key + ['='] + value == body;
  }

  lemma LoadPair(acc: Env, key: string, value: string)
    requires CleanPair(key, value)
    ensures LoadLines(acc, [key + "=" + value]) == Ok(Set(acc, key, value))
  {
    ParsePairLine(key, value);
    assert [key + "=" + value][1..] == [];
  }

  /** Later duplicates win, and the key keeps its first position. */
  lemma LaterDuplicateWins(key: string, first: string, second: string)
    requires CleanPair(key, first) && CleanPair(key, second)
    ensures LoadLines([], [key + "=" + first, key + "=" + second]) == Ok([(key, second)])
  {
    var l1, l2 := key + "=" + first, key + "=" + second;
    LoadPair([], key, first);
    SetOnEmpty(key, first);
    LoadPair([(key, first)], key, second);
    SetOnSingleton(key, first, second);
    PairOfSingletons(l1, l2);
    LoadLinesAppend([], [l1], [l2]);
  }

  lemma SetOnEmpty(k: string, v: string)
    ensures Set([], k, v) == [(k, v)]
  {
    assert k !in KeySet<string, string>([]);
  }

  lemma SetOnSingleton(k: string, v: string, w: string)
    ensures Set([(k, v)], k, w) == [(k, w)]
  {
    assert IndexOf([(k, v)], k) == 0;
  }

  /** `f.write(f"{key}={value}\n")` for every entry, in order. */
  function Serialize(env: Env): (t: string)
    ensures env == [] ==> t == []
  {
    if env == [] then [] else PairLine(env[0].0, env[0].1) + Serialize(env[1..])
  }

  predicate Clean(env: Env)
  {
    forall i :: 0 <= i < |env| ==> CleanPair(env[i].0, env[i].1)
  }

  lemma {:induction false} SerializeHasNoCR(env: Env)
    requires Clean(env)
    ensures '\r' !in Serialize(env)
  {
    if env != [] {
      SerializeHasNoCR(env[1..]);
    }
  }

  /** The lines of a serialised env, one per entry. */
  function PairLines(env: Env): (ls: seq<string>)
    ensures |ls| == |env|
  {
    if env == [] then [] else [PairLine(env[0].0, env[0].1)] + PairLines(env[1..])
  }

  /** The stripped lines of a serialised env. */
  function Bodies(env: Env): (ls: seq<string>)
    ensures |ls| == |env|
  {
    if env == [] then [] else [env[0].0 + "=" + env[0].1] + Bodies(env[1..])
  }

  lemma {:induction false} SerializedLines(env: Env)
    requires Clean(env)
    ensures Lines(Serialize(env)) == PairLines(env)
  {
    if env != [] {
      SerializedLines(env[1..]);
      var (k, v) := env[0];
      assert '\n' !in k + "=" + v;
      assert PairLine(k, v) + Serialize(env[1..]) == (k + "=" + v) + "\n" + Serialize(env[1..]);
      LinesCons(k + "=" + v, Serialize(env[1..]));
    }
  }

  lemma {:induction false} StrippedPairLines(env: Env)
    requires Clean(env)
    ensures StrippedLines(PairLines(env)) == Bodies(env)
  {
    if env != [] {
      StripPairLine(env[0].0, env[0].1);
      StrippedPairLines(env[1..]);
      assert PairLines(env)[1..] == PairLines(env[1..]);
    }
  }

  lemma LoadFirstBody(acc: Env, env: Env)
    requires env != [] && CleanPair(env[0].0, env[0].1) && env[0].0 !in KeySet(acc)
    ensures LoadLines(acc, Bodies(env)) == LoadLines(acc + [env[0]], Bodies(env[1..]))
  {
    var (k, v) := env[0];
    LoadPair(acc, k, v);
    assert Set(acc, k, v) == acc + [env[0]];
    assert Bodies(env) == [k + "=" + v] + Bodies(env[1..]);
    LoadLinesAppend(acc, [k + "=" + v], Bodies(env[1..]));
  }

  /** Moving the first entry over keeps both sides clean and apart. */
  lemma ShiftFirst(acc: Env, env: Env)
    requires env != [] && Clean(env) && KeysDistinct(env)
    requires forall i, j :: 0 <= i < |acc| && 0 <= j < |env| ==> acc[i].0 != env[j].0
    ensures Clean(env[1..]) && KeysDistinct(env[1..])
    ensures forall i, j :: 0 <= i < |acc + [env[0]]| && 0 <= j < |env[1..]| ==> (acc + [env[0]])[i].0 != env[1..][j].0
  {
    var acc' := acc + [env[0]];
    forall i, j | 0 <= i < |acc'| && 0 <= j < |env[1..]|
      ensures acc'[i].0 != env[1..][j].0
    {
      assert env[1..][j] == env[j + 1];
      if i == |acc| {
        assert acc'[i] == env[0];
      } else {
        assert acc'[i] == acc[i];
      }
    }
  }

  lemma {:induction false} LoadBodies(acc: Env, env: Env)
    requires Clean(env) && KeysDistinct(env)
    requires forall i, j :: 0 <= i < |acc| && 0 <= j < |env| ==> acc[i].0 != env[j].0
    ensures LoadLines(acc, Bodies(env)) == Ok(acc + env)
    decreases |env|
  {
    if env == [] {
      assert acc + env == acc;
    } else {
      assert env[0].0 !in KeySet(acc);
      LoadFirstBody(acc, env);
      var acc' := acc + [env[0]];
      ShiftFirst(acc, env);
      LoadBodies(acc', env[1..]);
      assert LoadLines(acc, Bodies(env)) == Ok(acc' + env[1..]);
      ShiftConcat(acc, env);
    }
  }

  /** Saving and loading again gives back the same settings in the same
      order, provided every pair survives the line format. */
  lemma SerializeRoundTrip(env: Env)
    requires Clean(env) && KeysDistinct(env)
    ensures LoadCurrentEnv(Some(Serialize(env))) == Ok(env)
  {
    SerializeHasNoCR(env);
    SerializedLines(env);
    StrippedPairLines(env);
    LoadBodies([], env);
    assert [] + env == env;
  }

  /** The merge of `save_environment`: the key and the URL only when given
      truthy values, and the fixed timestamp always. */
  function SaveEnvironment(env: Env, geminiKey: Option<string>, serverUrl: Option<string>): (r: Env)
    ensures KeysDistinct(env) ==> KeysDistinct(r)
    ensures Get(r, TimestampName) == Some(SavedTimestamp)
    ensures Given(geminiKey) ==> Get(r, ApiKeyName) == Some(geminiKey.value)
    ensures !Given(geminiKey) ==> Get(r, ApiKeyName) == Get(env, ApiKeyName)
    ensures Given(serverUrl) ==> Get(r, ServerUrlName) == Some(serverUrl.value)
    ensures !Given(serverUrl) ==> Get(r, ServerUrlName) == Get(env, ServerUrlName)
    ensures forall k :: k != ApiKeyName && k != ServerUrlName && k != TimestampName ==> Get(r, k) == Get(env, k)
  {
    var e1 := if Given(geminiKey) then Set(env, ApiKeyName, geminiKey.value) else env;
    var e2 := if Given(serverUrl) then Set(e1, ServerUrlName, serverUrl.value) else e1;
    Set(e2, TimestampName, SavedTimestamp)
  }

  /** The file `save_environment` writes. */
  function SavedFile(env: Env, geminiKey: Option<string>, serverUrl: Option<string>): string
  {
    Serialize(SaveEnvironment(env, geminiKey, serverUrl))
  }

  /** Every entry keeps its pair; the length grows by the keys added. */
  lemma {:induction false} SetKeepsClean(env: Env, k: string, v: string)
    requires Clean(env) && CleanPair(k, v)
    ensures Clean(Set(env, k, v))
  {
    var i := IndexOf(env, k);
    if i < |env| {
      assert Set(env, k, v) == env[i := (k, v)];
    } else {
      assert Set(env, k, v) == env + [(k, v)];
    }
  }

  lemma TimestampClean()
    ensures CleanPair(TimestampName, SavedTimestamp)
  {
    assert '=' !in TimestampName && '\n' !in TimestampName && '\r' !in TimestampName;
    assert '\n' !in SavedTimestamp && '\r' !in SavedTimestamp;
  }

  /** The merge keeps a clean env clean. */
  lemma SaveKeepsClean(env: Env, geminiKey: Option<string>, serverUrl: Option<string>)
    requires Clean(env)
    requires Given(geminiKey) ==> CleanPair(ApiKeyName, geminiKey.value)
    requires Given(serverUrl) ==> CleanPair(ServerUrlName, serverUrl.value)
    ensures Clean(SaveEnvironment(env, geminiKey, serverUrl))
  {
    var e1 := if Given(geminiKey) then Set(env, ApiKeyName, geminiKey.value) else env;
    if Given(geminiKey) { SetKeepsClean(env, ApiKeyName, geminiKey.value); }
    var e2 := if Given(serverUrl) then Set(e1, ServerUrlName, serverUrl.value) else e1;
    if Given(serverUrl) { SetKeepsClean(e1, ServerUrlName, serverUrl.value); }
    TimestampClean();
    SetKeepsClean(e2, TimestampName, SavedTimestamp);
  }

  /** What is saved loads back as the merged settings. */
  lemma SaveThenLoad(env: Env, geminiKey: Option<string>, serverUrl: Option<string>)
    requires Clean(env) && KeysDistinct(env)
    requires Given(geminiKey) ==> CleanPair(ApiKeyName, geminiKey.value)
    requires Given(serverUrl) ==> CleanPair(ServerUrlName, serverUrl.value)
    ensures LoadCurrentEnv(Some(SavedFile(env, geminiKey, serverUrl))) == Ok(SaveEnvironment(env, geminiKey, serverUrl))
  {
    SaveKeepsClean(env, geminiKey, serverUrl);
    SerializeRoundTrip(SaveEnvironment(env, geminiKey, serverUrl));
  }

  // ---- The validators ----

  /** The part of `s` that `^...$` must match: `$` also matches just
      before one final newline. */
  function Body(s: string): (b: string)
    ensures b == s || s == b + "\n"
  {
    if |s| > 0 && s[|s| - 1] == '\n' then s[..|s| - 1] else s
  }

  predicate KeyChar(c: char)
  {
    IsAlnum(c) || c == '_' || c == '-'
  }

  /** `re.match(r'^[A-Za-z0-9_-]{39,}$', key)`. */
  predicate ValidateApiKey(key: string)
  {
    var b := Body(key);
    |b| >= 39 && forall i :: 0 <= i < |b| ==> KeyChar(b[i])
  }

  /** Without a newline, a key is valid exactly when it is 39 or more key
      characters. */
  lemma ApiKeyExact(key: string)
    requires '\n' !in key
    ensures ValidateApiKey(key) <==> |key| >= 39 && forall i :: 0 <= i < |key| ==> KeyChar(key[i])
  {
  }

  predicate HostChar(c: char)
  {
    IsAlnum(c) || c == '.' || c == '-'
  }

  /** Length of the longest prefix of host characters. */
  function HostLength(s: string): (n: nat)
    ensures n <= |s|
    ensures forall j :: 0 <= j < n ==> HostChar(s[j])
    ensures n < |s| ==> !HostChar(s[n])
  {
    if s == [] || !HostChar(s[0]) then 0 else 1 + HostLength(s[1..])
  }

  predicate AllDigits(s: string)
  {
    forall i :: 0 <= i < |s| ==> IsDigit(s[i])
  }

  /** What may follow the host: nothing, or `:` and one or more digits. */
  predicate PortPart(s: string)
  {
    s == [] || (s[0] == ':' && |s| > 1 && AllDigits(s[1..]))
  }

  /** `re.match(r'^https?://[a-zA-Z0-9.-]+(?::\d+)?$', url)`. No
      backtracking is needed: a host character is never `:` or a newline. */
  predicate ValidateServerUrl(url: string)
  {
    var b := Body(url);
    var rest := if StartsWith(b, "http://") then Some(b[7..])
                else if StartsWith(b, "https://") then Some(b[8..])
                else None;
    rest.Some? && HostLength(rest.value) > 0 && PortPart(rest.value[HostLength(rest.value)..])
  }

  predicate Scheme(s: string)
  {
    s == "http://" || s == "https://"
  }

  /** `scheme + host + port` has the shape the pattern describes. */
  predicate UrlParts(scheme: string, host: string, port: string)
  {
    Scheme(scheme) && host != [] && (forall i :: 0 <= i < |host| ==> HostChar(host[i])) && PortPart(port)
  }

  /** Every URL of the pattern's shape is accepted. */
  lemma UrlAccepted(scheme: string, host: string, port: string)
    requires UrlParts(scheme, host, port)
    ensures ValidateServerUrl(scheme + host + port)
  {
    var u := scheme + host + port;
    assert '\n' !in u by {
      assert forall i :: 0 <= i < |u| ==> u[i] != '\n' by {
        forall i | 0 <= i < |u| ensures u[i] != '\n' {
          if i < |scheme| { assert u[i] == scheme[i]; }
          else if i < |scheme| + |host| { assert u[i] == host[i - |scheme|]; }
          else { assert u[i] == port[i - |scheme| - |host|]; }
        }
      }
    }
    assert Body(u) == u;
    var rest := host + port;
    if scheme == "http://" {
      assert StartsWith(u, "http://") && u[7..] == rest;
    } else {
      assert !StartsWith(u, "http://") by { assert u[4] == 's'; }
      assert StartsWith(u, "https://") && u[8..] == rest;
    }
    HostLengthOf(host, port);
    assert rest[|host|..] == port;
  }

  lemma {:induction false} HostLengthOf(host: string, port: string)
    requires forall i :: 0 <= i < |host| ==> HostChar(host[i])
    requires PortPart(port)
    ensures HostLength(host + port) == |host|
  {
    if host != [] {
      assert (host + port)[0] == host[0];
      assert HostChar(host[0]);
      assert (host + port)[1..] == host[1..] + port;
      HostLengthOf(host[1..], port);
    } else {
      assert host + port == port;
      assert !HostChar(':');
    }
  }

  /** Every accepted URL without a newline has the pattern's shape. */
  lemma UrlShape(url: string)
    requires '\n' !in url && ValidateServerUrl(url)
    ensures exists scheme, host, port :: UrlParts(scheme, host, port) && url == scheme + host + port
  {
    assert Body(url) == url by {
      if |url| > 0 { assert url[|url| - 1] in url; }
    }
    var scheme := if StartsWith(url, "http://") then "http://" else "https://";
    assert url[..|scheme|] == scheme;
    var rest := url[|scheme|..];
    var n := HostLength(rest);
    var host := rest[..n];
    var port := rest[n..];
    ThreeParts(url, |scheme|, n);
    assert forall i :: 0 <= i < |host| ==> HostChar(host[i]);
    assert UrlParts(scheme, host, port);
    ShapeIntro(url, scheme, host, port);
  }

  lemma ShapeIntro(url: string, scheme: string, host: string, port: string)
    requires UrlParts(scheme, host, port) && url == scheme + host + port
    ensures exists s, h, p :: UrlParts(s, h, p) && url == s + h + p
  {
  }

}

=== FILE: inspector.dfy ===
/** The memory inspector: lists the `.json` files of the memory directory,
    reads each one (an unreadable file reads as an empty record), searches
    topics and contents case-insensitively, and shows each record with its
    content cut to 300 characters. `str()` of a non-string content is a
    parameter (`show`).
 */
module Inspector {
  import opened Wrappers
  import opened Text
  import opened Json
  import opened MemoryFiles

  const SummaryLimit := 300
  const Ellipsis := "..."

  /** `list_memory_files`: `listing` is None when `os.listdir` raised. */
  function ListMemoryFiles(listing: Option<Dir>): (names: seq<string>)
    ensures listing.None? ==> names == []
    ensures listing.Some? ==> forall n :: n in names <==> n in Names(listing.value) && IsJsonName(n)
    ensures listing.Some? ==> |names| <= |listing.value|
  {
    match listing
    case None => []
    case Some(d) => JsonNames(d)
  }

  function JsonNames(d: Dir): (names: seq<string>)
    ensures forall n :: n in names <==> n in Names(d) && IsJsonName(n)
    ensures |names| <= |d|
  {
    if d == [] then []
    else
      var rest := JsonNames(d[1..]);
      assert Names(d) == {d[0].name} + Names(d[1..]);
      if IsJsonName(d[0].name) then [d[0].name] + rest else rest
  }

  /** The names of one file: its own name when it is a `.json` file. */
  lemma JsonNamesSingle(f: File)
    ensures JsonNames([f]) == if IsJsonName(f.name) then [f.name] else []
  {
    assert [f][1..] == [];
  }

  /** Listing two parts of a directory lists the first part's names, then
      the second's: the listing keeps the directory's order and gives one
      entry per `.json` file. */
  lemma {:induction false} JsonNamesAppend(a: Dir, b: Dir)
    ensures JsonNames(a + b) == JsonNames(a) + JsonNames(b)
  {
    if a != [] {
      assert (a + b)[0] == a[0];
      assert (a + b)[1..] == a[1..] + b;
      JsonNamesAppend(a[1..], b);
    } else {
      assert a + b == b;
    }
  }

  /** `read_memory_file`: the parsed record, or `{}` when the file cannot be
      opened or parsed. */
  function ReadMemoryFile(d: Dir, name: string): (r: Object)
    ensures (forall f :: f in d ==> f.name != name) ==> r == map[]
    ensures forall f :: f in d && f.name == name && f.body.Unreadable? && UniqueNames(d) ==> r == map[]
    ensures forall f :: f in d && f.name == name && f.body.Doc? && UniqueNames(d) ==> r == f.body.record
  {
    var i := IndexOfName(d, name);
    if i < |d| then
      assert forall f :: f in d && f.name == name && UniqueNames(d) ==> f == d[i];
      match d[i].body
      case Doc(record) => record
      case Unreadable => map[]
    else
      assert forall f :: f in d ==> f.name != name;
      map[]
  }

  /** `str(v)`: a string is itself; everything else goes through `show`. */
  function Shown(v: Value, show: Value -> string): string
  {
    if v.Str? then v.s else show(v)
  }

  /** The search predicate: no query matches everything; otherwise the
      lower-cased query must occur in the lower-cased topic (default '') or
      in the lower-cased `str()` of the content (default ''). A topic that
      is not a string raises on `.lower()`. */
  function Match(record: Object, query: Option<string>, show: Value -> string): (r: Result<bool>)
    ensures !Given(query) ==> r == Ok(true)
    ensures Given(query) && !Get(record, "topic", Str("")).Str? ==> r.Err?
    ensures r.Ok? && Given(query) ==>
              (r.value <==> Contains(Lower(Get(record, "topic", Str("")).s), Lower(query.value))
                            || Contains(Lower(Shown(Get(record, "content", Str("")), show)), Lower(query.value)))
  {
    if !Given(query) then Ok(true)
    else
      var q := Lower(query.value);
      match Get(record, "topic", Str(""))
      case Str(topic) =>
        Ok(Contains(Lower(topic), q) || Contains(Lower(Shown(Get(record, "content", Str("")), show)), q))
      case _ => Err(WrongType("lower"))
  }

  lemma LowerIdempotent(s: string)
    ensures Lower(Lower(s)) == Lower(s)
  {
  }

  /** The search ignores the case of the query. */
  lemma MatchIgnoresQueryCase(record: Object, query: string, show: Value -> string)
    requires query != []
    ensures Match(record, Some(Lower(query)), show) == Match(record, Some(query), show)
  {
    LowerIdempotent(query);
  }

  /** The search ignores the case of the stored topic. */
  lemma MatchIgnoresTopicCase(record: Object, topic: string, query: Option<string>, show: Value -> string)
    ensures Match(record["topic" := Str(Lower(topic))], query, show) == Match(record["topic" := Str(topic)], query, show)
  {
    LowerIdempotent(topic);
  }

  datatype Hit = Hit(filename: string, topic: Value, timestamp: Value)

  function HitOf(filename: string, record: Object): (h: Hit)
    ensures "topic" !in record ==> h.topic == Str("Unknown")
    ensures "timestamp" !in record ==> h.timestamp == Str("No Timestamp")
  {
    Hit(filename, Get(record, "topic", Str("Unknown")), Get(record, "timestamp", Str("No Timestamp")))
  }

  /** The names, in the order given, whose record the query matches. */
  function MatchedNames(d: Dir, names: seq<string>, query: Option<string>, show: Value -> string): (m: seq<string>)
    ensures forall n :: n in m <==> n in names && Match(ReadMemoryFile(d, n), query, show) == Ok(true)
  {
    if names == [] then []
    else
      var rest := MatchedNames(d, names[1..], query, show);
      assert forall n :: n in names ==> n == names[0] || n in names[1..];
      if Match(ReadMemoryFile(d, names[0]), query, show) == Ok(true) then [names[0]] + rest else rest
  }

  /** One hit per name, in order. */
  function HitsFor(d: Dir, names: seq<string>): (hs: seq<Hit>)
    ensures |hs| == |names|
    ensures forall i :: 0 <= i < |names| ==> hs[i] == HitOf(names[i], ReadMemoryFile(d, names[i]))
  {
    seq(|names|, i requires 0 <= i < |names| => HitOf(names[i], ReadMemoryFile(d, names[i])))
  }

  /** Hits for a name in front of others. */
  lemma HitsForCons(d: Dir, n: string, names: seq<string>)
    ensures HitsFor(d, [n] + names) == [HitOf(n, ReadMemoryFile(d, n))] + HitsFor(d, names)
  {
    assert forall i :: 1 <= i < |names| + 1 ==> ([n] + names)[i] == names[i - 1];
  }

  /** The matching loop over the given file names: it raises exactly when
      some file's match raises, and otherwise gives one hit per matching
      name, in the order of the names. */
  function SearchNames(d: Dir, names: seq<string>, query: Option<string>, show: Value -> string): (r: Result<seq<Hit>>)
    ensures r.Ok? <==> forall i :: 0 <= i < |names| ==> Match(ReadMemoryFile(d, names[i]), query, show).Ok?
    ensures r.Ok? ==> r.value == HitsFor(d, MatchedNames(d, names, query, show))
  {
    if names == [] then Ok([])
    else
      var record := ReadMemoryFile(d, names[0]);
      var keep :- Match(record, query, show);
      var rest :- SearchNames(d, names[1..], query, show);
      assert forall i :: 1 <= i < |names| ==> names[i] == names[1..][i - 1];
      HitsForCons(d, names[0], MatchedNames(d, names[1..], query, show));
      Ok(if keep then [HitOf(names[0], record)] + rest else rest)
  }

  /** Every hit is a listed file that matches, with its defaulted fields,
      every listed file that matches is a hit, and there are no more hits
      than names. */
  lemma SearchHitsAreMatches(d: Dir, names: seq<string>, query: Option<string>, show: Value -> string)
    requires SearchNames(d, names, query, show).Ok?
    ensures var hits := SearchNames(d, names, query, show).value;
            && |hits| <= |names|
            && (forall h :: h in hits ==>
                  && h.filename in names
                  && h == HitOf(h.filename, ReadMemoryFile(d, h.filename))
                  && Match(ReadMemoryFile(d, h.filename), query, show) == Ok(true))
            && (forall n :: n in names && Match(ReadMemoryFile(d, n), query, show) == Ok(true)
                  ==> HitOf(n, ReadMemoryFile(d, n)) in hits)
  {
    var m := MatchedNames(d, names, query, show);
    var hits := SearchNames(d, names, query, show).value;
    MatchedNamesShorter(d, names, query, show);
    forall h | h in hits
      ensures h.filename in names && h == HitOf(h.filename, ReadMemoryFile(d, h.filename))
              && Match(ReadMemoryFile(d, h.filename), query, show) == Ok(true)
    {
      var i :| 0 <= i < |hits| && hits[i] == h;
      assert h == HitOf(m[i], ReadMemoryFile(d, m[i]));
      assert m[i] in m;
    }
    forall n | n in names && Match(ReadMemoryFile(d, n), query, show) == Ok(true)
      ensures HitOf(n, ReadMemoryFile(d, n)) in hits
    {
      assert n in m;
      var i :| 0 <= i < |m| && m[i] == n;
      assert hits[i] == HitOf(n, ReadMemoryFile(d, n));
    }
  }

  lemma {:induction false} MatchedNamesShorter(d: Dir, names: seq<string>, query: Option<string>, show: Value -> string)
    ensures |MatchedNames(d, names, query, show)| <= |names|
  {
    if names != [] {
      MatchedNamesShorter(d, names[1..], query, show);
    }
  }

  /** `search_memories`: it raises exactly when some listed file's match
      raises; otherwise the hits are those of the matching listed files, in
      file-listing order, unsorted. */
  function SearchMemories(listing: Option<Dir>, query: Option<string>, show: Value -> string): (r: Result<seq<Hit>>)
    ensures var d, names := listing.GetOr([]), ListMemoryFiles(listing);
            && (r.Ok? <==> forall i :: 0 <= i < |names| ==> Match(ReadMemoryFile(d, names[i]), query, show).Ok?)
            && (r.Ok? ==> r.value == HitsFor(d, MatchedNames(d, names, query, show)))
    ensures listing.None? ==> r == Ok([])
  {
    SearchNames(listing.GetOr([]), ListMemoryFiles(listing), query, show)
  }

  /** Without a query, every listed file is a hit, in listing order. */
  lemma {:induction false} NoQueryHitsEveryName(d: Dir, names: seq<string>, show: Value -> string)
    ensures SearchNames(d, names, None, show).Ok?
    ensures |SearchNames(d, names, None, show).value| == |names|
    ensures forall i :: 0 <= i < |names| ==> SearchNames(d, names, None, show).value[i].filename == names[i]
  {
    if names != [] {
      NoQueryHitsEveryName(d, names[1..], show);
    }
  }

  lemma NoQueryHitsEveryFile(listing: Option<Dir>, show: Value -> string)
    ensures SearchMemories(listing, None, show).Ok?
    ensures |SearchMemories(listing, None, show).value| == |ListMemoryFiles(listing)|
  {
    NoQueryHitsEveryName(listing.GetOr([]), ListMemoryFiles(listing), show);
  }

  /** `(content[:300] + '...') if len(content) > 300 else content`: a long
      string is cut; a long list or object raises on the concatenation or
      the slice, and a value without a length raises on `len`. */
  function Summary(content: Value): (r: Result<Value>)
    ensures content.Str? ==> r.Ok? && r.value.Str?
    ensures content.Str? && |content.s| <= SummaryLimit ==> r == Ok(content)
    ensures content.Str? && |content.s| > SummaryLimit ==>
              |r.value.s| == SummaryLimit + 3 && StartsWith(content.s, r.value.s[..SummaryLimit])
              && EndsWith(r.value.s, Ellipsis)
    ensures content.Arr? ==> (r.Ok? <==> |content.items| <= SummaryLimit)
    ensures content.Obj? ==> (r.Ok? <==> |content.fields| <= SummaryLimit)
    ensures r.Ok? && !content.Str? ==> r == Ok(content)
    ensures content.Null? || content.Bool? || content.Int? || content.Float? ==> r.Err?
  {
    match content
    case Str(s) =>
      if |s| > SummaryLimit then
        var t := s[..SummaryLimit] + Ellipsis;
        assert t[..SummaryLimit] == s[..SummaryLimit];
        assert t[|t| - 3..] == Ellipsis;
        Ok(Str(t))
      else Ok(content)
    case Arr(items) => if |items| > SummaryLimit then Err(WrongType("+")) else Ok(content)
    case Obj(fields) => if |fields| > SummaryLimit then Err(WrongType("slice")) else Ok(content)
    case _ => Err(WrongType("len"))
  }

  /** A summary is never longer than the limit plus the ellipsis. */
  lemma SummaryBounded(s: string)
    ensures Summary(Str(s)).Ok? && |Summary(Str(s)).value.s| <= SummaryLimit + 3
  {
  }

  datatype View = View(filename: string, topic: Value, timestamp: Value, summary: Option<Value>)

  /** The per-file display of `inspect_memories`. */
  function ViewOf(filename: string, record: Object): (r: Result<View>)
    ensures "content" !in record ==> r.Ok? && r.value.summary.None?
    ensures "content" in record ==> (r.Ok? <==> Summary(record["content"]).Ok?)
    ensures "content" in record && r.Ok? ==> r.value.summary == Some(Summary(record["content"]).value)
    ensures r.Ok? ==> r.value.filename == filename
    ensures r.Ok? ==> r.value.topic == Get(record, "topic", Str("Unknown Topic"))
    ensures r.Ok? ==> r.value.timestamp == Get(record, "timestamp", Str("No Timestamp"))
  {
    var summary :- if "content" in record then
                     var s :- Summary(record["content"]); Ok(Some(s))
                   else Ok(None);
    Ok(View(filename, Get(record, "topic", Str("Unknown Topic")), Get(record, "timestamp", Str("No Timestamp")), summary))
  }

  /** `inspect_memories`: one view per listed file, in order; an empty
      result is the "no memories" message. */
  function InspectNames(d: Dir, names: seq<string>): (r: Result<seq<View>>)
    ensures r.Ok? <==> forall i :: 0 <= i < |names| ==> ViewOf(names[i], ReadMemoryFile(d, names[i])).Ok?
    ensures r.Ok? ==> |r.value| == |names|
    ensures r.Ok? ==> forall i :: 0 <= i < |names| ==> r.value[i] == ViewOf(names[i], ReadMemoryFile(d, names[i])).value
    ensures r.Ok? ==> forall i :: 0 <= i < |names| ==> r.value[i].filename == names[i]
  {
    if names == [] then Ok([])
    else
      var v :- ViewOf(names[0], ReadMemoryFile(d, names[0]));
      var rest :- InspectNames(d, names[1..]);
      assert forall i :: 1 <= i < |names| ==> names[i] == names[1..][i - 1];
      Ok([v] + rest)
  }

  /** `inspect_memories`: one view per listed `.json` file, in listing
      order; an empty result is the "no memories" message, shown exactly
      when no `.json` file is listed. */
  function InspectMemories(listing: Option<Dir>): (r: Result<seq<View>>)
    ensures var d, names := listing.GetOr([]), ListMemoryFiles(listing);
            && (r.Ok? <==> forall i :: 0 <= i < |names| ==> ViewOf(names[i], ReadMemoryFile(d, names[i])).Ok?)
            && (r.Ok? ==> |r.value| == |names| && (r.value == [] <==> names == []))
            && (r.Ok? ==> forall i :: 0 <= i < |names| ==> r.value[i] == ViewOf(names[i], ReadMemoryFile(d, names[i])).value)
  {
    InspectNames(listing.GetOr([]), ListMemoryFiles(listing))
  }
}

=== FILE: install_verify.dfy ===
/** The installation verifier: five checks that start out failed, each set
    from what the machine reports, and an overall verdict that is their
    conjunction. Versions, command output, the env file and the installed
    packages are inputs.
 */
module InstallVerify {
  import opened Wrappers
  import opened Text
  import OrderedDict
  import EnvConfig

  /** The five entries of `self.checks`, in their declared order. */
  datatype Checks = Checks(systemRequirements: bool, dockerInstalled: bool, lettaServerRunning: bool,
                           environmentConfigured: bool, requiredDependencies: bool)

  /** Every check starts out failed. */
  const Initial := Checks(false, false, false, false, false)

  /** `all(self.checks.values())`. */
  predicate AllPassed(c: Checks)
  {
    c.systemRequirements && c.dockerInstalled && c.lettaServerRunning
    && c.environmentConfigured && c.requiredDependencies
  }

  // ---- The Python version ----

  /** The version test as written: the major part at least 3 and the minor
      part at least 9, each compared on its own. */
  predicate MeetsAsWritten(major: nat, minor: nat)
  {
    major >= 3 && minor >= 9
  }

  /** Version `(a, b)` is no later than `(c, d)`: tuple order. */
  predicate VersionLe(a: nat, b: nat, c: nat, d: nat)
  {
    a < c || (a == c && b <= d)
  }

  /** A 4.0 interpreter is later than 3.9 yet fails the test as written. */
  lemma AsWrittenRejectsLaterVersion()
    ensures VersionLe(3, 9, 4, 0) && MeetsAsWritten(3, 9) && !MeetsAsWritten(4, 0)
  {
  }

  /** The intended test: the version is 3.9 or later in tuple order. */
  predicate Meets(major: nat, minor: nat)
  {
    VersionLe(3, 9, major, minor)
  }

  /** Any version at least as late as a passing one passes. */
  lemma MeetsUpwardClosed(a: nat, b: nat, c: nat, d: nat)
    requires Meets(a, b) && VersionLe(a, b, c, d)
    ensures Meets(c, d)
  {
  }

  /** On Python 3, the only major version there is, the two tests agree. */
  lemma MeetsAgreesOnPython3(minor: nat)
    ensures Meets(3, minor) <==> MeetsAsWritten(3, minor)
  {
  }

  /** `check_system_requirements` as written: the flag is only ever set,
      never cleared, and it is set by the part-by-part test. */
  function CheckSystemRequirements(c: Checks, major: nat, minor: nat): (r: Checks)
    ensures r.systemRequirements <==> c.systemRequirements || MeetsAsWritten(major, minor)
    ensures r.(systemRequirements := c.systemRequirements) == c
  {
    if major >= 3 && minor >= 9 then c.(systemRequirements := true) else c
  }

  /** The check with the intended version test. */
  function CheckSystemRequirementsCorrected(c: Checks, major: nat, minor: nat): (r: Checks)
    ensures r.systemRequirements <==> c.systemRequirements || Meets(major, minor)
    ensures r.(systemRequirements := c.systemRequirements) == c
  {
    if VersionLe(3, 9, major, minor) then c.(systemRequirements := true) else c
  }

  /** On Python 3 the check as written and the corrected one agree. */
  lemma CorrectedAgreesOnPython3(c: Checks, minor: nat)
    ensures CheckSystemRequirements(c, 3, minor) == CheckSystemRequirementsCorrected(c, 3, minor)
  {
  }

  /** A fresh verifier on Python 4.0 leaves the flag unset as written; the
      corrected check sets it. */
  lemma Python4Rejected()
    ensures !CheckSystemRequirements(Initial, 4, 0).systemRequirements
    ensures CheckSystemRequirementsCorrected(Initial, 4, 0).systemRequirements
  {
    AsWrittenRejectsLaterVersion();
  }

  // ---- Docker ----

  /** How running `docker --version` and `docker info` ended: both ran
      (`ok` is whether both succeeded, a failing command or a missing
      binary being caught), or one raised an exception the handler does not
      name, such as a permission error, which escapes the check. */
  datatype DockerRun = Ran(ok: bool) | Crashed

  /** `check_docker_installation`: None when the exception escapes. */
  function CheckDocker(c: Checks, run: DockerRun): (r: Option<Checks>)
    ensures r.None? <==> run.Crashed?
    ensures r.Some? ==> r.value.dockerInstalled == run.ok
    ensures r.Some? ==> r.value.(dockerInstalled := c.dockerInstalled) == c
  {
    match run
    case Crashed => None
    case Ran(ok) => Some(c.(dockerInstalled := ok))
  }

  // ---- The Letta server ----

  const RunningStatuses := ["200", "204", "301", "302"]

  /** `check_letta_server`: `curl` printed the HTTP status; None when
      running it raised. The server runs iff the stripped status is one of
      the accepted codes. */
  function CheckLettaServer(c: Checks, curlOutput: Option<string>): (r: Checks)
    ensures r.lettaServerRunning <==> curlOutput.Some? && Strip(curlOutput.value) in RunningStatuses
    ensures r.(lettaServerRunning := c.lettaServerRunning) == c
  {
    c.(lettaServerRunning := curlOutput.Some? && Strip(curlOutput.value) in RunningStatuses)
  }

  /** A status that differs from every accepted code, such as a 404 or an
      empty reply from an unreachable server, means not running. */
  lemma OtherStatusNotRunning(c: Checks, out: string)
    requires forall i :: 0 <= i < |RunningStatuses| ==> Strip(out) != RunningStatuses[i]
    ensures !CheckLettaServer(c, Some(out)).lettaServerRunning
  {
  }

  // ---- The environment file ----

  const RequiredVars := [EnvConfig.ApiKeyName, EnvConfig.ServerUrlName]

  /** Every required variable name occurs somewhere in the file's text. */
  predicate HasRequiredVars(content: string)
  {
    forall i :: 0 <= i < |RequiredVars| ==> Contains(content, RequiredVars[i])
  }

  /** `check_environment_configuration`. `present` is whether the file
      exists; `content` its text, None when reading it raised. */
  function CheckEnvironment(c: Checks, present: bool, content: Option<string>): (r: Checks)
    ensures r.environmentConfigured <==> present && content.Some? && HasRequiredVars(content.value)
    ensures r.(environmentConfigured := c.environmentConfigured) == c
  {
    c.(environmentConfigured := present && content.Some? && HasRequiredVars(content.value))
  }

  /** The serialised env holds every key it has. */
  lemma {:induction false} SerializeContainsKey(env: EnvConfig.Env, k: string)
    requires k in OrderedDict.KeySet(env)
    ensures Contains(EnvConfig.Serialize(env), k)
    decreases |env|
  {
    var line := EnvConfig.PairLine(env[0].0, env[0].1);
    var rest := EnvConfig.Serialize(env[1..]);
    assert EnvConfig.Serialize(env) == line + rest;
    if env[0].0 == k {
      var after := "=" + env[0].1 + "\n" + rest;
      ContainsMiddle([], k, after);
      assert [] + k + after == line + rest;
    } else {
      var j :| 0 <= j < |env| && env[j].0 == k;
      assert env[1..][j - 1].0 == k;
      SerializeContainsKey(env[1..], k);
      ContainsRight(line, rest, k);
    }
  }

  /** A file that the configuration tool saved with both a key and a
      server URL passes the environment check. */
  lemma SavedEnvIsConfigured(env: EnvConfig.Env, geminiKey: Option<string>, serverUrl: Option<string>)
    requires Given(geminiKey) && Given(serverUrl)
    ensures HasRequiredVars(EnvConfig.SavedFile(env, geminiKey, serverUrl))
  {
    var saved := EnvConfig.SaveEnvironment(env, geminiKey, serverUrl);
    assert OrderedDict.Get(saved, EnvConfig.ApiKeyName).Some?;
    assert OrderedDict.Get(saved, EnvConfig.ServerUrlName).Some?;
    SerializeContainsKey(saved, EnvConfig.ApiKeyName);
    SerializeContainsKey(saved, EnvConfig.ServerUrlName);
    BothNamesSuffice(EnvConfig.Serialize(saved));
  }

  /** Holding the two names is what the environment check asks of the file's text. */
  lemma BothNamesSuffice(content: string)
    requires Contains(content, EnvConfig.ApiKeyName) && Contains(content, EnvConfig.ServerUrlName)
    ensures HasRequiredVars(content)
  {
    assert RequiredVars == [EnvConfig.ApiKeyName, EnvConfig.ServerUrlName];
  }

  // ---- Python packages ----

  const RequiredDeps := ["google-generativeai", "python-dotenv", "requests"]

  /** `check_dependencies`: `installed` is the set of distributions
      `pkg_resources` finds, None when importing or querying it raised. */
  function CheckDependencies(c: Checks, installed: Option<set<string>>): (r: Checks)
    ensures r.requiredDependencies <==> installed.Some? && forall i :: 0 <= i < |RequiredDeps| ==> RequiredDeps[i] in installed.value
    ensures r.(requiredDependencies := c.requiredDependencies) == c
  {
    match installed
    case None => c.(requiredDependencies := false)
    case Some(found) => c.(requiredDependencies := DepsInstalled(RequiredDeps, found))
  }

  /** `all(status == 'Installed' for status in dep_status.values())`. */
  function DepsInstalled(deps: seq<string>, found: set<string>): (ok: bool)
    ensures ok <==> forall i :: 0 <= i < |deps| ==> deps[i] in found
  {
    if deps == [] then true
    else deps[0] in found && DepsInstalled(deps[1..], found)
  }

  // ---- The report ----

  /** What the machine reports to the five checks. */
  datatype Machine = Machine(major: nat, minor: nat, docker: DockerRun, curlOutput: Option<string>,
                             envPresent: bool, envContent: Option<string>, installed: Option<set<string>>)

  /** `generate_report`: the five checks in order on fresh state, and the
      overall status, which holds exactly when the machine meets all five
      conditions. None when the Docker check raises, which ends the report
      without a status. */
  function GenerateReport(m: Machine): (r: Option<(bool, Checks)>)
    ensures r.None? <==> m.docker.Crashed?
    ensures r.Some? ==>
              (r.value.0 <==> && MeetsAsWritten(m.major, m.minor)
                              && m.docker.ok
                              && m.curlOutput.Some? && Strip(m.curlOutput.value) in RunningStatuses
                              && m.envPresent && m.envContent.Some? && HasRequiredVars(m.envContent.value)
                              && m.installed.Some? && forall i :: 0 <= i < |RequiredDeps| ==> RequiredDeps[i] in m.installed.value)
  {
    var c1 := CheckSystemRequirements(Initial, m.major, m.minor);
    match CheckDocker(c1, m.docker)
    case None => None
    case Some(c2) =>
      var c3 := CheckLettaServer(c2, m.curlOutput);
      var c4 := CheckEnvironment(c3, m.envPresent, m.envContent);
      var c5 := CheckDependencies(c4, m.installed);
      Some((AllPassed(c5), c5))
  }

  /** Each check reports exactly its own condition, because it started out
      failed; the overall status is the conjunction of the five flags. */
  lemma {:induction false} ReportChecks(m: Machine)
    requires m.docker.Ran?
    ensures GenerateReport(m).Some?
    ensures var (overall, c) := GenerateReport(m).value;
            (c.systemRequirements <==> MeetsAsWritten(m.major, m.minor))
            && (c.dockerInstalled <==> m.docker.ok)
            && (c.lettaServerRunning <==> m.curlOutput.Some? && Strip(m.curlOutput.value) in RunningStatuses)
            && (c.environmentConfigured <==> m.envPresent && m.envContent.Some? && HasRequiredVars(m.envContent.value))
            && (c.requiredDependencies <==> m.installed.Some? && forall i :: 0 <= i < |RequiredDeps| ==> RequiredDeps[i] in m.installed.value)
            && (overall <==> AllPassed(c))
  {
  }

  /** As written, a Python 4 interpreter never passes overall, whatever
      else the machine reports. */
  lemma Python4NeverPasses(m: Machine)
    requires m.major == 4 && m.minor < 9
    ensures GenerateReport(m) == None || !GenerateReport(m).value.0
  {
  }

  /** A machine with no env file never passes overall. */
  lemma MissingEnvFails(m: Machine)
    requires !m.envPresent && m.docker.Ran?
    ensures !GenerateReport(m).value.0
  {
    ReportChecks(m);
  }
}

=== FILE: json.dfy ===
/** JSON documents as the modelled code loads and stores them. Objects are
    maps (their key order is not observable anywhere the model looks);
    floats are kept as their printed text, never computed with.
 */
module Json {
  import opened Text

  datatype Value =
    | Null
    | Bool(b: bool)
    | Int(i: int)
    | Float(repr: string)
    | Str(s: string)
    | Arr(items: seq<Value>)
    | Obj(fields: map<string, Value>)

  /** A decoded JSON object: the type of every stored record. */
  type Object = map<string, Value>

  /** Python truthiness of a decoded value (`if v:`). */
  predicate Truthy(v: Value)
  {
    match v
    case Null => false
    case Bool(b) => b
    case Int(i) => i != 0
    case Float(repr) => repr != "0.0" && repr != "-0.0"
    case Str(s) => s != []
    case Arr(items) => items != []
    case Obj(fields) => |fields| > 0
  }

  /** `d.get(key, default)`. */
  function Get(d: Object, key: string, default: Value): (v: Value)
    ensures key in d ==> v == d[key]
    ensures key !in d ==> v == default
  {
    if key in d then d[key] else default
  }

  /** Values Python can use as a dict key (lists and dicts cannot). */
  predicate Hashable(v: Value)
  {
    !v.Arr? && !v.Obj?
  }

  /** A Python list of strings as a JSON value. */
  function StrList(xs: seq<string>): (v: Value)
    ensures v.Arr? && |v.items| == |xs|
    ensures forall i :: 0 <= i < |xs| ==> v.items[i] == Str(xs[i])
  {
    Arr(seq(|xs|, i requires 0 <= i < |xs| => Str(xs[i])))
  }

  /** `str(v)` for the hashable values. */
  function Render(v: Value): string
    requires Hashable(v)
  {
    match v
    case Null => "None"
    case Bool(b) => PyBool(b)
    case Int(i) => IntToString(i)
    case Float(repr) => repr
    case Str(s) => s
  }
}

=== FILE: key_file.dfy ===
/** Reading one token out of a `.env` file the way the diagnostics and the
    Taskade scripts do: the first line starting with `NAME=` wins, and its
    value is `line.strip().split('=')[1].strip("'").strip('"')`.
 */
module KeyFile {
  import opened Wrappers
  import opened Text

  /** The variable names the scripts look for: no `=`, and no leading or
      trailing blank, so `NAME=` survives `strip()`. */
  predicate KeyName(name: string)
  {
    name != [] && '=' !in name && '\n' !in name && !IsSpace(name[0])
  }

  /** The index of the first line, in file order, starting with `prefix`. */
  function FirstKeyLine(lines: seq<string>, prefix: string): (r: Option<nat>)
    ensures r.Some? ==> r.value < |lines| && StartsWith(lines[r.value], prefix)
    ensures r.Some? ==> forall j :: 0 <= j < r.value ==> !StartsWith(lines[j], prefix)
    ensures r.None? <==> forall j :: 0 <= j < |lines| ==> !StartsWith(lines[j], prefix)
  {
    if lines == [] then None
    else if StartsWith(lines[0], prefix) then Some(0)
    else match FirstKeyLine(lines[1..], prefix)
      case None => None
      case Some(i) => Some(i + 1)
  }

  /** `strip()` keeps a prefix whose two ends are not blanks. */
  lemma StripKeepsPrefix(line: string, p: string)
    requires StartsWith(line, p) && p != []
    requires !IsSpace(p[0]) && !IsSpace(p[|p| - 1])
    ensures StartsWith(Strip(line), p)
  {
    assert line[0] == p[0];
    assert TrimStart(line, IsSpace) == line;
    var r := TrimEnd(line, IsSpace);
    assert line[|p| - 1] == p[|p| - 1];
    assert |r| >= |p|;
    assert r[..|p|] == line[..|p|];
  }

  /** The value of a line starting with `NAME=`. */
  function KeyValue(line: string, name: string): string
    requires KeyName(name) && StartsWith(line, name + "=")
  {
    StripKeepsPrefix(line, name + "=");
    var s := Strip(line);
    assert s[..|name + "="|] == name + "=";
    assert s[|name|] == (name + "=")[|name|] == '=';
    StripChar(StripChar(SecondField(s, '='), '\''), '"')
  }

  /** The characters a bare value may not start or end with for it to be
      read back unchanged. */
  predicate Bare(v: string)
  {
    '=' !in v && '\n' !in v
    && (v == [] || (v[0] != '\'' && v[0] != '"' && v[|v| - 1] != '\'' && v[|v| - 1] != '"' && !IsSpace(v[|v| - 1])))
  }

  /** A line `NAME=field` followed by nothing or by `=...`, and a newline:
      the value is the field with its quotes stripped. */
  lemma KeyValueOf(name: string, field: string, rest: string)
    requires KeyName(name) && '=' !in field && (rest == [] || rest[0] == '=')
    requires '\n' !in field + rest
    requires field + rest == [] || !IsSpace((field + rest)[|field + rest| - 1])
    ensures StartsWith(name + "=" + field + rest + "\n", name + "=")
    ensures KeyValue(name + "=" + field + rest + "\n", name) == StripChar(StripChar(field, '\''), '"')
  {
    var line := name + "=" + field + rest + "\n";
    var s := name + "=" + field + rest;
    assert line == (name + "=") + (field + rest + "\n");
    assert line[..|name + "="|] == name + "=";
    assert s[0] == name[0];
    assert s == (name + "=") + (field + rest);
    assert s[|s| - 1] == if field + rest == [] then '=' else (field + rest)[|field + rest| - 1];
    TrimDropsLast(s, '\n', IsSpace);
    assert line == s + ['\n'];
    assert s == name + ['='] + field + rest;
    SecondFieldOf(name, '=', field, rest);
  }

  /** `NAME=value` as the scripts write it, with no quoting. */
  lemma KeyValueBare(name: string, v: string)
    requires KeyName(name) && Bare(v)
    ensures StartsWith(name + "=" + v + "\n", name + "=")
    ensures KeyValue(name + "=" + v + "\n", name) == v
  {
    KeyValueOf(name, v, "");
    assert v + "" == v;
    assert name + "=" + v + "" == name + "=" + v;
    TrimKeeps(v, c => c == '\'');
    TrimKeeps(v, c => c == '"');
  }

  /** `NAME='value'` and `NAME="value"` read back as `value`. */
  lemma KeyValueQuoted(name: string, q: char, v: string)
    requires KeyName(name) && Bare(v)
    requires q == '\'' || q == '"'
    ensures StartsWith(name + "=" + [q] + v + [q] + "\n", name + "=")
    ensures KeyValue(name + "=" + [q] + v + [q] + "\n", name) == v
  {
    var quoted := [q] + v + [q];
    assert name + "=" + [q] + v + [q] == name + "=" + quoted + "";
    assert quoted[|quoted| - 1] == q;
    assert quoted + "" == quoted;
    KeyValueOf(name, quoted, "");
    StripQuotes(q, v);
  }

  /** Stripping both quote characters unwraps one pair of quotes. */
  lemma StripQuotes(q: char, v: string)
    requires Bare(v) && (q == '\'' || q == '"')
    ensures StripChar(StripChar([q] + v + [q], '\''), '"') == v
  {
    if q == '\'' {
      TrimSurrounded(v, q, c => c == '\'');
      TrimKeeps(v, c => c == '"');
    } else {
      var quoted := [q] + v + [q];
      assert quoted[0] == q && quoted[|quoted| - 1] == q;
      TrimKeeps(quoted, c => c == '\'');
      TrimSurrounded(v, q, c => c == '"');
    }
  }

  /** Only the text up to a second `=` is the value. */
  lemma KeyValueStopsAtSecondEquals(name: string, v: string, w: string)
    requires KeyName(name) && Bare(v)
    requires '\n' !in w && (w == [] || !IsSpace(w[|w| - 1]))
    ensures StartsWith(name + "=" + v + "=" + w + "\n", name + "=")
    ensures KeyValue(name + "=" + v + "=" + w + "\n", name) == v
  {
    var rest := "=" + w;
    assert name + "=" + v + "=" + w == name + "=" + v + rest;
    assert v + rest == (v + "=") + w;
    assert (v + rest)[|v + rest| - 1] == if w == [] then '=' else w[|w| - 1];
    KeyValueOf(name, v, rest);
    TrimKeeps(v, c => c == '\'');
    TrimKeeps(v, c => c == '"');
  }

  /** The token in a `.env` file's text: the value of the first `NAME=`
      line, None when no line starts with it. */
  function FileToken(text: string, name: string): (r: Option<string>)
    requires KeyName(name)
    ensures r.None? <==> forall l :: l in Lines(ReadText(text)) ==> !StartsWith(l, name + "=")
  {
    var lines := Lines(ReadText(text));
    match FirstKeyLine(lines, name + "=")
    case None => None
    case Some(i) => Some(KeyValue(lines[i], name))
  }

  /** The first line starting with `prefix` after lines that do not. */
  lemma FirstKeyLineAt(pre: seq<string>, line: string, post: seq<string>, prefix: string)
    requires forall j :: 0 <= j < |pre| ==> !StartsWith(pre[j], prefix)
    requires StartsWith(line, prefix)
    ensures FirstKeyLine(pre + [line] + post, prefix) == Some(|pre|)
  {
    var lines := pre + [line] + post;
    assert lines[|pre|] == line;
    assert forall j :: 0 <= j < |pre| ==> lines[j] == pre[j];
  }

  /** The lines of a file holding complete lines, then `body` and a
      newline, then anything. */
  lemma LinesAround(pre: seq<string>, body: string, post: string)
    requires forall i :: 0 <= i < |pre| ==> CompleteLine(pre[i])
    requires '\n' !in body
    ensures Lines(Concat(pre) + (body + "\n") + post) == pre + [body + "\n"] + Lines(post)
  {
    assert Concat(pre) + (body + "\n") + post == Concat(pre) + (body + "\n" + post);
    LinesCons(body, post);
    LinesOfConcat(pre, body + "\n" + post);
  }

  /** A file whose lines are `pre`, then a `NAME=` line, then anything,
      yields that line's value when no line of `pre` starts with `NAME=`. */
  lemma FileTokenAt(text: string, name: string, pre: seq<string>, line: string, post: seq<string>)
    requires KeyName(name) && '\r' !in text
    requires Lines(text) == pre + [line] + post
    requires forall j :: 0 <= j < |pre| ==> !StartsWith(pre[j], name + "=")
    requires StartsWith(line, name + "=")
    ensures FileToken(text, name) == Some(KeyValue(line, name))
  {
    FirstKeyLineAt(pre, line, post, name + "=");
    assert (pre + [line] + post)[|pre|] == line;
  }

  /** Earlier lines that do not start with `NAME=` are passed over and the
      first `NAME=value` line decides, whatever follows it. */
  lemma FirstLineWins(pre: seq<string>, name: string, v: string, post: string)
    requires KeyName(name) && Bare(v)
    requires forall i :: 0 <= i < |pre| ==> CompleteLine(pre[i]) && !StartsWith(pre[i], name + "=")
    requires '\r' !in Concat(pre) + (name + "=" + v + "\n") + post
    ensures FileToken(Concat(pre) + (name + "=" + v + "\n") + post, name) == Some(v)
  {
    var body := name + "=" + v;
    LinesAround(pre, body, post);
    KeyValueBare(name, v);
    FileTokenAt(Concat(pre) + (body + "\n") + post, name, pre, body + "\n", Lines(post));
  }
}

=== FILE: letta_memory.dfy ===
/** The Letta server's memory manager: store a record as
    `<sanitised topic>_<id>.json`, fetch it back by id, and list records
    filtered by tag and topic, newest first. The uuid and the clock reading
    are parameters; `canWrite` says whether the file write succeeds.
 */
module LettaMemory {
  import opened Wrappers
  import opened Text
  import opened Json
  import opened MemoryFiles

  const DefaultTopic := "Untitled Memory"
  const UserMemory := "user_memory"

  /** `topic or 'Untitled Memory'`. */
  function EffectiveTopic(topic: Option<string>): (t: string)
    ensures t != []
    ensures Given(topic) ==> t == topic.value
    ensures topic.None? || topic.value == [] ==> t == DefaultTopic
  {
    if Given(topic) then topic.value else DefaultTopic
  }

  /** The record `store_memory` writes. */
  function Entry(content: Object, topic: Option<string>, tags: Option<seq<string>>,
                 id: string, now: string): (e: Object)
    ensures e.Keys == {"id", "entry_type", "topic", "timestamp", "content", "tags"}
    ensures e["id"] == Str(id) && e["timestamp"] == Str(now) && e["content"] == Obj(content)
    ensures e["entry_type"] == Str(UserMemory)
    ensures e["topic"] == Str(EffectiveTopic(topic))
    ensures tags.None? || tags.value == [] ==> e["tags"] == Arr([])
    ensures tags.Some? ==> e["tags"] == StrList(tags.value)
  {
    map["id" := Str(id),
        "entry_type" := Str(UserMemory),
        "topic" := Str(EffectiveTopic(topic)),
        "timestamp" := Str(now),
        "content" := Obj(content),
        "tags" := StrList(tags.GetOr([]))]
  }

  /** `store_memory`: the returned id is the fresh one; the written record
      carries it, the `user_memory` type, the defaulted topic and tags, and
      sits in a `.json` file whose name contains the id. */
  function StoreMemory(d: Dir, content: Object, topic: Option<string>, tags: Option<seq<string>>,
                       id: string, now: string, canWrite: bool): (r: Result<(string, Dir)>)
    ensures r.Ok? <==> canWrite
    ensures !canWrite ==> r.fault.StorageFailure?
    ensures r.Ok? ==> r.value.0 == id
    ensures r.Ok? ==> File(TopicFileName(EffectiveTopic(topic), id), Doc(Entry(content, topic, tags, id, now))) in r.value.1
    ensures r.Ok? ==> forall f :: f in d && f.name != TopicFileName(EffectiveTopic(topic), id) ==> f in r.value.1
    ensures r.Ok? ==> Names(r.value.1) == Names(d) + {TopicFileName(EffectiveTopic(topic), id)}
    ensures r.Ok? ==> forall f :: f in r.value.1 && f.name != TopicFileName(EffectiveTopic(topic), id) ==> f in d
  {
    var name := TopicFileName(EffectiveTopic(topic), id);
    if !canWrite then Err(StorageFailure(name))
    else Ok((id, Write(d, name, Entry(content, topic, tags, id, now))))
  }

  /** Storing then retrieving by the returned id gives back the stored
      entry, when no earlier file name contained that id. */
  lemma StoreThenRetrieve(d: Dir, content: Object, topic: Option<string>, tags: Option<seq<string>>,
                          id: string, now: string)
    requires forall f :: f in d ==> !Contains(f.name, id)
    ensures StoreMemory(d, content, topic, tags, id, now, true).Ok?
    ensures var (rid, d') := StoreMemory(d, content, topic, tags, id, now, true).value;
            RetrieveById(d', rid) == Ok(Entry(content, topic, tags, id, now))
  {
    WriteThenRetrieve(d, TopicFileName(EffectiveTopic(topic), id), Entry(content, topic, tags, id, now), id);
  }

  /** Python's `needle in hay` where `hay` came out of a JSON document. */
  function In(needle: string, hay: Value): (r: Result<bool>)
    ensures hay.Arr? ==> r == Ok(Str(needle) in hay.items)
    ensures hay.Str? ==> r == Ok(Contains(hay.s, needle))
    ensures hay.Obj? ==> r == Ok(needle in hay.fields)
    ensures !(hay.Arr? || hay.Str? || hay.Obj?) ==> r.Err?
  {
    match hay
    case Arr(items) => Ok(Str(needle) in items)
    case Str(s) => Ok(Contains(s, needle))
    case Obj(fields) => Ok(needle in fields)
    case _ => Err(WrongType("in"))
  }

  /** `(not tag or tag in memory.get('tags', [])) and
      (not topic or topic.lower() in memory.get('topic', '').lower())`,
      evaluated left to right with short-circuiting. */
  function Keep(record: Object, tag: Option<string>, topic: Option<string>): Result<bool>
  {
    var tagOk :- if Given(tag) then In(tag.value, Get(record, "tags", Arr([]))) else Ok(true);
    if !tagOk then Ok(false)
    else if !Given(topic) then Ok(true)
    else match Get(record, "topic", Str(""))
      case Str(s) => Ok(Contains(Lower(s), Lower(topic.value)))
      case _ => Err(WrongType("lower"))
  }

  /** Every record the sort can compare: a missing timestamp reads as ''. */
  predicate SortableTimestamps(records: seq<Object>)
  {
    forall i :: 0 <= i < |records| ==> Get(records[i], "timestamp", Str("")).Str?
  }

  /** `list_memories`. */
  function ListMemories(d: Dir, tag: Option<string>, topic: Option<string>): (r: Result<seq<Object>>)
    ensures r.Ok? ==> forall i, j :: 0 <= i < j < |r.value| ==>
                        LexLe(TimestampText(r.value[j]), TimestampText(r.value[i]))
    ensures (exists f :: f in d && IsJsonName(f.name) && f.body.Unreadable?) ==> r.Err?
  {
    UnreadableAbortsScan(d, true, r => Keep(r, tag, topic));
    var kept :- Scan(d, true, r => Keep(r, tag, topic));
    if !SortableTimestamps(kept) then Err(WrongType("<"))
    else Ok(NewestFirst(kept))
  }

  // ---- Reference definition of what a listing holds ----

  /** A record whose filter fields have the shapes the writers give them. */
  predicate WellFormed(record: Object)
  {
    && Get(record, "tags", Arr([])).Arr?
    && Get(record, "topic", Str("")).Str?
    && Get(record, "timestamp", Str("")).Str?
  }

  function TagsOf(record: Object): seq<Value>
  {
    match Get(record, "tags", Arr([]))
    case Arr(items) => items
    case _ => []
  }

  function TopicOf(record: Object): string
  {
    match Get(record, "topic", Str(""))
    case Str(s) => s
    case _ => ""
  }

  /** The filter as a plain predicate: the tag is one of the record's tags,
      and the topic filter occurs case-insensitively in its topic. */
  predicate Matches(record: Object, tag: Option<string>, topic: Option<string>)
  {
    && (!Given(tag) || Str(tag.value) in TagsOf(record))
    && (!Given(topic) || Contains(Lower(TopicOf(record)), Lower(topic.value)))
  }

  /** Every `.json` file holds a well-formed record. */
  predicate Healthy(d: Dir)
  {
    forall f :: f in d && IsJsonName(f.name) ==> f.body.Doc? && WellFormed(f.body.record)
  }

  lemma KeepMatches(record: Object, tag: Option<string>, topic: Option<string>)
    requires WellFormed(record)
    ensures Keep(record, tag, topic) == Ok(Matches(record, tag, topic))
  {
  }

  /** On a directory of well-formed records, the listing is exactly the
      `.json` records meeting the filter, newest first: nothing matching is
      dropped, nothing else is added. */
  lemma ListMemoriesExact(d: Dir, tag: Option<string>, topic: Option<string>)
    requires Healthy(d)
    ensures ListMemories(d, tag, topic).Ok?
    ensures multiset(ListMemories(d, tag, topic).value)
            == multiset(Filter(d, true, r => Matches(r, tag, topic)))
  {
    forall f | f in d && Scanned(f, true)
      ensures f.body.Doc? && Keep(f.body.record, tag, topic) == Ok(Matches(f.body.record, tag, topic))
    {
      KeepMatches(f.body.record, tag, topic);
    }
    ScanIsFilter(d, true, r => Keep(r, tag, topic), r => Matches(r, tag, topic));
    var s := Filter(d, true, r => Matches(r, tag, topic));
    forall i | 0 <= i < |s|
      ensures Get(s[i], "timestamp", Str("")).Str?
    {
      assert s[i] in s;
    }
  }

  /** Every record of an unfiltered listing comes from a `.json` file. */
  lemma UnfilteredListsOnlyJson(d: Dir, r: Object)
    requires Healthy(d)
    requires ListMemories(d, None, None).Ok? && r in ListMemories(d, None, None).value
    ensures exists f :: f in d && IsJsonName(f.name) && f.body == Doc(r)
  {
    ListMemoriesExact(d, None, None);
    var s := Filter(d, true, r => Matches(r, None, None));
    assert r in multiset(ListMemories(d, None, None).value);
    assert r in s;
  }

  /** Every `.json` record appears in an unfiltered listing. */
  lemma UnfilteredListsJson(d: Dir, f: File)
    requires Healthy(d) && f in d && IsJsonName(f.name)
    ensures ListMemories(d, None, None).Ok?
    ensures f.body.record in ListMemories(d, None, None).value
  {
    ListMemoriesExact(d, None, None);
    var s := Filter(d, true, r => Matches(r, None, None));
    assert Matches(f.body.record, None, None);
    assert f.body.record in s;
    assert f.body.record in multiset(ListMemories(d, None, None).value);
  }

  /** Unfiltered, the listing holds every `.json` record and only those. */
  lemma UnfilteredListsEveryJsonRecord(d: Dir)
    requires Healthy(d)
    ensures ListMemories(d, None, None).Ok?
    ensures forall f :: f in d && IsJsonName(f.name) ==> f.body.record in ListMemories(d, None, None).value
    ensures forall r :: r in ListMemories(d, None, None).value ==>
              exists f :: f in d && IsJsonName(f.name) && f.body == Doc(r)
  {
    ListMemoriesExact(d, None, None);
    forall f | f in d && IsJsonName(f.name)
      ensures f.body.record in ListMemories(d, None, None).value
    {
      UnfilteredListsJson(d, f);
    }
    forall r | r in ListMemories(d, None, None).value
      ensures exists f :: f in d && IsJsonName(f.name) && f.body == Doc(r)
    {
      UnfilteredListsOnlyJson(d, r);
    }
  }
}

=== FILE: memory_files.dfy ===
/** A memory directory: the files `os.listdir` returns, in listing order,
    each with the JSON object it holds or marked unreadable (open() or
    json.load() would raise). What the three memory stores share lives here:
    the file-name sanitiser, writing a record, lookup by id, and the
    "newest first" order of listings.
 */
module MemoryFiles {
  import opened Wrappers
  import opened Text
  import opened Json
  import Sorting

  datatype Body = Doc(record: Object) | Unreadable

  datatype File = File(name: string, body: Body)

  type Dir = seq<File>

  ghost predicate UniqueNames(d: Dir)
  {
    forall i, j :: 0 <= i < j < |d| ==> d[i].name != d[j].name
  }

  function Names(d: Dir): set<string>
  {
    set i | 0 <= i < |d| :: d[i].name
  }

  /** Characters the sanitiser keeps (before lower-casing). */
  predicate Kept(c: char)
  {
    IsAlnum(c) || c == ' ' || c == '_'
  }

  /** `''.join(c if c.isalnum() or c in [' ', '_'] else '_' for c in topic).lower()`. */
  function SafeTopic(topic: string): (r: string)
    ensures |r| == |topic|
    ensures forall i :: 0 <= i < |r| ==> Kept(r[i]) && !IsUpper(r[i])
    ensures forall i :: 0 <= i < |r| ==> (Kept(topic[i]) <==> r[i] == LowerChar(topic[i]))
    ensures forall i :: 0 <= i < |r| && !Kept(topic[i]) ==> r[i] == '_'
  {
    Lower(seq(|topic|, i requires 0 <= i < |topic| => if Kept(topic[i]) then topic[i] else '_'))
  }

  /** Sanitising a sanitised topic changes nothing. */
  lemma SafeTopicIdempotent(topic: string)
    ensures SafeTopic(SafeTopic(topic)) == SafeTopic(topic)
  {
    var s := SafeTopic(topic);
    assert forall i :: 0 <= i < |s| ==> SafeTopic(s)[i] == s[i];
  }

  /** Position of the file called `name`, or `|d|`. */
  function IndexOfName(d: Dir, name: string): (i: nat)
    ensures i <= |d|
    ensures i < |d| ==> d[i].name == name
    ensures forall j :: 0 <= j < i ==> d[j].name != name
  {
    if d == [] then 0
    else if d[0].name == name then 0
    else 1 + IndexOfName(d[1..], name)
  }

  /** `open(path, 'w')` and `json.dump(record, f)`: the file is created, or
      replaced when one of that name exists; no other file changes. */
  function Write(d: Dir, name: string, record: Object): (r: Dir)
    ensures UniqueNames(d) ==> UniqueNames(r)
    ensures Names(r) == Names(d) + {name}
    ensures File(name, Doc(record)) in r
    ensures forall f :: f in r && f.name != name ==> f in d
    ensures forall f :: f in d && f.name != name ==> f in r
  {
    var i := IndexOfName(d, name);
    if i < |d| then
      var r := d[i := File(name, Doc(record))];
      assert forall j :: 0 <= j < |d| ==> r[j].name == d[j].name;
      assert Names(r) == Names(d);
      r
    else
      var r := d + [File(name, Doc(record))];
      assert r[|d|] == File(name, Doc(record));
      assert forall j :: 0 <= j < |d| ==> r[j] == d[j];
      assert Names(r) == Names(d) + {name};
      r
  }

  /** Index of the first file (in listing order) whose name contains `id`,
      or `|d|`. */
  function FirstContaining(d: Dir, id: string): (i: nat)
    ensures i <= |d|
    ensures i < |d| ==> Contains(d[i].name, id)
    ensures forall j :: 0 <= j < i ==> !Contains(d[j].name, id)
  {
    if d == [] then 0
    else if Contains(d[0].name, id) then 0
    else 1 + FirstContaining(d[1..], id)
  }

  /** The loop `for filename in os.listdir(dir): if memory_id in filename:
      return json.load(...)` followed by `raise FileNotFoundError`. */
  function RetrieveById(d: Dir, id: string): (r: Result<Object>)
    ensures r.Ok? ==> exists f :: f in d && Contains(f.name, id) && f.body == Doc(r.value)
    ensures (forall f :: f in d ==> !Contains(f.name, id)) <==> r == Err(NotFound(id))
    ensures forall i :: 0 <= i < |d| && Contains(d[i].name, id) && (forall j :: 0 <= j < i ==> !Contains(d[j].name, id)) ==>
              r == (if d[i].body.Doc? then Ok(d[i].body.record) else Err(Unparseable(d[i].name)))
  {
    var i := FirstContaining(d, id);
    if i == |d| then Err(NotFound(id))
    else
      assert d[i] in d;
      match d[i].body
      case Doc(record) => Ok(record)
      case Unreadable => Err(Unparseable(d[i].name))
  }

  /** A record written under a name containing `id`, into a directory where
      no file name contained `id`, is the one lookup by `id` returns. */
  lemma WriteThenRetrieve(d: Dir, name: string, record: Object, id: string)
    requires forall f :: f in d ==> !Contains(f.name, id)
    requires Contains(name, id)
    ensures RetrieveById(Write(d, name, record), id) == Ok(record)
  {
    forall j | 0 <= j < |d|
      ensures d[j].name != name && !Contains(d[j].name, id)
    {
      assert d[j] in d;
    }
    assert IndexOfName(d, name) == |d|;
    var r := Write(d, name, record);
    assert r == d + [File(name, Doc(record))];
    assert forall j :: 0 <= j < |d| ==> r[j] == d[j];
    assert FirstContaining(r, id) == |d|;
  }

  predicate IsJsonName(name: string)
  {
    EndsWith(name, ".json")
  }

  /** `<safe topic>_<key>.json`: the name under which the Letta server (keyed
      by the record's id) and the chatbot (keyed by the clock reading) store
      a record. */
  function TopicFileName(topic: string, key: string): (name: string)
    ensures StartsWith(name, SafeTopic(topic) + "_")
    ensures IsJsonName(name)
    ensures Contains(name, key)
  {
    var prefix := SafeTopic(topic) + "_";
    var name := prefix + key + ".json";
    ContainsMiddle(prefix, key, ".json");
    assert name[..|prefix|] == prefix;
    name
  }

  /** Whether a listing loop looks at this file at all. */
  predicate Scanned(f: File, onlyJson: bool)
  {
    !onlyJson || IsJsonName(f.name)
  }

  /** The loop every listing runs: visit the files in listing order (only
      `.json` ones when `onlyJson`), load each, and keep it when `keep`
      says so. An unreadable file, or a `keep` that raises, aborts the scan. */
  function Scan(d: Dir, onlyJson: bool, keep: Object -> Result<bool>): Result<seq<Object>>
  {
    if d == [] then Ok([])
    else
      var head :- if !Scanned(d[0], onlyJson) then Ok([])
                  else match d[0].body
                    case Unreadable => Err(Unparseable(d[0].name))
                    case Doc(record) =>
                      var k :- keep(record);
                      Ok(if k then [record] else []);
      var rest :- Scan(d[1..], onlyJson, keep);
      Ok(head + rest)
  }

  /** Two keep-predicates that agree on every record give the same scan. */
  lemma {:induction false} ScanAgrees(d: Dir, onlyJson: bool, keep1: Object -> Result<bool>, keep2: Object -> Result<bool>)
    requires forall r :: keep1(r) == keep2(r)
    ensures Scan(d, onlyJson, keep1) == Scan(d, onlyJson, keep2)
  {
    if d != [] {
      ScanAgrees(d[1..], onlyJson, keep1, keep2);
    }
  }

  lemma {:induction false} UnreadableAbortsScan(d: Dir, onlyJson: bool, keep: Object -> Result<bool>)
    ensures (exists f :: f in d && Scanned(f, onlyJson) && f.body.Unreadable?) ==> Scan(d, onlyJson, keep).Err?
  {
    if d != [] {
      UnreadableAbortsScan(d[1..], onlyJson, keep);
      if exists f :: f in d && Scanned(f, onlyJson) && f.body.Unreadable? {
        var f :| f in d && Scanned(f, onlyJson) && f.body.Unreadable?;
        if f != d[0] {
          assert f in d[1..];
        }
      }
    }
  }

  /** Reference definition of a scan's outcome: the readable scanned records
      satisfying `p`, in listing order. */
  function Filter(d: Dir, onlyJson: bool, p: Object -> bool): (r: seq<Object>)
    ensures forall x :: x in r ==> p(x) && exists f :: f in d && Scanned(f, onlyJson) && f.body == Doc(x)
    ensures forall f :: f in d && Scanned(f, onlyJson) && f.body.Doc? && p(f.body.record) ==> f.body.record in r
    ensures |r| <= |d|
  {
    if d == [] then []
    else
      var rest := Filter(d[1..], onlyJson, p);
      assert forall f :: f in d[1..] ==> f in d;
      assert forall f :: f in d ==> f == d[0] || f in d[1..];
      if Scanned(d[0], onlyJson) && d[0].body.Doc? && p(d[0].body.record) then [d[0].body.record] + rest
      else rest
  }

  /** When every scanned file is readable and `keep` never raises on them,
      the scan computes exactly `Filter`. */
  lemma {:induction false} ScanIsFilter(d: Dir, onlyJson: bool, keep: Object -> Result<bool>, p: Object -> bool)
    requires forall f :: f in d && Scanned(f, onlyJson) ==> f.body.Doc? && keep(f.body.record) == Ok(p(f.body.record))
    ensures Scan(d, onlyJson, keep) == Ok(Filter(d, onlyJson, p))
  {
    if d != [] {
      assert forall f :: f in d[1..] ==> f in d;
      ScanIsFilter(d[1..], onlyJson, keep, p);
      var rest := Filter(d[1..], onlyJson, p);
      if Scanned(d[0], onlyJson) {
        assert d[0] in d;
        if !p(d[0].body.record) {
          assert [] + rest == rest;
        }
      } else {
        assert [] + rest == rest;
      }
    }
  }

  /** The string a listing sorts by: the `timestamp` field when it is a string. */
  function TimestampText(record: Object): string
  {
    match Get(record, "timestamp", Str(""))
    case Str(s) => s
    case _ => ""
  }

  /** `a` sorts no later than `b` in a newest-first listing. */
  predicate NewerOrSame(a: Object, b: Object)
  {
    LexLe(TimestampText(b), TimestampText(a))
  }

  lemma NewerOrSameIsPreorder()
    ensures Sorting.TotalPreorder(NewerOrSame)
  {
    forall a, b
      ensures NewerOrSame(a, b) || NewerOrSame(b, a)
    {
      LexTotal(TimestampText(a), TimestampText(b));
    }
    forall a, b, c | NewerOrSame(a, b) && NewerOrSame(b, c)
      ensures NewerOrSame(a, c)
    {
      LexTransitive(TimestampText(c), TimestampText(b), TimestampText(a));
    }
  }

  /** `records.sort(key=timestamp, reverse=True)`. */
  function NewestFirst(records: seq<Object>): (r: seq<Object>)
    ensures multiset(r) == multiset(records)
    ensures forall i, j :: 0 <= i < j < |r| ==> LexLe(TimestampText(r[j]), TimestampText(r[i]))
  {
    NewerOrSameIsPreorder();
    var r := Sorting.SortDescending(records, NewerOrSame);
    assert forall i, j :: 0 <= i < j < |r| ==> NewerOrSame(r[i], r[j]);
    r
  }
}

=== FILE: ordered_dict.dfy ===
/** Python's insertion-ordered `dict` as an association list whose keys are
    distinct. Used where the order of entries is observable: the env file
    written back to disk, tallies printed in first-seen order, sync results.
 */
module OrderedDict {
  import opened Wrappers

  type Dict<K, V> = seq<(K, V)>

  ghost predicate KeysDistinct<K, V>(d: Dict<K, V>)
  {
    forall i, j :: 0 <= i < j < |d| ==> d[i].0 != d[j].0
  }

  function KeySet<K, V>(d: Dict<K, V>): set<K>
  {
    set i | 0 <= i < |d| :: d[i].0
  }

  /** Position of `k`, or `|d|` when absent. */
  function IndexOf<K(==), V>(d: Dict<K, V>, k: K): (i: nat)
    ensures i <= |d|
    ensures i < |d| ==> d[i].0 == k
    ensures forall j :: 0 <= j < i ==> d[j].0 != k
  {
    if d == [] then 0
    else if d[0].0 == k then 0
    else 1 + IndexOf(d[1..], k)
  }

  /** `d.get(k)`. */
  function Get<K(==), V>(d: Dict<K, V>, k: K): (r: Option<V>)
    ensures r.Some? <==> k in KeySet(d)
  {
    var i := IndexOf(d, k);
    if i < |d| then Some(d[i].1) else None
  }

  /** `d[k] = v`: an existing key keeps its position, a new key goes last. */
  function Set<K(==,!new), V>(d: Dict<K, V>, k: K, v: V): (r: Dict<K, V>)
    ensures KeysDistinct(d) ==> KeysDistinct(r)
    ensures KeySet(r) == KeySet(d) + {k}
    ensures Get(r, k) == Some(v)
    ensures forall k' :: k' != k ==> Get(r, k') == Get(d, k')
    ensures k in KeySet(d) ==> |r| == |d|
    ensures k !in KeySet(d) ==> r == d + [(k, v)]
  {
    var i := IndexOf(d, k);
    if i < |d| then
      var r := d[i := (k, v)];
      assert forall j :: 0 <= j < |d| ==> r[j].0 == d[j].0;
      assert KeySet(r) == KeySet(d);
      r
    else
      var r := d + [(k, v)];
      IndexOfAppend(d, k, v, k);
      forall k' | k' != k
        ensures Get(r, k') == Get(d, k')
      {
        IndexOfAppend(d, k, v, k');
      }
      assert forall j :: 0 <= j < |d| ==> r[j] == d[j];
      assert KeySet(r) == KeySet(d) + {k} by {
        assert r[|d|].0 == k;
      }
      r
  }

  lemma {:induction false} IndexOfAppend<K, V>(d: Dict<K, V>, k: K, v: V, q: K)
    ensures IndexOf(d, q) < |d| ==> IndexOf(d + [(k, v)], q) == IndexOf(d, q)
    ensures IndexOf(d, q) == |d| && q == k ==> IndexOf(d + [(k, v)], q) == |d|
    ensures IndexOf(d, q) == |d| && q != k ==> IndexOf(d + [(k, v)], q) == |d| + 1
  {
    if d != [] {
      assert (d + [(k, v)])[1..] == d[1..] + [(k, v)];
      IndexOfAppend(d[1..], k, v, q);
    }
  }
}

=== FILE: seqs.dfy ===
/** Facts about sequences that the modules below use on sequences of
    their own element types. Stated once here, for any element type, they
    stay cheap to use where the elements are strings, JSON values or
    records.
 */
module Seqs {

  /** Position of the first `x` in `s`, or `|s|`. */
  function FirstIndex<T(==)>(s: seq<T>, x: T): (i: nat)
    ensures i <= |s|
    ensures i < |s| <==> x in s
    ensures i < |s| ==> s[i] == x
    ensures forall j :: 0 <= j < i ==> s[j] != x
  {
    if s == [] then 0
    else if s[0] == x then 0
    else 1 + FirstIndex(s[1..], x)
  }

  /** Appending does not move a first occurrence, and a new element's first
      occurrence is the appended one. */
  lemma FirstIndexAppend<T>(s: seq<T>, x: T, y: T)
    ensures x in s ==> FirstIndex(s + [y], x) == FirstIndex(s, x)
    ensures x !in s && x == y ==> FirstIndex(s + [y], x) == |s|
  {
    var i := FirstIndex(s + [y], x);
    if x in s {
      var k := FirstIndex(s, x);
      assert (s + [y])[k] == x;
    } else if x == y {
      assert (s + [y])[|s|] == x;
    }
  }

  lemma AppendAssoc<T>(a: seq<T>, b: seq<T>, c: seq<T>)
    ensures a + (b + c) == a + b + c
  {
  }

  /** The head and tail of a concatenation whose left part is non-empty. */
  lemma ConsAppend<T>(a: seq<T>, b: seq<T>)
    requires a != []
    ensures (a + b)[0] == a[0] && (a + b)[1..] == a[1..] + b
  {
  }

  lemma PairOfSingletons<T>(a: T, b: T)
    ensures [a, b] == [a] + [b]
  {
  }

  /** Moving the head of `b` to the end of `a`. */
  lemma ShiftConcat<T>(a: seq<T>, b: seq<T>)
    requires b != []
    ensures (a + [b[0]]) + b[1..] == a + b
  {
    assert b == [b[0]] + b[1..];
  }

  /** Cutting `u` at `a` and then `n` further on. */
  lemma ThreeParts<T>(u: seq<T>, a: nat, n: nat)
    requires a <= |u| && n <= |u| - a
    ensures u == u[..a] + u[a..][..n] + u[a..][n..]
  {
  }

  /** Being a prefix is transitive. */
  lemma PrefixTrans<T>(a: seq<T>, b: seq<T>, c: seq<T>)
    requires |b| >= |a| && b[..|a|] == a && |c| >= |b| && c[..|b|] == b
    ensures |c| >= |a| && c[..|a|] == a
  {
    assert c[..|a|] == c[..|b|][..|a|];
  }

  lemma MultisetTail<T>(a: seq<T>)
    requires a != []
    ensures a[0] in multiset(a)
    ensures multiset(a[1..]) == multiset(a) - multiset{a[0]}
  {
    assert a == [a[0]] + a[1..];
  }

  lemma MultisetRemove<T>(b: seq<T>, i: nat)
    requires i < |b|
    ensures multiset(b[..i] + b[i + 1..]) == multiset(b) - multiset{b[i]}
  {
    assert b == b[..i] + [b[i]] + b[i + 1..];
  }
}

=== FILE: sorting.dfy ===
/** Python's `list.sort(key=..., reverse=True)` / `sorted(..., reverse=True)`
    as a stable insertion sort into descending order. The order is given as
    a "ranks at least as high" relation on whole elements.
 */
module Sorting {

  ghost predicate TotalPreorder<T(!new)>(ge: (T, T) -> bool)
  {
    && (forall a, b :: ge(a, b) || ge(b, a))
    && (forall a, b, c :: ge(a, b) && ge(b, c) ==> ge(a, c))
  }

  ghost predicate Descending<T>(s: seq<T>, ge: (T, T) -> bool)
  {
    forall i, j :: 0 <= i < j < |s| ==> ge(s[i], s[j])
  }

  /** Put `x` before the first element it ranks at least as high as; an
      element that came earlier stays ahead of equal later ones. */
  function Insert<T(!new)>(x: T, s: seq<T>, ge: (T, T) -> bool): (r: seq<T>)
    requires TotalPreorder(ge) && Descending(s, ge)
    ensures Descending(r, ge)
    ensures multiset(r) == multiset(s) + multiset{x}
  {
    if s == [] then [x]
    else if ge(x, s[0]) then [x] + s
    else
      var rest := Insert(x, s[1..], ge);
      assert s == [s[0]] + s[1..];
      HeadStaysFirst(x, s, rest, ge);
      [s[0]] + rest
  }

  /** When `x` goes after the head, the head still ranks at least as high
      as everything behind it. */
  lemma HeadStaysFirst<T(!new)>(x: T, s: seq<T>, rest: seq<T>, ge: (T, T) -> bool)
    requires TotalPreorder(ge) && Descending(s, ge) && s != [] && !ge(x, s[0])
    requires Descending(rest, ge) && multiset(rest) == multiset(s[1..]) + multiset{x}
    ensures Descending([s[0]] + rest, ge)
  {
    forall j | 0 <= j < |rest|
      ensures ge(s[0], rest[j])
    {
      assert rest[j] in multiset(rest);
      if rest[j] != x {
        assert rest[j] in multiset(s[1..]);
        var k :| 0 <= k < |s[1..]| && s[1..][k] == rest[j];
        assert s[k + 1] == rest[j];
      }
    }
    var r := [s[0]] + rest;
    forall i, j | 0 <= i < j < |r|
      ensures ge(r[i], r[j])
    {
      if i > 0 {
        assert r[i] == rest[i - 1] && r[j] == rest[j - 1];
      } else {
        assert r[j] == rest[j - 1];
      }
    }
  }

  function SortDescending<T(!new)>(s: seq<T>, ge: (T, T) -> bool): (r: seq<T>)
    requires TotalPreorder(ge)
    ensures Descending(r, ge)
    ensures multiset(r) == multiset(s)
  {
    if s == [] then []
    else
      assert s == [s[0]] + s[1..];
      Insert(s[0], SortDescending(s[1..], ge), ge)
  }
}

=== FILE: status_check.dfy ===
/** The decision logic of the status-check script: the log-file check,
    the auto-start check, which repair each failure code triggers, the
    repair log, and the overall verdict and exit status. Whether files
    exist, what `launchctl list` prints, whether a repair command succeeds
    and the clock are parameters; the commands themselves are not modelled.
 */
module StatusCheck {
  import opened Wrappers
  import opened Text
  import opened Diagnostics

  // ---- Log files ----

  const LogDir := "~/Library/Logs/"
  const LogFiles := ["letta-server.log", "letta-server.error.log"]
  const LogFileError := "log_file_error"
  const LogPrefix := "Log file "

  /** The check of one log file. Writability is that of the directory and
      is only asked for when the file exists. */
  function LogFileCheck(name: string, present: bool, dirWritable: bool): (r: CheckResult)
    ensures r.passed <==> present && dirWritable
    ensures r.errorCode.None? <==> r.passed
    ensures r.errorDetails.None? <==> r.passed
    ensures !r.passed ==> r.errorCode == Some(LogFileError)
    ensures StartsWith(r.message, LogPrefix + name + ": ")
  {
    var writable := if present then dirWritable else false;
    var ok := present && writable;
    var status := if ok then "OK" else "Missing or not writable";
    var message := LogPrefix + name + ": " + status;
    assert message[..|LogPrefix + name + ": "|] == LogPrefix + name + ": ";
    CheckResult(ok, message,
                if ok then None else Some(LogFileError),
                if ok then None
                else Some("File: " + LogDir + name + ", Exists: " + PyBool(present) + ", Writable: " + PyBool(writable)))
  }

  /** `check_log_files`: one result per log file, in order. */
  function CheckLogFiles(present: string -> bool, dirWritable: bool): (rs: seq<CheckResult>)
    ensures |rs| == |LogFiles| == 2
    ensures forall i :: 0 <= i < |rs| ==> (rs[i].passed <==> present(LogDir + LogFiles[i]) && dirWritable)
    ensures forall i :: 0 <= i < |rs| ==> StartsWith(rs[i].message, LogPrefix + LogFiles[i] + ": ")
  {
    seq(|LogFiles|, i requires 0 <= i < |LogFiles| => LogFileCheck(LogFiles[i], present(LogDir + LogFiles[i]), dirWritable))
  }

  /** `message.split(": ")[0].replace("Log file ", "")`: the file name the
      log-file repair recovers from a check's message. */
  function LogNameOf(message: string): string
  {
    RemoveAll(BeforeFirst(message, ": "), LogPrefix)
  }

  lemma NoColonInPrefix(name: string)
    requires !Contains(name, ": ")
    ensures !Contains(LogPrefix + name, ": ")
  {
    var a := LogPrefix + name;
    forall i | 0 <= i <= |a| - 2
      ensures !OccursAt(a, ": ", i)
    {
      if i < |LogPrefix| {
        assert a[i] == LogPrefix[i];
        assert LogPrefix[i] != ':';
      } else {
        assert a[i..i + 2] == name[i - |LogPrefix|..i - |LogPrefix| + 2];
        assert !OccursAt(name, ": ", i - |LogPrefix|);
      }
    }
  }

  /** For a name containing neither `": "` nor `"Log file "`, the repair
      step recovers the name exactly from the message of its check. */
  lemma LogNameRoundTrip(name: string, status: string)
    requires !Contains(name, ": ") && !Contains(name, LogPrefix)
    ensures LogNameOf(LogPrefix + name + ": " + status) == name
  {
    var a := LogPrefix + name;
    NoColonInPrefix(name);
    forall i | 0 <= i < |a|
      ensures !StartsWith((a + ": ")[i..], ": ")
    {
      if i + 2 <= |a| {
        assert !OccursAt(a, ": ", i);
        assert (a + ": ")[i..i + 2] == a[i..i + 2];
      } else {
        assert (a + ": ")[i..][1] == ':';
      }
    }
    BeforeFirstOf(a, ": ", status);
    assert a[..|LogPrefix|] == LogPrefix;
    assert a[|LogPrefix|..] == name;
    RemoveAllAbsent(name, LogPrefix);
  }

  /** The two configured log files are recovered from their own checks. */
  lemma LogFileChecksNameTheirFiles(present: string -> bool, dirWritable: bool, i: nat)
    requires i < |LogFiles|
    ensures LogNameOf(CheckLogFiles(present, dirWritable)[i].message) == LogFiles[i]
  {
    var r := CheckLogFiles(present, dirWritable)[i];
    var status := if r.passed then "OK" else "Missing or not writable";
    assert r.message == LogPrefix + LogFiles[i] + ": " + status;
    var name := LogFiles[i];
    forall j | 0 <= j < |name| ensures name[j] != ':' && name[j] != 'L' {
      if i == 0 { assert name == "letta-server.log"; } else { assert name == "letta-server.error.log"; }
    }
    AbsentCharExcludesSubstring(name, ": ", ':');
    assert LogPrefix[0] == 'L';
    AbsentCharExcludesSubstring(name, LogPrefix, 'L');
    LogNameRoundTrip(name, status);
  }

  // ---- Auto-start ----

  /** What running `launchctl list` gave: its output, or the exception. */
  datatype Run = Output(stdout: string) | Raised(error: string)

  const AutostartMessage := "Auto-start configuration"

  /** `check_autostart`: a missing plist is reported before a plist that is
      not loaded. */
  function CheckAutostart(launchctl: Run, plistExists: bool): (r: CheckResult)
    ensures r.passed <==> launchctl.Output? && plistExists && Contains(launchctl.stdout, "com.letta.server")
    ensures launchctl.Output? && !plistExists ==> r.errorCode == Some("plist_missing")
    ensures r.errorCode.Some? <==> !r.passed
  {
    match launchctl
    case Raised(e) => CheckResult(false, "Auto-start error: " + e, Some("autostart_error"), Some(e))
    case Output(out) =>
      if !plistExists then
        CheckResult(false, AutostartMessage, Some("plist_missing"), Some("Launch agent plist file not found"))
      else if !Contains(out, "com.letta.server") then
        CheckResult(false, AutostartMessage, Some("not_loaded"), Some("Launch agent not loaded"))
      else CheckResult(true, AutostartMessage, None, None)
  }

  // ---- Repairs ----

  datatype Repair = StartDaemon | RestartContainer | FixPermissions(logFile: string) | ReloadAgent | NoRepair

  const RestartCodes := ["container_not_running", "connection_failed", "unhealthy_response"]
  const ReloadCodes := ["plist_missing", "not_loaded", "autostart_error"]

  /** The `if`/`elif` chain of `main` over the failure code. Each repair
      answers its own codes, so the order of the tests does not matter, and
      an unknown code (the Gemini failures among them) calls for none. */
  function Dispatch(code: string, message: string): (r: Repair)
    ensures r == StartDaemon <==> code == "daemon_not_running"
    ensures r == RestartContainer <==> code in RestartCodes
    ensures r.FixPermissions? <==> code == LogFileError
    ensures r.FixPermissions? ==> r.logFile == LogNameOf(message)
    ensures r == ReloadAgent <==> code in ReloadCodes
  {
    if code == "daemon_not_running" then StartDaemon
    else if code in RestartCodes then RestartContainer
    else if code == LogFileError then FixPermissions(LogNameOf(message))
    else if code in ReloadCodes then ReloadAgent
    else NoRepair
  }

  /** Only the log-file repair reads the message. */
  lemma DispatchIgnoresMessage(code: string, m1: string, m2: string)
    requires code != LogFileError
    ensures Dispatch(code, m1) == Dispatch(code, m2)
  {
  }

  /** Every failure the auto-start check reports leads to reloading the
      launch agent. */
  lemma AutostartFailuresReload(launchctl: Run, plistExists: bool)
    requires !CheckAutostart(launchctl, plistExists).passed
    ensures var r := CheckAutostart(launchctl, plistExists);
            Dispatch(r.errorCode.value, r.message) == ReloadAgent
  {
  }

  /** Every failed log-file check leads to fixing the permissions of that
      very file. */
  lemma LogFailuresFixTheirFile(present: string -> bool, dirWritable: bool, i: nat)
    requires i < |LogFiles| && !CheckLogFiles(present, dirWritable)[i].passed
    ensures var r := CheckLogFiles(present, dirWritable)[i];
            Dispatch(r.errorCode.value, r.message) == FixPermissions(LogFiles[i])
  {
    LogFileChecksNameTheirFiles(present, dirWritable, i);
  }

  /** The component and action `log_repair` is called with. */
  function Describe(repair: Repair): (string, string)
    requires !repair.NoRepair?
  {
    match repair
    case StartDaemon => ("Docker", "Start daemon")
    case RestartContainer => ("Docker", "Restart container")
    case FixPermissions(f) => ("Logs", "Fix permissions for " + f)
    case ReloadAgent => ("LaunchAgent", "Reload configuration")
  }

  /** `LettaRepair.log_repair`: appends exactly one entry. */
  function LogRepair(log: seq<RepairEntry>, component: string, action: string, success: bool, now: string): (r: seq<RepairEntry>)
    ensures |r| == |log| + 1 && r[..|log|] == log
    ensures r[|log|] == RepairEntry(now, component, action, success)
  {
    log + [RepairEntry(now, component, action, success)]
  }

  /** A check is acted on when it failed with a truthy error code. */
  predicate Attempts(c: CheckResult)
  {
    !c.passed && Given(c.errorCode)
  }

  /** The state `main` accumulates over the checks. */
  datatype State = State(log: seq<RepairEntry>, attempted: bool, allPassed: bool)

  /** One iteration of `main`'s loop; `success` is what the repair command
      returns and `now` the clock reading of `log_repair`. */
  function Step(s: State, c: CheckResult, success: bool, now: string): State
  {
    var allPassed := s.allPassed && c.passed;
    if !Attempts(c) then State(s.log, s.attempted, allPassed)
    else
      var repair := Dispatch(c.errorCode.value, c.message);
      if repair.NoRepair? then State(s.log, true, allPassed)
      else
        var (component, action) := Describe(repair);
        State(LogRepair(s.log, component, action, success, now), true, allPassed)
  }

  /** The repair one check calls for, if any. */
  function PlanOf(c: CheckResult): (ps: seq<Repair>)
    ensures |ps| <= 1
  {
    if Attempts(c) && !Dispatch(c.errorCode.value, c.message).NoRepair? then [Dispatch(c.errorCode.value, c.message)] else []
  }

  /** The repairs the checks call for, in check order. */
  function Planned(checks: seq<CheckResult>): (ps: seq<Repair>)
    ensures forall i :: 0 <= i < |ps| ==> !ps[i].NoRepair?
  {
    if checks == [] then [] else PlanOf(checks[0]) + Planned(checks[1..])
  }

  /** Log entries naming, in order, the repairs of a plan. */
  predicate Describes(entries: seq<RepairEntry>, plan: seq<Repair>)
  {
    |entries| == |plan|
    && forall i :: 0 <= i < |entries| ==> !plan[i].NoRepair? && (entries[i].component, entries[i].action) == Describe(plan[i])
  }

  lemma DescribesAppend(a: seq<RepairEntry>, p: seq<Repair>, b: seq<RepairEntry>, q: seq<Repair>)
    requires Describes(a, p) && Describes(b, q)
    ensures Describes(a + b, p + q)
  {
    forall i | 0 <= i < |a + b|
      ensures !(p + q)[i].NoRepair? && ((a + b)[i].component, (a + b)[i].action) == Describe((p + q)[i])
    {
      if i >= |a| {
        assert (a + b)[i] == b[i - |a|] && (p + q)[i] == q[i - |a|];
      }
    }
  }

  /** A log extended in two stages describes the two plans one after the
      other. */
  lemma DescribesExtend(log0: seq<RepairEntry>, log1: seq<RepairEntry>, log2: seq<RepairEntry>, p: seq<Repair>, q: seq<Repair>)
    requires |log0| <= |log1| <= |log2| && log1[..|log0|] == log0 && log2[..|log1|] == log1
    requires Describes(log1[|log0|..], p) && Describes(log2[|log1|..], q)
    ensures Describes(log2[|log0|..], p + q)
  {
    assert log2[|log0|..] == log1[|log0|..] + log2[|log1|..];
    DescribesAppend(log1[|log0|..], p, log2[|log1|..], q);
  }

  /** One step logs exactly the repair its check calls for. */
  lemma StepLog(s: State, c: CheckResult, success: bool, now: string)
    ensures var s1 := Step(s, c, success, now);
            |s1.log| >= |s.log| && s1.log[..|s.log|] == s.log && Describes(s1.log[|s.log|..], PlanOf(c))
  {
    var s1 := Step(s, c, success, now);
    if PlanOf(c) == [] {
      assert s1.log == s.log;
    } else {
      assert s1.log[|s.log|..] == [s1.log[|s.log|]];
    }
  }

  /** `main`'s loop over the checks, from a given state on: the log only
      grows, by one entry per planned repair. */
  function Loop(s: State, checks: seq<CheckResult>, outcomes: seq<bool>, stamps: seq<string>): (r: State)
    requires |outcomes| == |checks| && |stamps| == |checks|
    ensures |r.log| == |s.log| + |Planned(checks)| && r.log[..|s.log|] == s.log
    decreases |checks|
  {
    if checks == [] then s
    else
      var s1 := Step(s, checks[0], outcomes[0], stamps[0]);
      var r := Loop(s1, checks[1..], outcomes[1..], stamps[1..]);
      assert r.log[..|s.log|] == r.log[..|s1.log|][..|s.log|];
      r
  }

  /** The verdict and the attempted flag after the loop. */
  lemma {:induction false} LoopVerdict(s: State, checks: seq<CheckResult>, outcomes: seq<bool>, stamps: seq<string>)
    requires |outcomes| == |checks| && |stamps| == |checks|
    ensures var r := Loop(s, checks, outcomes, stamps);
            && (r.allPassed <==> s.allPassed && forall i :: 0 <= i < |checks| ==> checks[i].passed)
            && (r.attempted <==> s.attempted || exists i :: 0 <= i < |checks| && Attempts(checks[i]))
    decreases |checks|
  {
    if checks != [] {
      var s1 := Step(s, checks[0], outcomes[0], stamps[0]);
      LoopVerdict(s1, checks[1..], outcomes[1..], stamps[1..]);
      assert forall i :: 1 <= i < |checks| ==> checks[1..][i - 1] == checks[i];
      assert forall i :: 0 <= i < |checks[1..]| ==> checks[1..][i] == checks[i + 1];
    }
  }

  /** The entries the loop adds name, in order, the repairs the checks call
      for. */
  lemma {:induction false} LoopLog(s: State, checks: seq<CheckResult>, outcomes: seq<bool>, stamps: seq<string>)
    requires |outcomes| == |checks| && |stamps| == |checks|
    ensures var r := Loop(s, checks, outcomes, stamps);
            Describes(r.log[|s.log|..], Planned(checks))
    decreases |checks|
  {
    var r := Loop(s, checks, outcomes, stamps);
    if checks == [] {
      assert r.log[|s.log|..] == [];
    } else {
      var s1 := Step(s, checks[0], outcomes[0], stamps[0]);
      assert r == Loop(s1, checks[1..], outcomes[1..], stamps[1..]);
      LoopLog(s1, checks[1..], outcomes[1..], stamps[1..]);
      StepLog(s, checks[0], outcomes[0], stamps[0]);
      DescribesExtend(s.log, s1.log, r.log, PlanOf(checks[0]), Planned(checks[1..]));
    }
  }

  const Start := State([], false, true)

  /** `main` over all the checks it ran. */
  function Main(checks: seq<CheckResult>, outcomes: seq<bool>, stamps: seq<string>): (r: State)
    requires |outcomes| == |checks| && |stamps| == |checks|
    ensures r.allPassed <==> forall i :: 0 <= i < |checks| ==> checks[i].passed
    ensures r.attempted <==> exists i :: 0 <= i < |checks| && Attempts(checks[i])
    ensures |r.log| == |Planned(checks)|
    ensures forall i :: 0 <= i < |r.log| ==> (r.log[i].component, r.log[i].action) == Describe(Planned(checks)[i])
  {
    var s := Start;
    assert |s.log| == 0 && !s.attempted && s.allPassed;
    LoopVerdict(s, checks, outcomes, stamps);
    LoopLog(s, checks, outcomes, stamps);
    var r := Loop(s, checks, outcomes, stamps);
    assert r.log[|s.log|..] == r.log;
    r
  }

  /** `sys.exit(0 if all_passed else 1)`. */
  function ExitCode(s: State): int
  {
    if s.allPassed then 0 else 1
  }

  /** The history passed to the AI analysis. */
  function History(s: State): Option<seq<RepairEntry>>
  {
    if s.attempted then Some(s.log) else None
  }

  /** The exit status is 0 exactly when every check passed, and then no
      repair was logged. */
  lemma ExitZeroIffAllPassed(checks: seq<CheckResult>, outcomes: seq<bool>, stamps: seq<string>)
    requires |outcomes| == |checks| && |stamps| == |checks|
    ensures ExitCode(Main(checks, outcomes, stamps)) == 0 <==> forall i :: 0 <= i < |checks| ==> checks[i].passed
    ensures ExitCode(Main(checks, outcomes, stamps)) == 0 ==> Main(checks, outcomes, stamps).log == []
  {
    var r := Main(checks, outcomes, stamps);
    if ExitCode(r) == 0 {
      assert Planned(checks) == [] by { AllPassedPlansNothing(checks); }
    }
  }

  lemma {:induction false} AllPassedPlansNothing(checks: seq<CheckResult>)
    requires forall i :: 0 <= i < |checks| ==> checks[i].passed
    ensures Planned(checks) == []
  {
    if checks != [] {
      assert forall i :: 0 <= i < |checks[1..]| ==> checks[1..][i] == checks[i + 1];
      AllPassedPlansNothing(checks[1..]);
    }
  }

  /** The AI report carries a repair-history section exactly when at least
      one repair was logged. */
  lemma ReportShowsRepairsIffLogged(checks: seq<CheckResult>, outcomes: seq<bool>, stamps: seq<string>, logs: string)
    requires |outcomes| == |checks| && |stamps| == |checks|
    ensures var r := Main(checks, outcomes, stamps);
            var c := Context(checks, logs, History(r));
            (exists i :: 0 <= i < |c| && StartsWith(c[i], RepairHeader)) <==> r.log != []
  {
    var r := Main(checks, outcomes, stamps);
    RepairSectionIffHistory(checks, logs, History(r));
    if r.log != [] {
      NonEmptyPlanAttempts(checks);
    }
  }

  lemma {:induction false} NonEmptyPlanAttempts(checks: seq<CheckResult>)
    requires Planned(checks) != []
    ensures exists i :: 0 <= i < |checks| && Attempts(checks[i])
  {
    var c := checks[0];
    if !(Attempts(c) && !Dispatch(c.errorCode.value, c.message).NoRepair?) {
      NonEmptyPlanAttempts(checks[1..]);
      var i :| 0 <= i < |checks[1..]| && Attempts(checks[1..][i]);
      assert checks[i + 1] == checks[1..][i];
    }
  }
}

=== FILE: taskade_sync.dfy ===
/** The Taskade integration without its HTTP calls: where the API token
    comes from, and how fetched conversations are copied into the
    conversation log. What the Taskade API returns, the uuid and clock
    readings of each save and whether the database call succeeds are
    parameters.
 */
module TaskadeSync {
  import opened Wrappers
  import opened Text
  import opened Json
  import opened KeyFile
  import OrderedDict
  import ConversationDb
  import opened Seqs

  const TokenName := "TASKADE_API_TOKEN"
  const Platform := "taskade"
  const Source := "taskade_integration"

  lemma TokenNameIsKeyName()
    ensures KeyName(TokenName)
  {
  }

  /** `_load_taskade_token`: the environment variable when it is truthy,
      else the first `TASKADE_API_TOKEN=` line of the `.env` file; a missing
      file is logged and leaves the environment value (possibly None or
      empty) in place. */
  function LoadToken(envVar: Option<string>, envFile: Option<string>): (r: Option<string>)
    ensures Given(envVar) ==> r == envVar
    ensures !Given(envVar) && envFile.None? ==> r == envVar
    ensures !Given(envVar) && envFile.Some? ==> (r == envVar <== FileToken(envFile.value, TokenName).None?)
  {
    TokenNameIsKeyName();
    if Given(envVar) then envVar
    else if envFile.None? then envVar
    else match FileToken(envFile.value, TokenName)
      case Some(v) => Some(v)
      case None => envVar
  }

  /** The token `TaskadeIntegration.__init__` keeps: the argument when
      truthy, else the loaded one; no truthy token raises ValueError. */
  function Token(arg: Option<string>, envVar: Option<string>, envFile: Option<string>): (r: Result<string>)
    ensures r.Ok? ==> r.value != []
    ensures r.Err? ==> r.fault.BadValue?
    ensures Given(arg) ==> r == Ok(arg.value)
    ensures !Given(arg) && Given(envVar) ==> r == Ok(envVar.value)
    ensures !Given(arg) && !Given(envVar) && envFile.None? ==> r.Err?
  {
    if Given(arg) then Ok(arg.value)
    else
      var token := LoadToken(envVar, envFile);
      if Given(token) then Ok(token.value)
      else Err(BadValue("No Taskade API token found. Please set TASKADE_API_TOKEN."))
  }

  /** With neither an argument nor the environment variable, the first
      `TASKADE_API_TOKEN=value` line of the file supplies the token. */
  lemma TokenFromFile(arg: Option<string>, envVar: Option<string>, pre: seq<string>, v: string, post: string)
    requires !Given(arg) && !Given(envVar) && Bare(v) && v != []
    requires forall i :: 0 <= i < |pre| ==> CompleteLine(pre[i]) && !StartsWith(pre[i], TokenName + "=")
    requires '\r' !in Concat(pre) + (TokenName + "=" + v + "\n") + post
    ensures Token(arg, envVar, Some(Concat(pre) + (TokenName + "=" + v + "\n") + post)) == Ok(v)
  {
    var file := Concat(pre) + (TokenName + "=" + v + "\n") + post;
    TokenNameIsKeyName();
    FirstLineWins(pre, TokenName, v, post);
    assert FileToken(file, TokenName) == Some(v);
    assert LoadToken(envVar, Some(file)) == Some(v);
  }

  // ---- Copying conversations into the log ----

  /** What the environment supplies for one save: the new row's uuid, the
      `sync_timestamp` clock reading, the insertion clock reading, and
      whether the database call succeeds. */
  datatype Attempt = Attempt(id: string, syncStamp: string, savedAt: string, dbOk: bool)

  function SyncMetadata(syncStamp: string): Object
  {
    map["source" := Str(Source), "sync_timestamp" := Str(syncStamp)]
  }

  /** A row written by the sync for `agentId`. */
  predicate SyncedRow(row: ConversationDb.Row, agentId: string)
  {
    && row.agentId == agentId
    && row.platform == Platform
    && row.metadata.Some?
    && "source" in row.metadata.value && row.metadata.value["source"] == Str(Source)
  }

  /** `u` is `t` followed by rows the sync wrote for `agentId`. */
  predicate Extends(t: ConversationDb.Table, u: ConversationDb.Table, agentId: string)
  {
    && |u| >= |t| && u[..|t|] == t
    && forall i :: |t| <= i < |u| ==> SyncedRow(u[i], agentId)
  }

  lemma ExtendsStep(t: ConversationDb.Table, row: ConversationDb.Row, u: ConversationDb.Table, agentId: string)
    requires SyncedRow(row, agentId) && Extends(t + [row], u, agentId)
    ensures Extends(t, u, agentId)
  {
    assert u[..|t|] == (t + [row])[..|t|];
    assert u[|t|] == row;
  }

  /** `sync_agent_conversations`: every fetched conversation is saved in
      turn; a save that raises is logged and skipped. The count is the
      number of rows added. */
  function SyncAgent(t: ConversationDb.Table, agentId: string, conversations: seq<Object>, attempts: seq<Attempt>): (r: (nat, ConversationDb.Table))
    requires |attempts| == |conversations|
    ensures r.0 <= |conversations|
    ensures |r.1| == |t| + r.0 && Extends(t, r.1, agentId)
    decreases |conversations|
  {
    if conversations == [] then (0, t)
    else
      var a := attempts[0];
      var meta := Some(SyncMetadata(a.syncStamp));
      match ConversationDb.SaveConversation(t, agentId, Platform, conversations[0], meta, a.id, a.savedAt, a.dbOk)
      case Ok((_, t1)) =>
        var row := ConversationDb.Row(a.id, agentId, Platform, a.savedAt, conversations[0], meta);
        assert t1 == t + [row];
        var (n, t2) := SyncAgent(t1, agentId, conversations[1..], attempts[1..]);
        ExtendsStep(t, row, t2, agentId);
        (n + 1, t2)
      case Err(_) => SyncAgent(t, agentId, conversations[1..], attempts[1..])
  }

  /** The row a successful attempt adds. */
  function RowOf(agentId: string, conversation: Object, a: Attempt): ConversationDb.Row
  {
    ConversationDb.Row(a.id, agentId, Platform, a.savedAt, conversation, Some(SyncMetadata(a.syncStamp)))
  }

  /** Attempts whose database calls all succeed and whose ids are distinct
      and new. */
  predicate AllSucceed(t: ConversationDb.Table, attempts: seq<Attempt>)
  {
    && (forall i :: 0 <= i < |attempts| ==> attempts[i].dbOk && attempts[i].id !in ConversationDb.Ids(t))
    && (forall i, j :: 0 <= i < j < |attempts| ==> attempts[i].id != attempts[j].id)
  }

  /** The rows the attempts add, in order. */
  function RowsOf(agentId: string, conversations: seq<Object>, attempts: seq<Attempt>): (rows: ConversationDb.Table)
    requires |attempts| == |conversations|
    ensures |rows| == |conversations|
    ensures forall i :: 0 <= i < |rows| ==> rows[i] == RowOf(agentId, conversations[i], attempts[i])
  {
    seq(|conversations|, i requires 0 <= i < |conversations| => RowOf(agentId, conversations[i], attempts[i]))
  }

  /** After the first save succeeds, the remaining attempts still succeed. */
  lemma AllSucceedTail(t: ConversationDb.Table, row: ConversationDb.Row, attempts: seq<Attempt>)
    requires attempts != [] && AllSucceed(t, attempts) && row.id == attempts[0].id
    ensures AllSucceed(t + [row], attempts[1..])
  {
    var t1 := t + [row];
    assert ConversationDb.Ids(t1) == ConversationDb.Ids(t) + {row.id} by {
      assert t1[|t|] == row;
      assert forall i :: 0 <= i < |t| ==> t1[i] == t[i];
    }
    forall i | 0 <= i < |attempts[1..]|
      ensures attempts[1..][i].id !in ConversationDb.Ids(t1)
    {
      assert attempts[1..][i] == attempts[i + 1];
    }
  }

  /** When every save succeeds, every conversation is counted and lands in
      the log in fetch order, tagged as coming from Taskade. */
  lemma {:induction false} SyncAgentAllSaved(t: ConversationDb.Table, agentId: string, conversations: seq<Object>, attempts: seq<Attempt>)
    requires |attempts| == |conversations|
    requires AllSucceed(t, attempts)
    ensures SyncAgent(t, agentId, conversations, attempts)
            == (|conversations|, t + RowsOf(agentId, conversations, attempts))
    decreases |conversations|
  {
    if conversations == [] {
      assert t + RowsOf(agentId, conversations, attempts) == t;
    } else {
      var a := attempts[0];
      var row := RowOf(agentId, conversations[0], a);
      var t1 := t + [row];
      assert ConversationDb.SaveConversation(t, agentId, Platform, conversations[0], Some(SyncMetadata(a.syncStamp)), a.id, a.savedAt, a.dbOk)
             == Ok((a.id, t1));
      AllSucceedTail(t, row, attempts);
      SyncAgentAllSaved(t1, agentId, conversations[1..], attempts[1..]);
      RowsOfCons(t, agentId, conversations, attempts);
    }
  }

  lemma RowsOfCons(t: ConversationDb.Table, agentId: string, conversations: seq<Object>, attempts: seq<Attempt>)
    requires |attempts| == |conversations| && conversations != []
    ensures t + [RowOf(agentId, conversations[0], attempts[0])] + RowsOf(agentId, conversations[1..], attempts[1..])
            == t + RowsOf(agentId, conversations, attempts)
  {
    var all := RowsOf(agentId, conversations, attempts);
    var rest := RowsOf(agentId, conversations[1..], attempts[1..]);
    assert all == [all[0]] + rest;
  }

  /** A conversation whose save fails adds nothing and is not counted. */
  lemma FailedSaveSkipped(t: ConversationDb.Table, agentId: string, conversations: seq<Object>, attempts: seq<Attempt>)
    requires |attempts| == |conversations| && conversations != []
    requires !attempts[0].dbOk
    ensures SyncAgent(t, agentId, conversations, attempts)
            == SyncAgent(t, agentId, conversations[1..], attempts[1..])
  {
  }

  // ---- All agents ----

  /** The conversations fetched for one agent and the attempts to save them. */
  datatype AgentPlan = AgentPlan(conversations: seq<Object>, attempts: seq<Attempt>)

  predicate PlansFit(agents: seq<Object>, plans: seq<AgentPlan>)
  {
    |plans| == |agents| && forall i :: 0 <= i < |plans| ==> |plans[i].attempts| == |plans[i].conversations|
  }

  /** `agent.get('id')`. */
  function AgentKey(agent: Object): Value
  {
    Get(agent, "id", Null)
  }

  /** The text the `agent_id TEXT` column holds for a truthy id. sqlite3
      binds a Python bool as the integer 1 and TEXT affinity stores an
      integer as its decimal digits, so `True` is stored as `"1"`, exactly
      as the id `1` is. */
  function AgentIdText(key: Value): (r: string)
    requires Hashable(key) && Truthy(key)
    ensures key.Str? ==> r == key.s
    ensures key.Bool? ==> r == "1"
    ensures key.Int? && key.i > 0 ==> (forall k :: 0 <= k < |r| ==> IsDigit(r[k])) && DigitsValue(r) == key.i
    ensures key.Int? && key.i < 0 ==> |r| > 1 && r[0] == '-' && (forall k :: 1 <= k < |r| ==> IsDigit(r[k])) && DigitsValue(r[1..]) == -key.i
  {
    match key
    case Bool(_) => "1"
    case Int(i) => IntToString(i)
    case Float(repr) => repr
    case Str(s) => s
  }

  /** The id `True` and the id `1` name the same rows. */
  lemma TrueStoredAsOne()
    ensures AgentIdText(Bool(true)) == AgentIdText(Int(1))
  {
  }

  /** The truthy ids of the listed agents. */
  function TruthyIds(agents: seq<Object>): set<Value>
  {
    if agents == [] then {}
    else (if Truthy(AgentKey(agents[0])) then {AgentKey(agents[0])} else {}) + TruthyIds(agents[1..])
  }

  lemma {:induction false} TruthyIdsAre(agents: seq<Object>)
    ensures forall v :: v in TruthyIds(agents) <==> exists i :: 0 <= i < |agents| && Truthy(AgentKey(agents[i])) && AgentKey(agents[i]) == v
  {
    if agents != [] {
      TruthyIdsAre(agents[1..]);
      forall v | (exists i :: 0 <= i < |agents| && Truthy(AgentKey(agents[i])) && AgentKey(agents[i]) == v)
        ensures v in TruthyIds(agents)
      {
        var i :| 0 <= i < |agents| && Truthy(AgentKey(agents[i])) && AgentKey(agents[i]) == v;
        if i > 0 {
          assert agents[1..][i - 1] == agents[i];
        }
      }
      forall v | v in TruthyIds(agents[1..])
        ensures exists i :: 0 <= i < |agents| && Truthy(AgentKey(agents[i])) && AgentKey(agents[i]) == v
      {
        var i :| 0 <= i < |agents[1..]| && Truthy(AgentKey(agents[1..][i])) && AgentKey(agents[1..][i]) == v;
        assert agents[i + 1] == agents[1..][i];
      }
    }
  }

  /** Every truthy id can be a dict key. */
  predicate KeysHashable(agents: seq<Object>)
  {
    forall i :: 0 <= i < |agents| && Truthy(AgentKey(agents[i])) ==> Hashable(AgentKey(agents[i]))
  }

  /** Position of the first agent whose truthy id cannot be a dict key, or
      `|agents|`. */
  function FirstUnhashable(agents: seq<Object>): (i: nat)
    ensures i <= |agents|
    ensures i < |agents| ==> Truthy(AgentKey(agents[i])) && !Hashable(AgentKey(agents[i]))
    ensures KeysHashable(agents[..i])
  {
    if agents == [] then 0
    else if Truthy(AgentKey(agents[0])) && !Hashable(AgentKey(agents[0])) then 0
    else
      var i := FirstUnhashable(agents[1..]);
      KeysHashableCons(agents[..i + 1]);
      assert agents[..i + 1][1..] == agents[1..][..i];
      1 + i
  }

  /** What one turn of the loop does to the log, with the number it counts.
      An agent without a truthy id is skipped. An unhashable id still
      reaches every save, and every save fails to bind it, so nothing is
      added before the dict assignment raises. */
  function AgentStep(t: ConversationDb.Table, agent: Object, plan: AgentPlan): (r: (nat, ConversationDb.Table))
    requires |plan.attempts| == |plan.conversations|
  {
    var key := AgentKey(agent);
    if !Truthy(key) || !Hashable(key) then (0, t)
    else SyncAgent(t, AgentIdText(key), plan.conversations, plan.attempts)
  }

  /** The log after the first `i` turns of the loop, built turn by turn from
      the front. */
  function TableAfter(t: ConversationDb.Table, agents: seq<Object>, plans: seq<AgentPlan>, i: nat): ConversationDb.Table
    requires PlansFit(agents, plans) && i <= |agents|
  {
    if i == 0 then t else AgentStep(TableAfter(t, agents, plans, i - 1), agents[i - 1], plans[i - 1]).1
  }

  /** The count turn `i` of the loop computes. */
  function CountAt(t: ConversationDb.Table, agents: seq<Object>, plans: seq<AgentPlan>, i: nat): nat
    requires PlansFit(agents, plans) && i < |agents|
  {
    AgentStep(TableAfter(t, agents, plans, i), agents[i], plans[i]).0
  }

  /** Running the first turn, then `i` turns of the rest, is running `i + 1`
      turns. */
  lemma {:induction false} TableAfterShift(t: ConversationDb.Table, agents: seq<Object>, plans: seq<AgentPlan>, i: nat)
    requires PlansFit(agents, plans) && agents != [] && i < |agents|
    ensures PlansFit(agents[1..], plans[1..])
    ensures TableAfter(t, agents, plans, i + 1)
            == TableAfter(AgentStep(t, agents[0], plans[0]).1, agents[1..], plans[1..], i)
    decreases i
  {
    assert PlansFit(agents[1..], plans[1..]);
    if i > 0 {
      TableAfterShift(t, agents, plans, i - 1);
      assert agents[1..][i - 1] == agents[i] && plans[1..][i - 1] == plans[i];
    }
  }

  /** Agent `i` carries a truthy id that no later agent carries: its count
      is the one left in the result. */
  predicate LastCarrier(agents: seq<Object>, i: int)
  {
    && 0 <= i < |agents| && Truthy(AgentKey(agents[i]))
    && forall j :: i < j < |agents| ==> AgentKey(agents[j]) != AgentKey(agents[i])
  }

  /** What the loop leaves behind: the result dict, or the exception it
      raised, and the log, which keeps every row committed before that. */
  datatype Outcome = Outcome(results: Result<OrderedDict.Dict<Value, nat>>, table: ConversationDb.Table)

  /** The loop of `sync_all_agents` from a given state on: agents without
      a truthy id are skipped; an unhashable id raises TypeError at the
      dict assignment. Each id's entry holds the count of the last agent
      carrying it, and the log is the one built turn by turn. */
  function SyncFrom(results: OrderedDict.Dict<Value, nat>, t: ConversationDb.Table,
                    agents: seq<Object>, plans: seq<AgentPlan>): (r: Outcome)
    requires PlansFit(agents, plans)
    ensures r.results.Ok? <==> KeysHashable(agents)
    ensures r.results.Err? ==> r.results.fault.WrongType?
    ensures r.results.Ok? ==> OrderedDict.KeySet(r.results.value) == OrderedDict.KeySet(results) + TruthyIds(agents)
    ensures r.results.Ok? && OrderedDict.KeysDistinct(results) ==> OrderedDict.KeysDistinct(r.results.value)
    ensures r.results.Ok? ==> forall k :: k !in TruthyIds(agents) ==> OrderedDict.Get(r.results.value, k) == OrderedDict.Get(results, k)
    ensures r.results.Ok? ==> forall i :: LastCarrier(agents, i) ==>
              OrderedDict.Get(r.results.value, AgentKey(agents[i])) == Some(CountAt(t, agents, plans, i))
    ensures r.table == TableAfter(t, agents, plans, FirstUnhashable(agents))
    decreases |agents|
  {
    if agents == [] then Outcome(Ok(results), t)
    else
      assert PlansFit(agents[1..], plans[1..]);
      var key := AgentKey(agents[0]);
      KeysHashableCons(agents);
      if !Truthy(key) then
        var r := SyncFrom(results, t, agents[1..], plans[1..]);
        SyncFromTable(t, agents, plans, r.table);
        if r.results.Ok? then
          SyncFromCounts(results, t, agents, plans, r.results.value);
          r
        else r
      else if !Hashable(key) then Outcome(Err(WrongType("unhashable type")), t)
      else
        var (n, t1) := SyncAgent(t, AgentIdText(key), plans[0].conversations, plans[0].attempts);
        var r := SyncFrom(OrderedDict.Set<Value, nat>(results, key, n), t1, agents[1..], plans[1..]);
        SyncFromTable(t, agents, plans, r.table);
        if r.results.Ok? then
          SyncFromCounts(results, t, agents, plans, r.results.value);
          r
        else r
  }

  /** The log clause of SyncFrom's step: the rest of the loop runs from
      the log the first turn left. */
  lemma SyncFromTable(t: ConversationDb.Table, agents: seq<Object>, plans: seq<AgentPlan>, rt: ConversationDb.Table)
    requires PlansFit(agents, plans) && agents != []
    requires Truthy(AgentKey(agents[0])) ==> Hashable(AgentKey(agents[0]))
    requires PlansFit(agents[1..], plans[1..])
    requires rt == TableAfter(AgentStep(t, agents[0], plans[0]).1, agents[1..], plans[1..], FirstUnhashable(agents[1..]))
    ensures rt == TableAfter(t, agents, plans, FirstUnhashable(agents))
  {
    assert FirstUnhashable(agents) == 1 + FirstUnhashable(agents[1..]);
    TableAfterShift(t, agents, plans, FirstUnhashable(agents[1..]));
  }

  /** The key clauses of SyncFrom's step: ids the rest of the loop does
      not carry keep the entry the first turn left, and a last carrier's
      entry is its count. */
  lemma SyncFromCounts(results: OrderedDict.Dict<Value, nat>, t: ConversationDb.Table,
                       agents: seq<Object>, plans: seq<AgentPlan>, d: OrderedDict.Dict<Value, nat>)
    requires PlansFit(agents, plans) && agents != []
    requires Truthy(AgentKey(agents[0])) ==> Hashable(AgentKey(agents[0]))
    requires PlansFit(agents[1..], plans[1..])
    requires
      var step := AgentStep(t, agents[0], plans[0]);
      var res1 := if Truthy(AgentKey(agents[0])) then OrderedDict.Set<Value, nat>(results, AgentKey(agents[0]), step.0) else results;
      && (forall k :: k !in TruthyIds(agents[1..]) ==> OrderedDict.Get(d, k) == OrderedDict.Get(res1, k))
      && (forall i :: LastCarrier(agents[1..], i) ==>
            OrderedDict.Get(d, AgentKey(agents[1..][i])) == Some(CountAt(step.1, agents[1..], plans[1..], i)))
    ensures forall k :: k !in TruthyIds(agents) ==> OrderedDict.Get(d, k) == OrderedDict.Get(results, k)
    ensures forall i :: LastCarrier(agents, i) ==>
              OrderedDict.Get(d, AgentKey(agents[i])) == Some(CountAt(t, agents, plans, i))
  {
    var key := AgentKey(agents[0]);
    var step := AgentStep(t, agents[0], plans[0]);
    forall i | LastCarrier(agents, i)
      ensures OrderedDict.Get(d, AgentKey(agents[i])) == Some(CountAt(t, agents, plans, i))
    {
      if i == 0 {
        LastCarrierFresh(agents);
      } else {
        LastCarrierTail(agents, i);
        TableAfterShift(t, agents, plans, i - 1);
        assert plans[1..][i - 1] == plans[i];
      }
    }
  }

  /** The first agent's id, when no later agent carries it, is not among
      the rest's truthy ids. */
  lemma LastCarrierFresh(agents: seq<Object>)
    requires LastCarrier(agents, 0)
    ensures AgentKey(agents[0]) !in TruthyIds(agents[1..])
  {
    TruthyIdsAre(agents[1..]);
    forall j | 0 <= j < |agents[1..]|
      ensures AgentKey(agents[1..][j]) != AgentKey(agents[0])
    {
      assert agents[1..][j] == agents[j + 1];
    }
  }

  lemma LastCarrierTail(agents: seq<Object>, i: nat)
    requires 0 < i && LastCarrier(agents, i)
    ensures LastCarrier(agents[1..], i - 1) && agents[1..][i - 1] == agents[i]
  {
    forall j | i - 1 < j < |agents[1..]|
      ensures AgentKey(agents[1..][j]) != AgentKey(agents[1..][i - 1])
    {
      assert agents[1..][j] == agents[j + 1];
    }
  }

  lemma KeysHashableCons(agents: seq<Object>)
    requires agents != []
    ensures KeysHashable(agents) <==>
              (Truthy(AgentKey(agents[0])) ==> Hashable(AgentKey(agents[0]))) && KeysHashable(agents[1..])
  {
    assert forall i :: 1 <= i < |agents| ==> agents[1..][i - 1] == agents[i];
  }

  /** `sync_all_agents`: the result's keys are exactly the truthy ids of the
      listed agents, each once, and each holds the count of the last agent
      carrying it. An unhashable id raises TypeError, and the rows synced
      for the agents before it stay in the log. */
  function SyncAll(t: ConversationDb.Table, agents: seq<Object>, plans: seq<AgentPlan>): (r: Outcome)
    requires PlansFit(agents, plans)
    ensures r.results.Ok? <==> KeysHashable(agents)
    ensures r.results.Err? ==> r.results.fault.WrongType?
    ensures r.results.Ok? ==> OrderedDict.KeySet(r.results.value) == TruthyIds(agents)
    ensures r.results.Ok? ==> OrderedDict.KeysDistinct(r.results.value)
    ensures r.results.Ok? ==> forall i :: LastCarrier(agents, i) ==>
              OrderedDict.Get(r.results.value, AgentKey(agents[i])) == Some(CountAt(t, agents, plans, i))
    ensures r.results.Ok? ==> r.table == TableAfter(t, agents, plans, |agents|)
    ensures r.results.Err? ==> r.table == TableAfter(t, agents, plans, FirstUnhashable(agents))
  {
    SyncFrom([], t, agents, plans)
  }

  /** An agent id is a key of the result iff some listed agent carries it
      as a truthy id. */
  lemma SyncAllKeys(t: ConversationDb.Table, agents: seq<Object>, plans: seq<AgentPlan>, v: Value)
    requires PlansFit(agents, plans) && KeysHashable(agents)
    ensures SyncAll(t, agents, plans).results.Ok?
    ensures v in OrderedDict.KeySet(SyncAll(t, agents, plans).results.value)
            <==> exists i :: 0 <= i < |agents| && Truthy(AgentKey(agents[i])) && AgentKey(agents[i]) == v
  {
    TruthyIdsAre(agents);
  }
}

=== FILE: text.dfy ===
/** Strings as the modelled Python code sees them: `seq<char>` with the
    handful of `str` methods the core uses (lower, strip, split, startswith,
    endswith, `in`, join, line iteration) and Python's ordering on strings.

    `str.isalnum` and `str.lower` are restricted to ASCII; `str.strip()`
    uses Python's full whitespace set.
 */
module Text {
  import opened Wrappers
  import opened Seqs

  /** Python truthiness of an optional string: present and non-empty. */
  predicate Given(s: Option<string>)
  {
    s.Some? && s.value != []
  }

  predicate IsUpper(c: char) { 'A' <= c <= 'Z' }

  predicate IsLowerLetter(c: char) { 'a' <= c <= 'z' }

  predicate IsDigit(c: char) { '0' <= c <= '9' }

  /** `str.isalnum` on one character, restricted to ASCII letters and digits. */
  predicate IsAlnum(c: char) { IsUpper(c) || IsLowerLetter(c) || IsDigit(c) }

  /** The characters `str.strip()` with no argument removes. */
  predicate IsSpace(c: char)
  {
    var n := c as int;
    n == 32 || 9 <= n <= 13 || 28 <= n <= 31 || n == 0x85 || n == 0xA0
    || n == 0x1680 || 0x2000 <= n <= 0x200A || n == 0x2028 || n == 0x2029
    || n == 0x202F || n == 0x205F || n == 0x3000
  }

  /** `str.lower()` on one character. */
  function LowerChar(c: char): (d: char)
    ensures !IsUpper(d)
    ensures IsAlnum(d) <==> IsAlnum(c)
    ensures !IsUpper(c) ==> d == c
    ensures IsUpper(c) ==> IsLowerLetter(d) && d as int == c as int + 32
  {
    if IsUpper(c) then (c as int + 32) as char else c
  }

  /** `str.lower()`: same length, no upper-case letter left, every other
      character kept. */
  function Lower(s: string): (r: string)
    ensures |r| == |s|
    ensures forall i :: 0 <= i < |r| ==> !IsUpper(r[i])
    ensures forall i :: 0 <= i < |s| && !IsUpper(s[i]) ==> r[i] == s[i]
    ensures forall i :: 0 <= i < |s| && IsUpper(s[i]) ==> IsLowerLetter(r[i]) && r[i] as int == s[i] as int + 32
  {
    seq(|s|, i requires 0 <= i < |s| => LowerChar(s[i]))
  }

  predicate StartsWith(s: string, prefix: string)
  {
    |prefix| <= |s| && s[..|prefix|] == prefix
  }

  predicate EndsWith(s: string, suffix: string)
  {
    |suffix| <= |s| && s[|s| - |suffix|..] == suffix
  }

  /** Python's `needle in hay` on strings. */
  predicate Contains(hay: string, needle: string)
  {
    exists i :: 0 <= i <= |hay| - |needle| && OccursAt(hay, needle, i)
  }

  predicate OccursAt(hay: string, needle: string, i: int)
    requires 0 <= i <= |hay| - |needle|
  {
    hay[i..i + |needle|] == needle
  }

  lemma ContainsMiddle(a: string, b: string, c: string)
    ensures Contains(a + b + c, b)
  {
    var s := a + b + c;
    assert OccursAt(s, b, |a|);
  }

  /** A text keeps what its end contains. */
  lemma ContainsRight(a: string, b: string, needle: string)
    requires Contains(b, needle)
    ensures Contains(a + b, needle)
  {
    var i :| 0 <= i <= |b| - |needle| && OccursAt(b, needle, i);
    assert (a + b)[|a| + i..|a| + i + |needle|] == b[i..i + |needle|];
    assert OccursAt(a + b, needle, |a| + i);
  }

  /** Number of occurrences of `c` in `s`. */
  function CountChar(s: string, c: char): (n: nat)
    ensures n <= |s|
    ensures n == 0 <==> c !in s
  {
    if s == [] then 0
    else (if s[0] == c then 1 else 0) + CountChar(s[1..], c)
  }

  lemma {:induction false} CountCharConcat(a: string, b: string, c: char)
    ensures CountChar(a + b, c) == CountChar(a, c) + CountChar(b, c)
  {
    if a == [] {
      assert a + b == b;
    } else {
      assert (a + b)[1..] == a[1..] + b;
      CountCharConcat(a[1..], b, c);
    }
  }

  /** A character that does not occur in `s` cannot be part of a substring of it. */
  lemma AbsentCharExcludesSubstring(s: string, w: string, c: char)
    requires c in w && c !in s
    ensures !Contains(s, w)
  {
    var j :| 0 <= j < |w| && w[j] == c;
    forall i | 0 <= i <= |s| - |w|
      ensures !OccursAt(s, w, i)
    {
      assert s[i..i + |w|][j] == s[i + j];
      assert s[i + j] in s;
    }
  }

  /** `s.split(sep, 1)`: None when `sep` does not occur (the two-name
      unpacking in the source then raises), else the text before and after
      the first `sep`. */
  function SplitOnce(s: string, sep: char): (r: (string, string))
    requires sep in s
    ensures r.0 + [sep] + r.1 == s
    ensures sep !in r.0
  {
    var k := FirstIndex(s, sep);
    assert s == s[..k] + [sep] + s[k + 1..];
    (s[..k], s[k + 1..])
  }

  /** The split is the one at the first `sep`: splitting `a + [sep] + b`
      gives back `a` and `b` when `a` holds no `sep`. */
  lemma SplitOnceOf(a: string, sep: char, b: string)
    requires sep !in a
    ensures sep in a + [sep] + b
    ensures SplitOnce(a + [sep] + b, sep) == (a, b)
  {
    var s := a + [sep] + b;
    assert s[|a|] == sep;
    assert forall j :: 0 <= j < |a| ==> s[j] == a[j];
    assert FirstIndex(s, sep) == |a|;
    assert s[..|a|] == a && s[|a| + 1..] == b;
  }

  /** `s.split(sep)[0]` for a non-empty `sep`: the text before the first
      occurrence of `sep`, or all of `s`. */
  function BeforeFirst(s: string, sep: string): (r: string)
    requires sep != []
    ensures |r| <= |s| && r == s[..|r|]
    decreases |s|
  {
    if |s| < |sep| then s
    else if s[..|sep|] == sep then []
    else [s[0]] + BeforeFirst(s[1..], sep)
  }

  /** Splitting `a + sep + c` gives back `a` when no occurrence of `sep`
      starts inside `a`. */
  lemma {:induction false} BeforeFirstOf(a: string, sep: string, c: string)
    requires sep != []
    requires forall i :: 0 <= i < |a| ==> !StartsWith((a + sep)[i..], sep)
    ensures BeforeFirst(a + sep + c, sep) == a
    decreases |a|
  {
    var s := a + sep + c;
    if a == [] {
      assert s[..|sep|] == sep;
    } else {
      assert (a + sep)[0..] == a + sep;
      assert (a + sep)[..|sep|] == s[..|sep|];
      forall i | 0 <= i < |a[1..]|
        ensures !StartsWith((a[1..] + sep)[i..], sep)
      {
        assert (a[1..] + sep)[i..] == (a + sep)[i + 1..];
      }
      BeforeFirstOf(a[1..], sep, c);
      assert s[1..] == a[1..] + sep + c;
    }
  }

  /** `s.replace(pat, '')`: occurrences removed left to right. What is
      removed is whole copies of the pattern (RemoveAllAtFirst); a
      one-character pattern leaves none behind. */
  function RemoveAll(s: string, pat: string): (r: string)
    requires pat != []
    ensures |r| <= |s|
    ensures |pat| == 1 ==> forall k :: 0 <= k < |r| ==> r[k] != pat[0]
    decreases |s|
  {
    if |s| < |pat| then s
    else if s[..|pat|] == pat then RemoveAll(s[|pat|..], pat)
    else [s[0]] + RemoveAll(s[1..], pat)
  }

  /** The leftmost occurrence goes, the text before it is kept, and the
      search resumes after it; with RemoveAllAbsent this pins down the
      result for every input. */
  lemma {:induction false} RemoveAllAtFirst(s: string, pat: string, i: nat)
    requires pat != [] && i <= |s| - |pat| && OccursAt(s, pat, i)
    requires forall j :: 0 <= j < i ==> !OccursAt(s, pat, j)
    ensures RemoveAll(s, pat) == s[..i] + RemoveAll(s[i + |pat|..], pat)
    decreases i
  {
    if i == 0 {
      assert s[..|pat|] == pat;
      assert s[..i] == [];
    } else {
      var t := s[1..];
      assert s[..|pat|] != pat by {
        assert !OccursAt(s, pat, 0);
      }
      var rest := RemoveAll(s[i + |pat|..], pat);
      OccursAtTail(s, pat, i);
      RemoveAllAtFirst(t, pat, i - 1);
      assert t[i - 1 + |pat|..] == s[i + |pat|..];
      calc {
        RemoveAll(s, pat);
        [s[0]] + RemoveAll(t, pat);
        [s[0]] + (t[..i - 1] + rest);
        { AppendAssoc([s[0]], t[..i - 1], rest); }
        ([s[0]] + t[..i - 1]) + rest;
        { assert [s[0]] + t[..i - 1] == s[..i]; }
        s[..i] + rest;
      }
    }
  }

  /** Occurrences after the first character, seen from the tail. */
  lemma OccursAtTail(s: string, pat: string, i: nat)
    requires 0 < i <= |s| - |pat| && OccursAt(s, pat, i)
    requires forall j :: 0 <= j < i ==> !OccursAt(s, pat, j)
    ensures OccursAt(s[1..], pat, i - 1)
    ensures forall j :: 0 <= j < i - 1 ==> !OccursAt(s[1..], pat, j)
  {
    forall j | 0 <= j < i
      ensures OccursAt(s[1..], pat, j) <==> OccursAt(s, pat, j + 1)
    {
      assert s[1..][j..j + |pat|] == s[j + 1..j + 1 + |pat|];
    }
  }

  /** Removing a pattern that does not occur changes nothing. */
  lemma {:induction false} RemoveAllAbsent(s: string, pat: string)
    requires pat != [] && !Contains(s, pat)
    ensures RemoveAll(s, pat) == s
    decreases |s|
  {
    if |s| >= |pat| {
      assert !OccursAt(s, pat, 0);
      forall i | 0 <= i <= |s[1..]| - |pat|
        ensures !OccursAt(s[1..], pat, i)
      {
        assert s[1..][i..i + |pat|] == s[i + 1..i + 1 + |pat|];
        assert !OccursAt(s, pat, i + 1);
      }
      RemoveAllAbsent(s[1..], pat);
    }
  }

  /** `s.split(sep)[1]`: the text between the first and the second `sep`
      (or to the end when there is no second one). */
  function SecondField(s: string, sep: char): (r: string)
    requires sep in s
    ensures sep !in r
    ensures var after := SplitOnce(s, sep).1;
            |r| <= |after| && after[..|r|] == r && (|r| == |after| || after[|r|] == sep)
  {
    var after := SplitOnce(s, sep).1;
    after[..FirstIndex(after, sep)]
  }

  /** Splitting `a + [sep] + r + b`, with no `sep` in `a` or `r` and `b`
      empty or starting at the next `sep`, gives `r` as the second field. */
  lemma SecondFieldOf(a: string, sep: char, r: string, b: string)
    requires sep !in a && sep !in r
    requires b == [] || b[0] == sep
    ensures sep in a + [sep] + r + b
    ensures SecondField(a + [sep] + r + b, sep) == r
  {
    var s := a + [sep] + r + b;
    assert s == a + [sep] + (r + b);
    SplitOnceOf(a, sep, r + b);
    var after := r + b;
    assert forall j :: 0 <= j < |r| ==> after[j] == r[j];
    assert |r| < |after| ==> after[|r|] == sep;
    assert FirstIndex(after, sep) == |r|;
    assert after[..|r|] == r;
  }

  function TrimStart(s: string, drop: char -> bool): (r: string)
    ensures |r| <= |s| && r == s[|s| - |r|..]
    ensures r == [] || !drop(r[0])
    ensures forall k :: 0 <= k < |s| - |r| ==> drop(s[k])
  {
    if |s| > 0 && drop(s[0]) then
      var r := TrimStart(s[1..], drop);
      assert s[1..][|s| - 1 - |r|..] == s[|s| - |r|..];
      assert forall k :: 1 <= k < |s| - |r| ==> s[k] == s[1..][k - 1];
      r
    else s
  }

  function TrimEnd(s: string, drop: char -> bool): (r: string)
    ensures |r| <= |s| && r == s[..|r|]
    ensures r == [] || !drop(r[|r| - 1])
    ensures forall k :: |r| <= k < |s| ==> drop(s[k])
  {
    if |s| > 0 && drop(s[|s| - 1]) then TrimEnd(s[..|s| - 1], drop) else s
  }

  /** Python's `strip`: drop leading and trailing characters satisfying `drop`. */
  function Trim(s: string, drop: char -> bool): (r: string)
    ensures r == [] || (!drop(r[0]) && !drop(r[|r| - 1]))
    ensures |r| <= |s|
  {
    TrimEnd(TrimStart(s, drop), drop)
  }

  /** A string whose two ends are kept by `drop` is its own strip. */
  lemma TrimKeeps(s: string, drop: char -> bool)
    requires s == [] || (!drop(s[0]) && !drop(s[|s| - 1]))
    ensures Trim(s, drop) == s
  {
  }

  /** Stripping a string followed by one dropped character. */
  lemma TrimDropsLast(s: string, c: char, drop: char -> bool)
    requires drop(c)
    requires s == [] || (!drop(s[0]) && !drop(s[|s| - 1]))
    ensures Trim(s + [c], drop) == s
  {
    if s == [] {
      assert TrimStart([c], drop) == [];
    } else {
      assert TrimStart(s + [c], drop) == s + [c];
      assert (s + [c])[..|s + [c]| - 1] == s;
    }
  }

  /** `str.strip()` with no argument. */
  function Strip(s: string): string
  {
    Trim(s, IsSpace)
  }

  /** `str.strip(ch)` for a one-character argument. */
  function StripChar(s: string, ch: char): (r: string)
    ensures r == [] || (r[0] != ch && r[|r| - 1] != ch)
  {
    Trim(s, c => c == ch)
  }

  /** Stripping a string wrapped in one dropped character on each side. */
  lemma TrimSurrounded(s: string, c: char, drop: char -> bool)
    requires drop(c)
    requires s == [] || (!drop(s[0]) && !drop(s[|s| - 1]))
    ensures Trim([c] + s + [c], drop) == s
  {
    var t := [c] + s + [c];
    assert t[1..] == s + [c];
    if s == [] {
      assert TrimStart([c], drop) == [];
      assert TrimStart(t, drop) == [];
    } else {
      assert (s + [c])[0] == s[0];
      assert TrimStart(s + [c], drop) == s + [c];
      assert TrimStart(t, drop) == s + [c];
      assert (s + [c])[..|s + [c]| - 1] == s;
    }
  }

  /** `''.join(parts)`. */
  function Concat(parts: seq<string>): (r: string)
    ensures |r| >= (if parts == [] then 0 else |parts[0]|)
  {
    if parts == [] then "" else parts[0] + Concat(parts[1..])
  }

  /** One line as a text file iteration yields it: ends in its only `\n`. */
  predicate CompleteLine(l: string)
  {
    |l| > 0 && l[|l| - 1] == '\n' && '\n' !in l[..|l| - 1]
  }

  /** Complete lines written one after another are read back one by one. */
  lemma {:induction false} LinesOfConcat(pre: seq<string>, rest: string)
    requires forall i :: 0 <= i < |pre| ==> CompleteLine(pre[i])
    ensures Lines(Concat(pre) + rest) == pre + Lines(rest)
  {
    if pre != [] {
      LinesOfConcat(pre[1..], rest);
      LinesOfLine(pre[0], Concat(pre[1..]) + rest);
      AppendAssoc(pre[0], Concat(pre[1..]), rest);
      AppendAssoc([pre[0]], pre[1..], Lines(rest));
      assert [pre[0]] + pre[1..] == pre;
    } else {
      assert Concat(pre) + rest == rest;
    }
  }

  /** A complete line in front of a text is read back as the first line. */
  lemma LinesOfLine(l: string, tail: string)
    requires CompleteLine(l)
    ensures Lines(l + tail) == [l] + Lines(tail)
  {
    var body := l[..|l| - 1];
    assert l == body + "\n";
    LinesCons(body, tail);
  }

  /** `sep.join(parts)`. */
  function Join(sep: string, parts: seq<string>): string
  {
    if parts == [] then ""
    else if |parts| == 1 then parts[0]
    else parts[0] + sep + Join(sep, parts[1..])
  }

  /** Iterating over a text file in Python: every line keeps its `\n`,
      and a final line without one is yielded when non-empty. */
  function Lines(t: string): (r: seq<string>)
    decreases |t|
  {
    if t == [] then []
    else
      var k := FirstIndex(t, '\n');
      if k == |t| then [t] else [t[..k + 1]] + Lines(t[k + 1..])
  }

  /** `str(b)` for a Python bool. */
  function PyBool(b: bool): string
  {
    if b then "True" else "False"
  }

  /** Reading a file in text mode: `\r\n` and a lone `\r` both become `\n`. */
  function ReadText(t: string): (r: string)
    ensures '\r' !in r
    ensures '\r' !in t ==> r == t
  {
    if t == [] then []
    else if t[0] == '\r' then
      if |t| > 1 && t[1] == '\n' then "\n" + ReadText(t[2..]) else "\n" + ReadText(t[1..])
    else [t[0]] + ReadText(t[1..])
  }

  lemma LinesCons(line: string, rest: string)
    requires '\n' !in line
    ensures Lines(line + "\n" + rest) == [line + "\n"] + Lines(rest)
  {
    var t := line + "\n" + rest;
    var k := FirstIndex(t, '\n');
    assert forall j :: 0 <= j < |line| ==> t[j] == line[j];
    assert t[|line|] == '\n';
    assert k == |line|;
    assert t[..k + 1] == line + "\n";
    assert t[k + 1..] == rest;
  }

  function Digit(d: nat): (c: char)
    requires d < 10
    ensures IsDigit(c)
  {
    ('0' as int + d) as char
  }

  /** The number a string of decimal digits denotes, read left to right. */
  function DigitsValue(s: string): nat
    requires forall i :: 0 <= i < |s| ==> IsDigit(s[i])
  {
    if s == [] then 0
    else
      var last := s[|s| - 1];
      assert IsDigit(last);
      10 * DigitsValue(s[..|s| - 1]) + (last as int - '0' as int)
  }

  /** The decimal digits of `n`, with no leading zero. */
  function NatToString(n: nat): (r: string)
    ensures |r| > 0
    ensures forall i :: 0 <= i < |r| ==> IsDigit(r[i])
    ensures DigitsValue(r) == n
    ensures |r| > 1 ==> r[0] != '0'
    decreases n
  {
    if n < 10 then [Digit(n)] else NatToString(n / 10) + [Digit(n % 10)]
  }

  /** `str(i)` for a Python int: decimal digits, `-` in front of a negative. */
  function IntToString(i: int): (r: string)
    ensures |r| > 0
    ensures forall k :: 0 <= k < |r| ==> IsDigit(r[k]) || (k == 0 && r[k] == '-')
    ensures r[0] == '-' <==> i < 0
    ensures i >= 0 ==> DigitsValue(r) == i && (|r| > 1 ==> r[0] != '0')
    ensures i < 0 ==> DigitsValue(r[1..]) == -i && (|r| > 2 ==> r[1] != '0')
  {
    if i < 0 then "-" + NatToString(-i) else NatToString(i)
  }

  /** Python's `a <= b` on strings: lexicographic by code point. */
  predicate LexLe(a: string, b: string)
    decreases |a|
  {
    |a| == 0 || (|b| > 0 && (a[0] < b[0] || (a[0] == b[0] && LexLe(a[1..], b[1..]))))
  }

  lemma {:induction false} LexTotal(a: string, b: string)
    ensures LexLe(a, b) || LexLe(b, a)
    decreases |a|
  {
    if |a| > 0 && |b| > 0 && a[0] == b[0] {
      LexTotal(a[1..], b[1..]);
    }
  }

  lemma {:induction false} LexTransitive(a: string, b: string, c: string)
    requires LexLe(a, b) && LexLe(b, c)
    ensures LexLe(a, c)
    decreases |a|
  {
    if |a| > 0 && a[0] == b[0] && b[0] == c[0] {
      LexTransitive(a[1..], b[1..], c[1..]);
    }
  }

  lemma {:induction false} LexAntisymmetric(a: string, b: string)
    requires LexLe(a, b) && LexLe(b, a)
    ensures a == b
    decreases |a|
  {
    if |a| > 0 {
      LexAntisymmetric(a[1..], b[1..]);
      assert a == [a[0]] + a[1..] && b == [b[0]] + b[1..];
    }
  }

  /** A set has at most one least string. */
  lemma LexLeastUnique(s: set<string>)
    ensures forall m1, m2 :: m1 in s && m2 in s && LexLe(m1, m2) && LexLe(m2, m1) ==> m1 == m2
  {
    forall m1, m2 | m1 in s && m2 in s && LexLe(m1, m2) && LexLe(m2, m1)
      ensures m1 == m2
    {
      LexAntisymmetric(m1, m2);
    }
  }

  /** Every non-empty set of strings has a least element. */
  lemma {:induction false} LexMinExists(s: set<string>)
    requires s != {}
    ensures exists m :: m in s && forall y :: y in s ==> LexLe(m, y)
    decreases |s|
  {
    var x :| x in s;
    LexTotal(x, x);
    if s != {x} {
      LexMinExists(s - {x});
      var m :| m in s - {x} && forall y :: y in s - {x} ==> LexLe(m, y);
      LexTotal(m, x);
      if !LexLe(m, x) {
        forall y | y in s
          ensures LexLe(x, y)
        {
          if y != x {
            LexTransitive(x, m, y);
          }
        }
      }
    }
  }

  /** The strings of a set in increasing order. */
  function SortedStrings(s: set<string>): (r: seq<string>)
    ensures |r| == |s|
    ensures forall x :: x in r <==> x in s
    ensures forall i, j :: 0 <= i < j < |r| ==> LexLe(r[i], r[j])
    decreases |s|
  {
    if s == {} then []
    else
      LexMinExists(s);
      LexLeastUnique(s);
      var m :| m in s && forall y :: y in s ==> LexLe(m, y);
      [m] + SortedStrings(s - {m})
  }
}

=== FILE: uat.dfy ===
/** The user-acceptance run of the Letta–Gemini integration: the result
    accumulator, its summary, the three test suites with every remote call
    replaced by the outcome it produced, and the script's exit status.
 */
module Uat {
  import opened Wrappers
  import opened Text
  import opened Json
  import AgentConfig

  const Pass := "PASS"
  const Fail := "FAIL"

  /** One entry of `test_results`. */
  datatype Entry = Entry(testName: string, result: string, details: string)

  /** `UAT_Results`. */
  datatype Results = Results(testsRun: nat, testsPassed: nat, testsFailed: nat, testResults: seq<Entry>)

  const Fresh := Results(0, 0, 0, [])

  /** The number of entries marked as passing. */
  function Passes(entries: seq<Entry>): nat
  {
    if entries == [] then 0
    else Passes(entries[..|entries| - 1]) + (if entries[|entries| - 1].result == Pass then 1 else 0)
  }

  /** The accumulator's invariant: every test run is counted once as passed
      or failed, has one entry, and the passing entries are the passed
      tests. */
  predicate Consistent(r: Results)
  {
    r.testsRun == r.testsPassed + r.testsFailed
    && |r.testResults| == r.testsRun
    && r.testsPassed == Passes(r.testResults)
    && forall i :: 0 <= i < |r.testResults| ==> r.testResults[i].result == Pass || r.testResults[i].result == Fail
  }

  /** `record_test`. */
  function RecordTest(r: Results, name: string, passed: bool, details: string): (r': Results)
    ensures r'.testsRun == r.testsRun + 1
    ensures |r'.testResults| == |r.testResults| + 1 && r'.testResults[..|r.testResults|] == r.testResults
    ensures r'.testResults[|r.testResults|].testName == name
    ensures r'.testResults[|r.testResults|].result == Pass <==> passed
    ensures r'.testsFailed == r.testsFailed + (if passed then 0 else 1)
    ensures Consistent(r) ==> Consistent(r')
  {
    var entries := r.testResults + [Entry(name, if passed then Pass else Fail, details)];
    assert entries[..|r.testResults|] == r.testResults;
    if passed then Results(r.testsRun + 1, r.testsPassed + 1, r.testsFailed, entries)
    else Results(r.testsRun + 1, r.testsPassed, r.testsFailed + 1, entries)
  }

  /** One recorded test: what a suite hands to `record_test`. */
  datatype Outcome = Outcome(name: string, passed: bool, details: string)

  function EntryOf(o: Outcome): Entry
  {
    Entry(o.name, if o.passed then Pass else Fail, o.details)
  }

  /** An entry is a pass exactly when its test passed. */
  lemma EntryPasses(o: Outcome)
    ensures EntryOf(o).result == Pass <==> o.passed
  {
    assert Pass[0] != Fail[0];
  }

  /** Every entry is a pass. */
  predicate AllPass(entries: seq<Entry>)
  {
    forall i :: 0 <= i < |entries| ==> entries[i].result == Pass
  }

  /** The entries `record_test` appends for a run of outcomes. */
  function Entries(os: seq<Outcome>): (es: seq<Entry>)
    ensures |es| == |os|
  {
    if os == [] then [] else Entries(os[..|os| - 1]) + [EntryOf(os[|os| - 1])]
  }

  /** Entry `i` records outcome `i`. */
  lemma {:induction false} EntriesAt(os: seq<Outcome>, i: nat)
    requires i < |os|
    ensures Entries(os)[i] == EntryOf(os[i])
    decreases |os|
  {
    if i < |os| - 1 {
      EntriesAt(os[..|os| - 1], i);
    }
  }

  /** The number of failed outcomes. */
  function Failures(os: seq<Outcome>): nat
  {
    if os == [] then 0 else Failures(os[..|os| - 1]) + (if os[|os| - 1].passed then 0 else 1)
  }

  /** At most every outcome fails, and none does exactly when every entry
      is a pass. */
  lemma {:induction false} FailuresCount(os: seq<Outcome>)
    ensures Failures(os) <= |os|
    ensures Failures(os) == 0 <==> AllPass(Entries(os))
    decreases |os|
  {
    if os != [] {
      var init := os[..|os| - 1];
      FailuresCount(init);
      var es := Entries(os);
      assert es == Entries(init) + [EntryOf(os[|os| - 1])];
      assert es[..|init|] == Entries(init);
      EntryPasses(os[|os| - 1]);
      assert AllPass(es) <==> AllPass(Entries(init)) && es[|init|].result == Pass;
    }
  }

  /** A fresh accumulator after recording outcomes one after the other. */
  function RecordAll(os: seq<Outcome>): Results
  {
    if os == [] then Fresh
    else
      var last := os[|os| - 1];
      RecordTest(RecordAll(os[..|os| - 1]), last.name, last.passed, last.details)
  }

  /** Recording keeps the accumulator's invariant. */
  lemma {:induction false} RecordAllConsistent(os: seq<Outcome>)
    ensures Consistent(RecordAll(os))
    decreases |os|
  {
    if os != [] {
      RecordAllConsistent(os[..|os| - 1]);
    } else {
      assert Consistent(Fresh);
    }
  }

  /** Every outcome is counted as a run test. */
  lemma {:induction false} RecordAllRuns(os: seq<Outcome>)
    ensures RecordAll(os).testsRun == |os|
    decreases |os|
  {
    if os != [] {
      RecordAllRuns(os[..|os| - 1]);
    }
  }

  /** The failures counted are the failed outcomes. */
  lemma {:induction false} RecordAllFailures(os: seq<Outcome>)
    ensures RecordAll(os).testsFailed == Failures(os)
    decreases |os|
  {
    if os != [] {
      RecordAllFailures(os[..|os| - 1]);
    }
  }

  /** One entry per outcome, in order. */
  lemma {:induction false} RecordAllEntries(os: seq<Outcome>)
    ensures RecordAll(os).testResults == Entries(os)
    decreases |os|
  {
    if os != [] {
      RecordAllEntries(os[..|os| - 1]);
    }
  }

  /** `pass_percentage`: the integer 0 when no test ran, otherwise the
      ratio `passed / run * 100`, kept as the pair it is computed from. */
  datatype Percentage = NoTests | Ratio(passed: nat, run: nat)

  function PercentageOf(r: Results): (p: Percentage)
    ensures p.NoTests? <==> r.testsRun == 0
    ensures Consistent(r) && p.Ratio? ==> 0 < p.run && 0 <= 100 * p.passed <= 100 * p.run
    ensures Consistent(r) && p.Ratio? ==> (p.passed == p.run <==> r.testsFailed == 0)
  {
    if r.testsRun > 0 then Ratio(r.testsPassed, r.testsRun) else NoTests
  }

  datatype Summary = Summary(testsRun: nat, testsPassed: nat, testsFailed: nat,
                             passPercentage: Percentage, testResults: seq<Entry>)

  /** `get_summary`: the counters and entries as recorded, and a
      percentage within [0, 100] that is 100 exactly when nothing failed. */
  function GetSummary(r: Results): (s: Summary)
    ensures s.testsRun == |s.testResults| <== Consistent(r)
    ensures s.testsRun == s.testsPassed + s.testsFailed <== Consistent(r)
    ensures s.testResults == r.testResults && s.testsFailed == r.testsFailed
    ensures s.passPercentage == PercentageOf(r)
  {
    Summary(r.testsRun, r.testsPassed, r.testsFailed, PercentageOf(r), r.testResults)
  }

  // ---- Test names and the texts recorded with them ----

  const ConnectivityTest := "Letta Server Connectivity"
  const AdeUiTest := "Letta ADE UI Availability"
  const ClientTest := "Gemini API Client Initialization"
  const SimpleTest := "Gemini API Simple Response"
  const ChatTest := "Gemini API Chat Session"

  const ErrorPrefix := "Error: "
  const StatusPrefix := "Status code: "
  const KeyMissing := "API key isnot configured in environment"
  const KeyPresent := "API key is configured in environment"
  const ClientReady := "Successfully initialized GeminiAPI client"
  const SimpleVerdict := "Response contains expected information about Paris: "
  const ChatVerdict := "Chat memory working: "
  const TestDescription := "Test agent for UAT"
  const TestPrompt := "You are a test agent for the Letta-Gemini integration UAT."
  const ConfigVerdict := "Valid agent configuration: "
  const CreatorReady := "Successfully initialized LettaAgentCreator"
  const LoginDone := "Successfully logged in to Letta ADE"

  /** What a probe of the Letta server gave: a status code or an
      exception's text. */
  datatype Response = Status(code: int) | Raised(error: string)

  /** What a step that yields a yes/no verdict gave: the verdict or an
      exception's text. */
  datatype Check = Checked(ok: bool) | Failed(error: string)

  function ProbeOutcome(name: string, r: Response): Outcome
  {
    match r
    case Status(code) => Outcome(name, code == 200, StatusPrefix + IntToString(code))
    case Raised(e) => Outcome(name, false, ErrorPrefix + e)
  }

  function CheckOutcome(name: string, c: Check, what: string): Outcome
  {
    match c
    case Checked(ok) => Outcome(name, ok, what + PyBool(ok))
    case Failed(e) => Outcome(name, false, ErrorPrefix + e)
  }

  /** `test_letta_server`: two probes of the server's root. */
  function ServerTests(connectivity: Response, adeUi: Response): (os: seq<Outcome>)
    ensures |os| == 2
    ensures os[0].passed <==> connectivity == Status(200)
    ensures os[1].passed <==> adeUi == Status(200)
  {
    [ProbeOutcome(ConnectivityTest, connectivity), ProbeOutcome(AdeUiTest, adeUi)]
  }

  const KeyTest := "Gemini API Key Available"

  /** `test_gemini_api`. `apiKey` is the environment variable; a client
      error is the text of the exception the client's constructor raised;
      `simple` and `chat` are the verdicts of the two generation tests. */
  function GeminiTests(apiKey: Option<string>, clientError: Option<string>, simple: Check, chat: Check): (os: seq<Outcome>)
    ensures |os| > 0 && os[0].name == KeyTest && (os[0].passed <==> Given(apiKey))
    ensures !Given(apiKey) ==> |os| == 1
  {
    if !Given(apiKey) then
      [Outcome(KeyTest, false, KeyMissing)]
    else
      var key := Outcome(KeyTest, true, KeyPresent);
      match clientError
      case Some(e) => [key, Outcome(ClientTest, false, ErrorPrefix + e)]
      case None =>
        [key, Outcome(ClientTest, true, ClientReady),
         CheckOutcome(SimpleTest, simple, SimpleVerdict),
         CheckOutcome(ChatTest, chat, ChatVerdict)]
  }

  const ConfigTest := "Letta Agent Configuration Generation"

  /** The configuration the UAT asks for, named after the clock. */
  function TestAgent(now: nat): AgentConfig.Agent
  {
    AgentConfig.Agent("Test Agent " + NatToString(now), TestDescription,
                      TestPrompt,
                      AgentConfig.Settings(Some("gemini-2.0-flash"), Some(Float("0.7")), None, None))
  }

  /** Every outcome of the configuration test in `os` is a pass. */
  predicate ConfigPasses(os: seq<Outcome>)
  {
    forall i :: 0 <= i < |os| && os[i].name == ConfigTest ==> os[i].passed
  }

  /** The configuration test: build the test agent's configuration and
      check it the way the UAT does. It always passes, because the builder
      names the configuration after the agent and fixes the provider. */
  function ConfigOutcome(now: nat): (o: Outcome)
    ensures o.name == ConfigTest && o.passed
  {
    var agent := TestAgent(now);
    var valid := AgentConfig.UatAccepts(AgentConfig.Build(agent), agent.name);
    Outcome(ConfigTest, valid, ConfigVerdict + PyBool(valid))
  }

  const InitTest := "Letta Agent Creator Initialization"
  const LoginTest := "Letta ADE Login"

  /** The login step, run when both credentials are truthy; whether the
      configuration check follows it. */
  function LoginOutcomes(username: Option<string>, password: Option<string>, login: Check): (r: (seq<Outcome>, bool))
    ensures forall i :: 0 <= i < |r.0| ==> r.0[i].name == LoginTest
    ensures r.1 <==> !(Given(username) && Given(password)) || login == Checked(true)
  {
    if Given(username) && Given(password) then
      match login
      case Checked(ok) => ([Outcome(LoginTest, ok, LoginDone)], ok)
      case Failed(e) => ([Outcome(LoginTest, false, ErrorPrefix + e)], false)
    else ([], true)
  }

  /** The creator's constructor: a pass, or the error it raised. */
  function InitOutcome(creatorError: Option<string>): (o: Outcome)
    ensures o.name == InitTest && (o.passed <==> creatorError.None?)
  {
    match creatorError
    case Some(e) => Outcome(InitTest, false, ErrorPrefix + e)
    case None => Outcome(InitTest, true, CreatorReady)
  }

  /** `test_letta_agent_creation`: the creator's constructor, a login when
      both credentials are truthy, then the configuration check unless the
      login failed. */
  function CreationTests(creatorError: Option<string>, username: Option<string>, password: Option<string>,
                         login: Check, now: nat): (os: seq<Outcome>)
    ensures |os| > 0 && os[0] == InitOutcome(creatorError)
    ensures ConfigPasses(os)
  {
    var init := InitOutcome(creatorError);
    if creatorError.Some? then
      OtherCreationNames();
      ConcatConfigPasses([init], [], []);
      assert [init] + [] + [] == [init];
      [init]
    else
      var (tried, go) := LoginOutcomes(username, password, login);
      var rest := if go then [ConfigOutcome(now)] else [];
      OtherCreationNames();
      ConcatConfigPasses([init], tried, rest);
      [init] + tried + rest
  }

  /** Appending outcomes that are not the configuration test, or are
      passes, keeps the configuration test passing. */
  lemma ConcatConfigPasses(a: seq<Outcome>, b: seq<Outcome>, c: seq<Outcome>)
    requires forall i :: 0 <= i < |a| ==> a[i].name != ConfigTest
    requires forall i :: 0 <= i < |b| ==> b[i].name != ConfigTest
    requires forall i :: 0 <= i < |c| ==> c[i].passed
    ensures ConfigPasses(a + b + c)
  {
    forall i | 0 <= i < |a + b + c|
      ensures (a + b + c)[i].name == ConfigTest ==> (a + b + c)[i].passed
    {
      if i < |a| {
        assert (a + b + c)[i] == a[i];
      } else if i < |a| + |b| {
        assert (a + b + c)[i] == b[i - |a|];
      } else {
        assert (a + b + c)[i] == c[i - |a| - |b|];
      }
    }
  }

  lemma OtherCreationNames()
    ensures InitTest != ConfigTest && LoginTest != ConfigTest
  {
    assert |InitTest| != |ConfigTest|;
    assert |LoginTest| != |ConfigTest|;
  }

  /** Everything the remote side and the environment contributed to a run. */
  datatype Probes = Probes(connectivity: Response, adeUi: Response,
                           apiKey: Option<string>, clientError: Option<string>, simple: Check, chat: Check,
                           creatorError: Option<string>, username: Option<string>, password: Option<string>,
                           login: Check, now: nat)

  function Outcomes(p: Probes): seq<Outcome>
  {
    ServerTests(p.connectivity, p.adeUi)
    + GeminiTests(p.apiKey, p.clientError, p.simple, p.chat)
    + CreationTests(p.creatorError, p.username, p.password, p.login, p.now)
  }

  /** Recording a run's outcomes; the verdict is that no recorded test
      failed. */
  function Run(os: seq<Outcome>): (bool, Results)
  {
    var results := RecordAll(os);
    (results.testsFailed == 0, results)
  }

  /** `run_uat`: the three suites, in order, into one accumulator. The
      verdict is true exactly when every recorded test passed. */
  function RunUat(p: Probes): (r: (bool, Results))
    ensures Consistent(r.1)
    ensures r.1.testsRun == |Outcomes(p)| >= 4
    ensures r.1.testResults == Entries(Outcomes(p))
    ensures r.0 <==> AllPass(r.1.testResults)
  {
    RunVerdict(Outcomes(p));
    Run(Outcomes(p))
  }

  /** The verdict is true exactly when every recorded test passed, and the
      accumulator holds one consistent entry per test, in order. */
  lemma {:induction false} RunVerdict(os: seq<Outcome>)
    ensures var (ok, results) := Run(os);
            Consistent(results)
            && results.testsRun == |os|
            && results.testResults == Entries(os)
            && (ok <==> AllPass(results.testResults))
  {
    RecordAllConsistent(os);
    RecordAllRuns(os);
    RecordAllFailures(os);
    RecordAllEntries(os);
    FailuresCount(os);
  }

  /** A run always records at least four tests: two server probes, the key
      test and the creator's constructor. */
  lemma {:induction false} RunRecordsAtLeastFour(p: Probes)
    ensures RunUat(p).1.testsRun >= 4
  {
    RunVerdict(Outcomes(p));
  }

  /** Without an API key the run fails: the key test is recorded as failed
      and it is the only Gemini test. */
  lemma {:induction false} MissingKeyFails(p: Probes)
    requires !Given(p.apiKey)
    ensures !RunUat(p).0
  {
    var os := Outcomes(p);
    assert os[2] == GeminiTests(p.apiKey, p.clientError, p.simple, p.chat)[0];
    RunVerdict(os);
    EntriesAt(os, 2);
    EntryPasses(os[2]);
  }

  function ExitCode(success: bool): int
  {
    if success then 0 else 1
  }

  /** `main` as written: with `--output-json` it dumps the summary of a new,
      empty accumulator rather than that of the run. */
  function MainAsWritten(p: Probes, outputJson: bool): (r: (int, Option<Summary>))
    ensures r.0 == 0 <==> RunUat(p).0
    ensures r.1.Some? <==> outputJson
  {
    var (success, _) := RunUat(p);
    (ExitCode(success), if outputJson then Some(GetSummary(Fresh)) else None)
  }

  /** The saved summary reports no tests although at least four ran. */
  lemma {:induction false} SavedSummaryIsEmpty(p: Probes)
    ensures MainAsWritten(p, true).1.value.testsRun == 0
    ensures MainAsWritten(p, true).1.value.testResults == []
    ensures RunUat(p).1.testsRun >= 4
  {
    RunRecordsAtLeastFour(p);
  }

  /** `main` with the summary of the run it just made. */
  function Main(p: Probes, outputJson: bool): (r: (int, Option<Summary>))
    ensures r.1.Some? <==> outputJson
  {
    var (success, results) := RunUat(p);
    (ExitCode(success), if outputJson then Some(GetSummary(results)) else None)
  }

  /** The saved summary lists every test of the run, and the exit status is
      0 exactly when the summary reports no failure. */
  lemma {:induction false} SavedSummaryIsTheRun(p: Probes)
    ensures var (code, saved) := Main(p, true);
            saved.value.testsRun == |Outcomes(p)| == |saved.value.testResults|
            && (code == 0 <==> saved.value.testsFailed == 0)
            && (code == 0 <==> saved.value.passPercentage == Ratio(|Outcomes(p)|, |Outcomes(p)|))
  {
    RunVerdict(Outcomes(p));
    RunRecordsAtLeastFour(p);
  }
}

=== FILE: versatile_agent.dfy ===
/** The configuration handling of the versatile Gemini agent: its defaults,
    the merge of a user JSON file over them, the generation settings read
    with fallbacks, and the export that a later load reproduces.
 */
module VersatileAgent {
  import opened Wrappers
  import opened Text
  import opened Json

  const DefaultPrompt :=
    "You are a versatile AI assistant designed to help users \n"
    + "            with a wide range of tasks. Be helpful, precise, and adaptable. \n"
    + "            Provide clear, concise, and accurate information."

  /** The configuration every agent starts from. */
  const Defaults: Object :=
    map["name" := Str("VersatileGeminiAgent"),
        "description" := Str("Multipurpose AI agent powered by Google Gemini"),
        "model" := Str("gemini-2.0-flash"),
        "temperature" := Float("0.7"),
        "max_tokens" := Int(1024),
        "system_prompt" := Str(DefaultPrompt)]

  /** What opening, parsing and merging the configuration file gives: a
      JSON object; an IOError or JSONDecodeError, which the handler catches;
      or another exception, which escapes it. A file that is not valid UTF-8
      raises UnicodeDecodeError, a ValueError, and a top-level number, null,
      or a string or list that is not a sequence of pairs makes `update`
      raise TypeError or ValueError. */
  datatype ConfigRead = Loaded(record: Object) | Caught | Escaped(fault: Fault)

  /** `_load_config`: with a truthy path naming an existing file, the
      file's top-level keys override the defaults (`dict.update`). A caught
      error leaves the defaults as they are, and any other one is raised.
      `present` is `os.path.exists(path)`, `file` what reading it gives. */
  function LoadConfig(path: Option<string>, present: bool, file: ConfigRead): (r: Result<Object>)
    ensures r.Err? <==> Given(path) && present && file.Escaped?
    ensures r.Err? ==> r.fault == file.fault
    ensures !Given(path) || !present || file.Caught? ==> r == Ok(Defaults)
    ensures r.Ok? ==> r.value.Keys == Defaults.Keys + (if Given(path) && present && file.Loaded? then file.record.Keys else {})
    ensures Given(path) && present && file.Loaded? ==>
              r.Ok?
              && (forall k :: k in file.record ==> r.value[k] == file.record[k])
              && (forall k :: k in Defaults && k !in file.record ==> r.value[k] == Defaults[k])
  {
    if Given(path) && present then
      match file
      case Loaded(user) => Ok(Defaults + user)
      case Caught => Ok(Defaults)
      case Escaped(e) => Err(e)
    else Ok(Defaults)
  }

  /** Whatever was loaded, every default key is present. */
  lemma LoadedKeepsDefaultKeys(path: Option<string>, present: bool, file: ConfigRead)
    requires LoadConfig(path, present, file).Ok?
    ensures Defaults.Keys <= LoadConfig(path, present, file).value.Keys
  {
  }

  /** The settings the generative model is created with: `model`,
      `temperature` and `max_tokens` from the configuration, falling back
      to gemini-2.0-flash, 0.7 and 1024. */
  datatype Generation = Generation(model: Value, temperature: Value, maxOutputTokens: Value)

  function GenerationOf(c: Object): (g: Generation)
    ensures g.model == (if "model" in c then c["model"] else Str("gemini-2.0-flash"))
    ensures g.temperature == (if "temperature" in c then c["temperature"] else Float("0.7"))
    ensures g.maxOutputTokens == (if "max_tokens" in c then c["max_tokens"] else Int(1024))
  {
    Generation(Get(c, "model", Str("gemini-2.0-flash")), Get(c, "temperature", Float("0.7")),
               Get(c, "max_tokens", Int(1024)))
  }

  /** The fallbacks agree with the defaults, so a loaded configuration's
      settings are the file's values where it has them and the defaults
      elsewhere. */
  lemma {:induction false} GenerationOfLoaded(path: Option<string>, present: bool, file: ConfigRead)
    requires Given(path) && present && file.Loaded?
    ensures var g := GenerationOf(LoadConfig(path, present, file).value);
            g.model == Get(file.record, "model", Str("gemini-2.0-flash"))
            && g.temperature == Get(file.record, "temperature", Float("0.7"))
            && g.maxOutputTokens == Get(file.record, "max_tokens", Int(1024))
  {
    var c := LoadConfig(path, present, file).value;
    assert "model" in c && "temperature" in c && "max_tokens" in c;
  }

  /** The agent as constructed: it refuses to start without a truthy API key,
      lets an escaping configuration error through, and otherwise holds the
      loaded configuration. */
  datatype Agent = Agent(config: Object, generation: Generation)

  function Init(apiKey: Option<string>, path: Option<string>, present: bool, file: ConfigRead): (r: Result<Agent>)
    ensures !Given(apiKey) ==> r == Err(BadValue("GEMINI_API_KEY must be set"))
    ensures Given(apiKey) ==> (r.Err? <==> LoadConfig(path, present, file).Err?)
    ensures Given(apiKey) && r.Err? ==> r.fault == LoadConfig(path, present, file).fault
    ensures r.Ok? ==> r.value.config == LoadConfig(path, present, file).value
                      && r.value.generation == GenerationOf(r.value.config)
  {
    if !Given(apiKey) then Err(BadValue("GEMINI_API_KEY must be set"))
    else
      var c :- LoadConfig(path, present, file);
      Ok(Agent(c, GenerationOf(c)))
  }

  /** `export_config` writes the configuration as a JSON object, which
      reads back as that object. */
  function Export(a: Agent): (file: ConfigRead)
    ensures file.Loaded? && file.record.Keys == a.config.Keys
  {
    Loaded(a.config)
  }

  /** A configuration holding every default key loads back unchanged: the
      defaults it is merged over are all overridden. */
  lemma {:induction false} MergeOverridesAll(user: Object)
    requires Defaults.Keys <= user.Keys
    ensures Defaults + user == user
  {
    var m := Defaults + user;
    assert m.Keys == user.Keys;
    forall k | k in m
      ensures m[k] == user[k]
    {
    }
  }

  /** Loading the file an agent exported reproduces its configuration. */
  lemma {:induction false} ExportLoadRoundTrip(a: Agent, path: string, apiKey: Option<string>, p: Option<string>, present: bool, file: ConfigRead)
    requires Given(apiKey) && path != []
    requires Init(apiKey, p, present, file) == Ok(a)
    ensures LoadConfig(Some(path), true, Export(a)) == Ok(a.config)
  {
    LoadedKeepsDefaultKeys(p, present, file);
    MergeOverridesAll(a.config);
  }
}

=== FILE: windsurf_memory.dfy ===
/** The Windsurf-style memory system: four memory types, each stored as
    `<type>_<id>.json` after its type-specific keys are merged into the
    metadata; lookup by id; listing filtered by type and metadata equality,
    newest first. The uuid and the clock reading are parameters.
 */
module WindsurfMemory {
  import opened Wrappers
  import opened Text
  import opened Json
  import opened MemoryFiles

  const MemoryTypes: set<string> := {"code_context", "conversation", "project_state", "user_preference"}

  /** The metadata keys each type's store method writes. */
  function EnrichedKeys(memoryType: string): set<string>
  {
    match memoryType
    case "code_context" => {"file_path", "language", "context_lines"}
    case "conversation" => {"participants", "sentiment", "key_topics"}
    case "project_state" => {"project_name", "branch", "dependencies", "open_files"}
    case _ => {"category", "scope"}
  }

  /** The default each store method gives `content.get` for a metadata key:
      a list for the list-valued keys, `neutral` for the sentiment, `global`
      for the scope, None for the rest. */
  function EnrichmentDefault(key: string): Value
  {
    match key
    case "context_lines" | "participants" | "key_topics" | "dependencies" | "open_files" => Arr([])
    case "sentiment" => Str("neutral")
    case "scope" => Str("global")
    case _ => Null
  }

  /** The dict each `_store_*` method passes to `metadata.update`: every
      key of the type read from the content under the same name, with the
      method's default. */
  function Enrichment(memoryType: string, content: Object): (e: Object)
    requires memoryType in MemoryTypes
    ensures e.Keys == EnrichedKeys(memoryType)
    ensures forall k :: k in EnrichedKeys(memoryType) ==> e[k] == Get(content, k, EnrichmentDefault(k))
  {
    match memoryType
    case "code_context" =>
      map["file_path" := Get(content, "file_path", Null),
          "language" := Get(content, "language", Null),
          "context_lines" := Get(content, "context_lines", Arr([]))]
    case "conversation" =>
      map["participants" := Get(content, "participants", Arr([])),
          "sentiment" := Get(content, "sentiment", Str("neutral")),
          "key_topics" := Get(content, "key_topics", Arr([]))]
    case "project_state" =>
      map["project_name" := Get(content, "project_name", Null),
          "branch" := Get(content, "branch", Null),
          "dependencies" := Get(content, "dependencies", Arr([])),
          "open_files" := Get(content, "open_files", Arr([]))]
    case _ =>
      map["category" := Get(content, "category", Null),
          "scope" := Get(content, "scope", Str("global"))]
  }

  /** `(metadata or {}).update(enrichment)`: the type's keys are
      overwritten, every other caller key is kept as given. */
  function StoredMetadata(memoryType: string, content: Object, metadata: Option<Object>): (m: Object)
    requires memoryType in MemoryTypes
    ensures m.Keys == metadata.GetOr(map[]).Keys + EnrichedKeys(memoryType)
    ensures forall k :: k in EnrichedKeys(memoryType) ==> m[k] == Enrichment(memoryType, content)[k]
    ensures forall k :: k in metadata.GetOr(map[]) && k !in EnrichedKeys(memoryType) ==> m[k] == metadata.value[k]
  {
    metadata.GetOr(map[]) + Enrichment(memoryType, content)
  }

  /** The caller's own metadata argument after `create_memory` of a known
      type: `metadata or {}` hands a non-empty dict itself to the store
      method, whose `update` then changes it in place; None or an empty
      dict is left alone, since a fresh dict is enriched instead. */
  function CallerMetadataAfter(memoryType: string, content: Object, metadata: Option<Object>): (m: Option<Object>)
    requires memoryType in MemoryTypes
    ensures metadata.None? || metadata.value == map[] ==> m == metadata
    ensures metadata.Some? && metadata.value != map[] ==>
              m == Some(StoredMetadata(memoryType, content, metadata))
  {
    if metadata.Some? && |metadata.value| > 0 then Some(metadata.value + Enrichment(memoryType, content))
    else metadata
  }

  /** The record `create_memory` writes. */
  function Entry(memoryType: string, content: Object, metadata: Option<Object>, id: string, now: string): (e: Object)
    requires memoryType in MemoryTypes
    ensures e.Keys == {"id", "type", "timestamp", "content", "metadata"}
    ensures e["id"] == Str(id) && e["type"] == Str(memoryType) && e["content"] == Obj(content)
    ensures e["timestamp"] == Str(now)
    ensures e["metadata"] == Obj(StoredMetadata(memoryType, content, metadata))
  {
    map["id" := Str(id),
        "type" := Str(memoryType),
        "timestamp" := Str(now),
        "content" := Obj(content),
        "metadata" := Obj(StoredMetadata(memoryType, content, metadata))]
  }

  function FileName(memoryType: string, id: string): (name: string)
    ensures StartsWith(name, memoryType + "_")
    ensures IsJsonName(name)
    ensures Contains(name, id)
  {
    var name := memoryType + "_" + id + ".json";
    ContainsMiddle(memoryType + "_", id, ".json");
    assert name[..|memoryType + "_"|] == memoryType + "_";
    name
  }

  /** `create_memory`: an unknown type raises ValueError before anything is
      written; otherwise the returned value is the new record's id. */
  function CreateMemory(d: Dir, memoryType: string, content: Object, metadata: Option<Object>,
                        id: string, now: string, canWrite: bool): (r: Result<(string, Dir)>)
    ensures memoryType !in MemoryTypes ==> r.Err? && r.fault.BadValue?
    ensures r.Ok? <==> memoryType in MemoryTypes && canWrite
    ensures r.Ok? ==> r.value.0 == id
    ensures r.Ok? ==> File(FileName(memoryType, id), Doc(Entry(memoryType, content, metadata, id, now))) in r.value.1
    ensures r.Ok? ==> forall f :: f in d && f.name != FileName(memoryType, id) ==> f in r.value.1
    ensures r.Ok? ==> Names(r.value.1) == Names(d) + {FileName(memoryType, id)}
    ensures r.Ok? ==> forall f :: f in r.value.1 && f.name != FileName(memoryType, id) ==> f in d
  {
    if memoryType !in MemoryTypes then Err(BadValue("Invalid memory type"))
    else
      var name := FileName(memoryType, id);
      if !canWrite then Err(StorageFailure(name))
      else Ok((id, Write(d, name, Entry(memoryType, content, metadata, id, now))))
  }

  lemma CreateThenRetrieve(d: Dir, memoryType: string, content: Object, metadata: Option<Object>,
                           id: string, now: string)
    requires memoryType in MemoryTypes
    requires forall f :: f in d ==> !Contains(f.name, id)
    ensures CreateMemory(d, memoryType, content, metadata, id, now, true).Ok?
    ensures var (rid, d') := CreateMemory(d, memoryType, content, metadata, id, now, true).value;
            RetrieveById(d', rid) == Ok(Entry(memoryType, content, metadata, id, now))
  {
    WriteThenRetrieve(d, FileName(memoryType, id), Entry(memoryType, content, metadata, id, now), id);
  }

  predicate FilterGiven(filter: Option<Object>)
  {
    filter.Some? && |filter.value| > 0
  }

  /** `(not memory_type or memory['type'] == memory_type) and
      (not metadata_filter or all(memory['metadata'].get(k) == v ...))`. */
  function Keep(record: Object, memoryType: Option<string>, metadataFilter: Option<Object>): Result<bool>
  {
    var typeOk :- if !Given(memoryType) then Ok(true)
                  else if "type" !in record then Err(KeyMissing("type"))
                  else Ok(record["type"] == Str(memoryType.value));
    if !typeOk then Ok(false)
    else if !FilterGiven(metadataFilter) then Ok(true)
    else if "metadata" !in record then Err(KeyMissing("metadata"))
    else match record["metadata"]
      case Obj(md) => Ok(forall k | k in metadataFilter.value :: Get(md, k, Null) == metadataFilter.value[k])
      case _ => Err(WrongType("get"))
  }

  /** Every kept record has a timestamp (`x['timestamp']` raises KeyError
      on a missing one). */
  predicate Stamped(records: seq<Object>)
  {
    forall i :: 0 <= i < |records| ==> "timestamp" in records[i]
  }

  /** Every timestamp is a string, so the sort compares strings only. */
  predicate Sortable(records: seq<Object>)
  {
    forall i :: 0 <= i < |records| ==> "timestamp" in records[i] && records[i]["timestamp"].Str?
  }

  /** `list_memories`: every file in the directory is loaded, not only
      `.json` ones. */
  function ListMemories(d: Dir, memoryType: Option<string>, metadataFilter: Option<Object>): (r: Result<seq<Object>>)
    ensures r.Ok? ==> forall i, j :: 0 <= i < j < |r.value| ==>
                        LexLe(TimestampText(r.value[j]), TimestampText(r.value[i]))
    ensures (exists f :: f in d && f.body.Unreadable?) ==> r.Err?
  {
    UnreadableAbortsScan(d, false, r => Keep(r, memoryType, metadataFilter));
    var kept :- Scan(d, false, r => Keep(r, memoryType, metadataFilter));
    if !Stamped(kept) then Err(KeyMissing("timestamp"))
    else if !Sortable(kept) then Err(WrongType("<"))
    else Ok(NewestFirst(kept))
  }

  /** An empty metadata filter is the same as none. */
  lemma EmptyFilterIsNoFilter(d: Dir, memoryType: Option<string>)
    ensures ListMemories(d, memoryType, Some(map[])) == ListMemories(d, memoryType, None)
  {
    ScanAgrees(d, false, r => Keep(r, memoryType, Some(map[])), r => Keep(r, memoryType, None));
  }

  // ---- Reference definition of what a listing holds ----

  predicate WellFormed(record: Object)
  {
    && "type" in record
    && "timestamp" in record && record["timestamp"].Str?
    && "metadata" in record && record["metadata"].Obj?
  }

  function MetadataOf(record: Object): Object
  {
    match Get(record, "metadata", Obj(map[]))
    case Obj(md) => md
    case _ => map[]
  }

  /** The filter as a plain predicate: the type is the one asked for, and
      every filter pair is matched by the metadata, a missing key reading as
      None (JSON null). */
  predicate Matches(record: Object, memoryType: Option<string>, metadataFilter: Option<Object>)
  {
    && (!Given(memoryType) || Get(record, "type", Null) == Str(memoryType.value))
    && (metadataFilter.None? || forall k | k in metadataFilter.value :: Get(MetadataOf(record), k, Null) == metadataFilter.value[k])
  }

  lemma KeepMatches(record: Object, memoryType: Option<string>, metadataFilter: Option<Object>)
    requires WellFormed(record)
    ensures Keep(record, memoryType, metadataFilter) == Ok(Matches(record, memoryType, metadataFilter))
  {
  }

  /** A filter pair whose key the record's metadata lacks is met only by a
      None value. */
  lemma MissingKeyMatchesOnlyNull(record: Object, k: string, v: Value)
    requires k !in MetadataOf(record)
    ensures Matches(record, None, Some(map[k := v])) <==> v == Null
  {
    assert k in map[k := v];
  }

  predicate Healthy(d: Dir)
  {
    forall f :: f in d ==> f.body.Doc? && WellFormed(f.body.record)
  }

  /** On a directory of well-formed records, the listing is exactly the
      records meeting both filters, newest first. */
  lemma ListMemoriesExact(d: Dir, memoryType: Option<string>, metadataFilter: Option<Object>)
    requires Healthy(d)
    ensures ListMemories(d, memoryType, metadataFilter).Ok?
    ensures multiset(ListMemories(d, memoryType, metadataFilter).value)
            == multiset(Filter(d, false, r => Matches(r, memoryType, metadataFilter)))
  {
    var keep: Object -> Result<bool> := r => Keep(r, memoryType, metadataFilter);
    var p: Object -> bool := r => Matches(r, memoryType, metadataFilter);
    forall f | f in d && Scanned(f, false)
      ensures f.body.Doc? && keep(f.body.record) == Ok(p(f.body.record))
    {
      KeepMatches(f.body.record, memoryType, metadataFilter);
    }
    ScanIsFilter(d, false, keep, p);
    var s := Filter(d, false, p);
    HealthyFilterSortable(d, p);
    assert Scan(d, false, keep) == Ok(s);
    assert ListMemories(d, memoryType, metadataFilter) == Ok(NewestFirst(s));
  }

  /** Every record a healthy directory yields carries a text timestamp. */
  lemma HealthyFilterSortable(d: Dir, p: Object -> bool)
    requires Healthy(d)
    ensures Stamped(Filter(d, false, p)) && Sortable(Filter(d, false, p))
  {
    var s: seq<Object> := Filter(d, false, p);
    forall i | 0 <= i < |s|
      ensures "timestamp" in s[i] && s[i]["timestamp"].Str?
    {
      assert s[i] in s;
    }
  }

  /** Records written by `create_memory` are well-formed, so a directory
      holding only those lists without error. */
  lemma CreatedRecordsAreWellFormed(memoryType: string, content: Object, metadata: Option<Object>, id: string, now: string)
    requires memoryType in MemoryTypes
    ensures WellFormed(Entry(memoryType, content, metadata, id, now))
    ensures Matches(Entry(memoryType, content, metadata, id, now), Some(memoryType), None)
  {
  }
}

=== FILE: wrappers.dfy ===
/** Failure-carrying datatypes shared by every module of the model.

    `Result` stands for a Python call that either returns a value or raises;
    `Fault` names the kind of exception raised, so that a contract can say
    which error path a given input takes.
 */
module Wrappers {

  datatype Option<+T> = None | Some(value: T) {
    function GetOr(default: T): T
    {
      match this
      case Some(v) => v
      case None => default
    }
  }

  /** The exceptions the modelled code raises or catches. */
  datatype Fault =
    | KeyMissing(key: string)       // KeyError from `d[key]`
    | WrongType(operation: string)  // TypeError / AttributeError from an ill-typed value
    | BadValue(message: string)     // ValueError raised explicitly or by unpacking
    | NotFound(what: string)        // FileNotFoundError
    | Unparseable(file: string)     // open() or json.load() failed on a stored file
    | StorageFailure(file: string)  // a write to the memory directory failed
    | DatabaseFailure(why: string)  // sqlite3.Error

  datatype Result<+T> = Ok(value: T) | Err(fault: Fault) {
    predicate IsFailure() { Err? }

    function PropagateFailure<U>(): Result<U>
      requires Err?
    {
      Err(fault)
    }

    function Extract(): T
      requires Ok?
    {
      value
    }
  }
}
